=== FILE: README.md ===
# Gobbler simulation rules in Dafny

This project models the rules of the gobbler arcade game, without drawing, sound or input. The player is a round mouth flying over the ground. It eats smaller fliers (NPCs), is eaten by larger ones, and dies when it swallows a bomb. Stars shrink it back to its base size. Around these per-entity state machines sit the game rules of `src/main.js`:

- the eat rule;
- score keeping with the boss score lock;
- lives and the continue screen;
- difficulty and the miss-driven stress (dynamic difficulty);
- the spawn director: spacing gate, overlap tests, encounter patterns, radius choice, trails;
- story checkpoints;
- the boss sequence: hits, time bonus, the outro phase machine and the dialogue cursor.

Every rule is a pure function over immutable records. Conventions:

- Numbers are `real`. JavaScript `Math.round(x)` is `floor(x + 0.5)`, and `%` is the truncating remainder.
- Random draws (`Math.random`, `rand`) are explicit parameters in [0,1).
- The `deps` callback bag of the entity files becomes an emitted list of `Events.Event`: score requests, pop-up texts, bites, bursts, the switch to `dying`, hiding the score.
- Entity lists are processed from the last index down, as the source's splice loops do.
- `Math.sin(π·p)` in the mouth pulse and `Math.pow(x, 0.65)` in the speed curve are function parameters. Their only assumed properties are: the sine maps [0,1] into [0,1] (`Mouth.SinPiOk`); the power maps 0 to 0 and 1 to 1 and is monotone on [0,1] (`Difficulty.PowOk`).
- Distances are compared through squares. `MathUtil.DistCompare` shows that this agrees with comparing `Math.hypot`.

Modules, one per file: `Common`, `MathUtil`, `Config`, `Mouth`, `Player`, `Events`, `EatRule`, `Swallow` (the eaten animation shared by NPCs, bombs and stars), `Npcs`, `Hazards`, `Powerups`, `Scoring`, `Difficulty`, `Spawn`, `Trail`, `Encounters`, `Checkpoints`, `Boss`, `Lives`.

Behaviour of the code worth knowing:

- Under the boss score lock, `deductScore` is blocked as well as `addScore`, so a miss costs nothing during the fight.
- The boss time bonus is paid when the outro starts (`startBossOutro`). The `bonus_pop` phase only shows it.
- `hazards.js` never calls `onBossHit`, `onPlayerDeath` or `registerDeath`. A bomb sets `dying` without costing a life. `onBossHit` is modelled as the handler the game passes in.
- Trail beads call `markSpawn` without asking `canSpawnNow`. The spacing gate therefore only holds between gated spawns.
- `npc.js` reports a bite on capture (`onBite`). `hazards.js` does not.

## Model

| member | source | states |
|---|---|---|
| MathUtil.Clamp | src/utils/math.js:1 | The result lies in [a,b] when a ≤ b, equals v when v is already in range, and is a when a > b. |
| MathUtil.Lerp | src/utils/math.js:3 | lerp(a,b,0) = a, lerp(a,b,1) = b, and for t in [0,1] the result lies between the end points. |
| MathUtil.LerpMonotone | src/utils/math.js:3 | Toward a larger end point, lerp grows with t. |
| MathUtil.LerpAntitone | src/utils/math.js:3 | Toward a smaller end point (a shrinking radius), lerp falls as t grows. |
| MathUtil.EaseInOut | src/utils/math.js:4 | easeInOut(0) = 0, easeInOut(1) = 1, and [0,1] maps into [0,1]. |
| MathUtil.EaseInOutMonotone | src/utils/math.js:4 | easeInOut is monotone on [0,1]. |
| MathUtil.Rand | src/utils/math.js:2 | A draw u in [0,1) gives a value in [a,b), and u = 0 gives a. |
| MathUtil.Round | src/main.js:387 | `Math.round` lands within half a unit of its argument, with halves rounding up. |
| MathUtil.NormalizeAngle | src/utils/math.js:13-15 | The two wrap loops terminate with the difference in [−π, π] and leave an in-range difference alone. |
| MathUtil.NormalizeAngleTurns | src/utils/math.js:13-15 | The wrapped difference differs from the original by a whole number of turns. |
| MathUtil.LerpAngle | src/utils/math.js:12-17 | t = 0 returns a, t = 1 returns a plus the wrapped difference, and the result stays within π of a. |
| MathUtil.DistCompare | src/utils/math.js:6-10 | Comparing squared distances with c² agrees with comparing the hypot distance with c, for ≤ and <. |
| MathUtil.DistSymmetric | src/utils/math.js:6-10 | Distance comparisons do not depend on the order of the two points. |
| MathUtil.JsMod | src/main.js:2238 | The JavaScript remainder of a non-negative value by a positive period lies in [0, period) and is the value itself below the period. |
| Config.ScoreFromRadius | src/config.js:14 | round(r/6) lies within half a point of r/6 and is non-negative for r ≥ 0. |
| Config.GrowFromRadius | src/config.js:15 | The growth bonus lies in [1,10] and equals round(r/7) whenever that is in range. |
| Config.GrowthStep | src/config.js:15 | Each eat adds between 4 and 13 before the radius clamp. |
| Config.ConfigConsistent | src/config.js:8-71 | The margin is positive, base speed ≤ max speed with the initial speed at base, the gap range is non-empty, the stress threshold is below 1, the relief window is shorter than the wave, and the trail length range is non-empty. |
| Mouth.TriggerChomp | src/entities/mouth.js:1-6 | A chomp is a no-op exactly when the cooldown is positive. Otherwise it restarts the pulse with the configured duration and cooldown. |
| Mouth.UpdateMouth | src/entities/mouth.js:8-16 | The cooldown drops by dt only while positive. The pulse stays in [0,1] and never goes back for dt ≥ 0. The mouth is shut once the pulse is done. |
| Mouth.Idle | src/entities/player.js:15 | A new mouth is shut, its pulse finished and its cooldown spent. |
| Mouth.SpentCooldownStays | src/entities/mouth.js:9 | A spent cooldown is never touched again by frames. |
| Mouth.CooldownTrace | src/entities/mouth.js:9 | Across frames, a positive cooldown drops by exactly the time elapsed until it runs out. |
| Mouth.ChompGate | src/entities/mouth.js:2-9 | After a successful chomp, another chomp is ignored exactly until the elapsed frame time reaches the minimum cooldown. |
| Player.CreatePlayer | src/entities/player.js:6-19 | A new player has r = baseR, no growth cap, is alive and not being eaten, has an idle mouth and is unsquashed at x = 160. |
| Player.GrowthUncapped | src/entities/player.js:12 | With maxR = Infinity, any radius at least baseR is a legal size. |
| Player.ClampRadius | src/entities/npc.js:107 | The clamp to [baseR, maxR] lands in range, keeps a legal value, and is plain max(baseR, v) without a cap. |
| Player.ClampToGround | src/entities/npc.js:108 | Only y changes, and afterwards the player's squashed bottom is at or above the ground. |
| EatRule.CanEat | src/main.js:510 | A eats B exactly when A is at least 1.1 times B (`EAT.margin` 0.1). The lemmas below give its meaning: never both ways, strictly larger, monotone in both sizes. |
| EatRule.CanEatAsymmetric | src/main.js:510 | Two positive radii can never eat each other. |
| EatRule.CanEatStrict | src/main.js:510 | Eating needs a strictly larger radius. |
| EatRule.CanEatMonotone | src/main.js:510 | A bigger eater or a smaller prey keeps the eat possible. |
| EatRule.CanEatExamples | src/main.js:510 | canEat(18,10) holds and canEat(18,20) does not. |
| Swallow.SwallowStep | src/entities/npc.js:96-101 | The swallow timer stays in [0,1] and never goes back. The radius stays in [0,r0]. On completion the body sits on the player with radius 0. |
| Swallow.SwallowShrinks | src/entities/hazards.js:30-35 | A later swallow time never gives a larger radius. |
| Swallow.SwallowStepShrinks | src/entities/npc.js:96-101 | A frame of swallowing never makes the prey larger. |
| Swallow.SwallowBody | src/entities/hazards.js:30-35 | A swallow frame keeps a bomb or star well formed and being eaten, with its timer never going back. |
| Swallow.SwallowCompletesInOneLongFrame | src/entities/powerups.js:31 | A frame at least one swallow duration long finishes the swallow. |
| Swallow.DriftBodies | src/entities/hazards.js:3-8 | `driftReds`, and `driftBlues` (powerups.js, the same code): every shifted body right of −140 is kept, and nothing else appears. |
| Swallow.DriftBodiesSingle | src/entities/hazards.js:4-7 | A single body survives exactly when its shifted x is not past −140, and then it is the shifted body. |
| Swallow.DriftBodiesAppend | src/entities/hazards.js:3-8 | The drift of a concatenation is the concatenation of the drifts. With the single case this fixes the result: the survivors in their original order, each once. |
| Swallow.MakeBody | src/entities/hazards.js:1 | `makeRed`, and `makeBlue` (powerups.js, the same code): a new bomb or star flies at the given spot and size with its swallow timer at 0. |
| Npcs.MakeNpc | src/entities/npc.js:1-15 | A new NPC flies with timer 0, a neutral face, an idle mouth and a vertical speed in [−12,12). |
| Npcs.DriftNpcs | src/entities/npc.js:17-22 | Every shifted NPC right of −220 is kept, and nothing else appears. |
| Npcs.DriftNpcsSingle | src/entities/npc.js:18-21 | A single NPC survives exactly when its shifted x is not past −220, and then it is the shifted NPC. |
| Npcs.DriftNpcsAppend | src/entities/npc.js:17-22 | The drift of a concatenation is the concatenation of the drifts. With the single case this fixes the result: the survivors in their original order, each once. |
| Npcs.EmotionToward | src/entities/npc.js:67-79 | An NPC fears a player that can eat it within capture plus intent distance. It is hungry when it can eat the player within that range and the player cannot eat it. |
| Npcs.CaptureImpliesNear | src/entities/npc.js:63-79 | Any capture distance is within the intent distance, so an NPC that captures has already shown its face. |
| Npcs.Encounter | src/entities/npc.js:63-95 | A capture needs the capture distance and the leading-edge test. If the player can eat, the NPC starts being eaten and the player chomps. Otherwise, if the NPC can eat, it starts eating the player and the player is grabbed. Otherwise nothing changes but the face. |
| Npcs.FlyStep | src/entities/npc.js:51-61 | A flying NPC leaving the screen is removed and deducts its points at the clamped height. No capture is attempted while the player is dead or being eaten. |
| Npcs.SwallowNpc | src/entities/npc.js:96-109 | On completion the NPC is removed, its points are added, and the player grows by the step plus the bonus, clamped to [baseR, maxR] and kept above the ground. |
| Npcs.GrownRadius | src/entities/npc.js:106-107 | Growth stays within [baseR, maxR] and adds at least 4 when uncapped. |
| Npcs.StepNpc | src/entities/npc.js:44-113 | The per-NPC state machine only moves fly → beingEaten (when the player can eat) or fly → eatingPlayer (when the NPC can eat and the player cannot). An NPC eating the player only drifts, until x < −220. |
| Npcs.FaceAfterSweep | src/entities/npc.js:116-118 | A free player looks afraid exactly when the nearest danger is closer than 220. |
| Npcs.SweepInvariant | src/entities/npc.js:44-114 | A whole NPC pass keeps every NPC well formed, never adds NPCs, never kills the player, keeps a grab in place and keeps the radius legal. |
| Npcs.NoCaptureWhenHelpless | src/entities/npc.js:61 | While the player is dead or being eaten, a pass starts no new capture. |
| Npcs.BaseRadiusKept | src/entities/npc.js:107 | NPC passes never change baseR or maxR. |
| Npcs.SweepNpcs | src/entities/npc.js:44-114 | The reverse splice loop over the NPCs. Its partner lemmas `Npcs.SweepInvariant`, `Npcs.NoCaptureWhenHelpless` and `Npcs.BaseRadiusKept` state what a pass keeps. |
| Npcs.UpdateNpcsSafe | src/entities/npc.js:24-119 | `updateNPCs` keeps NPCs well formed, the player alive or dead as before, and the radius legal. |
| Npcs.UpdateNpcs | src/entities/npc.js:24-119 | The whole `updateNPCs`: the sweep, then the player's face. Its partner `Npcs.UpdateNpcsSafe` proves it keeps NPCs well formed, never adds any, keeps the player alive or dead as before, and keeps the radius legal with baseR fixed. |
| Hazards.StepBomb | src/entities/hazards.js:12-44 | Any free player meeting the distance and leading-edge test captures a bomb, with no size test, and chomps. A completed swallow kills the player and emits the burst, `dying` and the hidden score. |
| Hazards.BombsAreFatal | src/entities/hazards.js:37-43 | After a bomb pass the player is dead exactly when they were already dead or the pass entered `dying`. The radius and grab are untouched. |
| Hazards.BombsStayOk | src/entities/hazards.js:30-35 | Bomb passes keep every bomb well formed and never add bombs. |
| Hazards.UpdateReds | src/entities/hazards.js:10-46 | The reverse loop over the bombs. Its partners `Hazards.BombsAreFatal` and `Hazards.BombsStayOk` prove: the player ends dead exactly when already dead or the pass entered `dying`; the radius and grab are untouched; bombs stay well formed and none are added. |
| Powerups.Shrink | src/entities/powerups.js:40-46 | The reset puts the radius at baseR exactly, keeps the player above the ground, and below the top with vy ≥ 0. |
| Powerups.ClampToTop | src/entities/powerups.js:43-46 | A player pushed above the screen top is put back with its top edge at 0 and no upward speed; otherwise nothing changes. |
| Powerups.StepStar | src/entities/powerups.js:15-50 | Any capture needs only distance and leading edge, and bites and chomps. Completion resets the radius to baseR and pops "SMALL!" exactly when the radius was different. |
| Powerups.StarsOnlyShrink | src/entities/powerups.js:10-53 | After a star pass the radius is either unchanged or baseR, and life and grab are untouched. |
| Powerups.UpdateBlues | src/entities/powerups.js:10-53 | The reverse loop over the stars. Its partner `Powerups.StarsOnlyShrink` proves the radius ends unchanged or at baseR, with life, grab, baseR and maxR untouched. |
| Scoring.PointsForRadius | src/main.js:454 | Points lie in [1,25] and equal round(r/6) when that is in range. |
| Scoring.PointsMonotone | src/main.js:454 | Bigger NPCs are never worth less. |
| Scoring.SetScore | src/main.js:386-397 | The score becomes max(0, round(n)), and the active mode's best score rises to it. |
| Scoring.BestNeverBelowScore | src/main.js:386-397 | After `setScore` the score never exceeds the active mode's best, and the best never drops. |
| Scoring.AddScore | src/main.js:456-461 | Zero points or the lock change nothing. Otherwise the score rises by the points and "+pts" pops. |
| Scoring.DeductScore | src/main.js:463-470 | Zero points or the lock change nothing. Otherwise the score drops (floored at 0), "−pts" pops, stress rises by the bump (clamped), and the miss is logged. |
| Scoring.AddThenDeduct | src/main.js:456-470 | Deducting a catch's points undoes adding them. |
| Scoring.DeductFloorsAtZero | src/main.js:466 | A miss never goes below 0, and a bigger miss never leaves more. |
| Scoring.LockFreezesScore | src/main.js:456-470 | Under the lock, no sequence of score requests changes anything. |
| Scoring.ScoreEventsKeepValid | src/main.js:386-470 | Score requests keep the score non-negative, at most the best, and stress in [0,1]. |
| Scoring.GainsAccumulate | src/main.js:456-461 | With the lock off, a run of non-negative gains raises the score by exactly their total. |
| Difficulty.ScoreDifficulty01 | src/main.js:482 | score/120 clamped to [0,1]. |
| Difficulty.ScoreDifficultyMonotone | src/main.js:482 | A higher score never means lower difficulty. |
| Difficulty.Difficulty01 | src/main.js:483 | The boss override wins when active. Otherwise difficulty is the score difficulty, in [0,1]. |
| Difficulty.Speed | src/main.js:484-492 | The world speed lies between base·wave·dda and max. It is exactly base at difficulty 0 and max at difficulty 1, without relief or stress. |
| Difficulty.SpeedMonotone | src/main.js:484-492 | Higher difficulty never slows the world. |
| Difficulty.DdaSpeed | src/main.js:490 | The stress factor on speed lies between 0.92 and 1. |
| Difficulty.StressSlows | src/main.js:490 | More eased stress never speeds the world up. |
| Difficulty.MinGapPx | src/main.js:493-499 | The minimum spawn gap lies in [220, 280·1.12], and without stress it is the base gap. |
| Difficulty.BaseGap | src/main.js:494-496 | The unstressed gap lies in [220, 280]. |
| Difficulty.DdaGap | src/main.js:497 | The stress factor on the gap lies between 1 and 1.12. |
| Difficulty.StressWidensGap | src/main.js:497-498 | Stress never narrows the spawn gap. |
| Difficulty.TrailProb | src/main.js:500-504 | The trail chance lies in [0, 0.95]: the difficulty tier, plus exactly the wave boost during relief (the 0.95 cap never binds with these constants). |
| Difficulty.StressEase | src/main.js:2240 | Eased stress lies in [0,1]. It is 0 exactly at or below the threshold, 1 exactly at stress 1, and linear in between. |
| Difficulty.StressEaseMonotone | src/main.js:2240 | More stress never eases less. |
| Difficulty.Relief | src/main.js:2238 | Relief holds when the wave clock modulo the period is past period − relief. `Difficulty.ReliefWindow` and `Difficulty.ReliefPeriodic` prove this is exactly the last 3 s of every 16 s wave. |
| Difficulty.ReliefPeriodic | src/main.js:2238 | The relief window repeats every wave period. |
| Difficulty.ReliefWindow | src/main.js:2238 | Within one period, relief holds exactly in the last `relief` seconds. |
| Difficulty.BumpStress | src/main.js:468 | A miss raises stress by the bump, clamped into [0,1]. |
| Difficulty.DecayStress | src/main.js:2239 | A frame lowers stress by dt·decay, floored at 0. |
| Difficulty.TickDda | src/main.js:2237-2240 | The frame update advances the wave clock and decays stress. It keeps the eased stress and relief consistent with stress and clock. |
| Difficulty.StressStaysInRange | src/main.js:2237-2240 | Any mix of frames and misses keeps stress and eased stress in [0,1]. |
| Difficulty.CalmDecays | src/main.js:2237-2240 | Without misses, stress never rises. |
| Spawn.CirclesOverlap | src/main.js:524-528 | Two circles overlap when their centres are closer than the radii plus the 6-pixel gap, compared through squares. `Spawn.FarApartSound` shows the horizontal prefilter of `overlapsExisting` never hides such an overlap. |
| Spawn.FarApartSound | src/main.js:532 | The horizontal prefilter never skips a real overlap. |
| Spawn.OverlapsAnyExists | src/main.js:524-544 | `overlapsExisting` is true exactly when some NPC, bomb or star circle overlaps the candidate with the 6-pixel gap. |
| Spawn.OverlapsAny | src/main.js:530-544 | The prefiltered scan of `overlapsExisting`. Its partner `Spawn.OverlapsAnyExists` proves it is true exactly when some circle overlaps. |
| Spawn.ResolveSpawnX | src/main.js:558-565 | The result is x + 4k with k ≤ 60. Every earlier candidate overlapped, and when k < 60 the result is free. |
| Spawn.FirstFree | src/main.js:549-553 | The height chosen is the first free candidate, if there is one, and the last candidate otherwise. |
| Spawn.HeightCandidates | src/main.js:549-553 | The 30 candidate heights are the draws after the first, scaled into the spawn band. |
| Spawn.CandidatesInBand | src/main.js:549-553 | Every candidate height lies in [60, groundY − 40]. |
| Spawn.PickSpawnY | src/main.js:546-556 | The height is one of the 30 draws in [60, groundY − 40], and it is free whenever any draw is free. |
| Spawn.FirstDrawUnused | src/main.js:549 | The initial draw never influences the result. |
| Spawn.CanSpawnNow | src/main.js:1697-1700 | The gate opens when the spawn point has moved the minimum gap since the last spawn. `Spawn.MarkSpawn` and `Spawn.SpawnSpacing` prove it closes right after a spawn and reopens exactly after the gap. |
| Spawn.MarkSpawn | src/main.js:1701 | Right after a spawn, the gate is closed for any positive gap. |
| Spawn.SpawnSpacing | src/main.js:1697-1701 | After `markSpawn`, the gate opens again exactly when the scroll has advanced by the gap. |
| Spawn.SpawnTimer | src/main.js:2434-2454 | A spawn timer fires exactly when it has run out and the gate is open. It then rearms within the interval, and otherwise retries after the fixed delay. |
| Spawn.SpawnRed | src/main.js:1860-1867 | A new bomb appears at innerWidth + 120 with radius in [12,22), at the picked height. |
| Spawn.SpawnBlue | src/main.js:1869-1876 | A new star appears at innerWidth + 120 with radius in [14,26), at the picked height. |
| Trail.MaybeStartTrail | src/main.js:1757-1776 | A trail starts exactly when none runs and the roll beats the trail chance. Its length is 4..7, its spacing in [0.18, 0.26], and a red trail's bomb sits at the middle index. |
| Trail.BeadRadius | src/main.js:1782-1783 | A bead's radius lies in [10,68] and the player can eat it (for player radius ≥ 11). |
| Trail.SpawnTrailMember | src/main.js:1778-1800 | Each bead adds one edible, worth-its-size NPC at the trail height, or the bomb at the bomb slot. It counts one spawned and one fewer remaining. |
| Trail.RunTrail | src/main.js:1805-1812 | The inner `while` of `updateTrail`. Its partners `Trail.TrailPlacesOwedBombs` and `Trail.TrailLengthFixed` prove bombs are conserved and the total length is fixed. |
| Trail.UpdateTrail | src/main.js:1802-1813 | No trail means no change. Bombs placed this frame are exactly those the trail stops owing, and earlier bombs stay. A trail that survives keeps spawned + remaining and has time left on its clock. |
| Trail.NewTrailOwesOneBomb | src/main.js:1771 | A new red trail owes exactly one bomb, a plain one none. |
| Trail.TrailPlacesOwedBombs | src/main.js:1802-1813 | Bombs are conserved across the trail loop: bombs placed equal bombs no longer owed. |
| Trail.TrailLengthFixed | src/main.js:1802-1813 | A live trail keeps spawned + remaining fixed, and stops the loop with time left on its clock. |
| Encounters.Pool | src/main.js:1725 | The pool has 3 or 4 patterns, chosen by difficulty band. |
| Encounters.PatternsStartEdible | src/main.js:1705-1723 | Every pattern in every pool starts with edible and has 3 to 5 entries. |
| Encounters.Refill | src/main.js:1703-1728 | A refill appends one whole pattern of the pool to the queue, starting with edible. |
| Encounters.DangerOnScreen | src/main.js:1730-1737 | The count is positive exactly when some flying NPC can eat the player. |
| Encounters.NextNpcBucket | src/main.js:1739-1755 | A pending follow-up yields edible and ends the trail. Otherwise the queue head is taken (edible after a refill), and an easy danger is softened while one is on screen. The follow-up flag is set exactly when danger is returned. |
| Encounters.DangerThenEdible | src/main.js:1739-1755 | A danger is always followed by an edible. |
| Encounters.PickIn | src/main.js:1830 | The band is used when wider than half a pixel, and the fallback band otherwise. |
| Encounters.EdibleRadius | src/main.js:1833-1835 | For a player of radius at least 13, an edible radius lies in [10, 62) and the player can eat it. |
| Encounters.DangerRadius | src/main.js:1836-1838 | For a player of radius 13 to 57, a danger radius lies in [14, 68] and can eat the player. |
| Encounters.NeutralRadius | src/main.js:1839-1842 | A neutral radius is at least 12. For a player of radius 14 to 55 it lies within 2% of either eat threshold: at least pr/1.1·0.98 and below pr·1.1·1.02. |
| Encounters.ChooseNpcRadius | src/main.js:1815-1844 | The radius lies in [10,68]. The drought counter resets on edible and grows otherwise, and it never exceeds the guarantee when it starts within it. |
| Encounters.EdibleIsEdible | src/main.js:1815-1834 | An edible-bucket radius can be eaten by any player of radius 13 or more. |
| Encounters.DangerIsDangerous | src/main.js:1835-1837 | A danger-bucket radius can eat a player of radius 13 to 57. |
| Encounters.BigPlayerIsSafe | src/main.js:1843 | Past radius 68/1.1, nothing spawned can eat the player. |
| Encounters.SpawnNpc | src/main.js:1846-1858 | The new NPC is appended, flies, has radius in [10,68], and is placed 160/80/0 further right for danger/neutral/edible. Danger NPCs are worth 0 and the rest their points. |
| Checkpoints.CheckpointX | src/main.js:588-589 | Checkpoints lie in [0, 20000], from 0 to the level end. |
| Checkpoints.CheckpointsIncrease | src/main.js:588-589 | Checkpoints lie strictly left to right. |
| Checkpoints.UpdateCheckpointProgress | src/main.js:1497-1507 | The cursor advances by one exactly when not in arcade and the next checkpoint is reached. Advancing records score and base radius and shows the toast. Otherwise nothing changes. |
| Checkpoints.ProgressStaysReached | src/main.js:1497-1507 | Scrolling forward keeps the cursor on a reached, recorded checkpoint. |
| Checkpoints.ProgressMonotone | src/main.js:1497-1507 | Over any frames the cursor never moves back, moves at most one checkpoint per frame, and never moves in arcade. |
| Checkpoints.SyncCheckpointToScroll | src/main.js:1509-1519 | The sync picks the latest checkpoint reached (skipping the finish in the cutscene) and records score and size there only if missing. |
| Checkpoints.LatestUnique | src/main.js:1509-1519 | There is only one latest checkpoint. |
| Checkpoints.SyncedIsStable | src/main.js:1497-1519 | Right after a sync outside the cutscene, progress tracking has nothing left to advance. During the cutscene the sync stops short of the finish, which a later update can still reach. |
| Checkpoints.SyncedInCutsceneMayFinish | src/main.js:1497-1519 | After a sync during the cutscene, which stops one short of the finish, the progress update steps onto the finish exactly when the scroll has reached it, and otherwise changes nothing. |
| Boss.GetBossBonusForTime | src/main.js:1013-1018 | The bonus is 1000, 500, 250 or 0. It is 1000 exactly up to 120 s and 0 exactly after 360 s. |
| Boss.BonusNonIncreasing | src/main.js:1013-1018 | A slower fight never earns more. |
| Boss.NextPhase | src/main.js:1586-1688 | Each outro phase hands over to the one ranked next; only the fade-out hands back to idle. |
| Boss.BeginStageClear | src/main.js:997-1004 | Stage clear hides the health bar and releases the boss difficulty. |
| Boss.AwardBossBonus | src/main.js:1006-1011 | The bonus is paid at most once, through `setScore`, and the score rises by exactly the tier. |
| Boss.BonusOnce | src/main.js:1006-1011 | Paying twice pays once. Under the lock that blocks `addScore`, the bonus still raises the score. |
| Boss.StartBossOutro | src/main.js:1082-1133 | Unless already running: the outro starts at white-in with the clock at 0, the boss timer stops, the bonus is paid and the outro script loaded. Otherwise nothing changes. |
| Boss.BeginBossOutro | src/main.js:1020-1037 | Unless already running: the score locks, the cutscene starts, the boss difficulty is pinned at 1 if none was active, and the outro starts. |
| Boss.OutroStartsOnce | src/main.js:1020-1037 | Beginning or starting the outro again changes nothing. |
| Boss.OnBossHit | src/main.js:2580-2593 | Outside the boss phase a hit is ignored. A hit takes hp to max(0, hp−1) and takes a boss checkpoint. Only the hit leaving hp at 0 starts the outro. |
| Boss.BossPhase | src/main.js:2393-2396 | The boss phase is the cutscene with the health bar shown and the outro not past the white flash. `Boss.HitsEndWithOutro` shows it is off from the frame after the outro begins. |
| Boss.HitsEndWithOutro | src/main.js:2396 | From the frame after the outro begins, the recomputed boss phase is off and a hit changes nothing. |
| Boss.LastHitStartsOutro | src/main.js:2582-2592 | A boss with n hit points survives n−1 hits without the outro, and the n-th starts it. |
| Boss.StartBossFinale | src/main.js:1135-1145 | The finale enters the explode phase at clock 0, with the boss gone and the backdrop black. |
| Boss.StartFight | src/main.js:1548-1578 | The end of the intro locks the score, restarts the boss timer, owes the bonus again, pins difficulty at 1, refills the boss hp and takes a boss checkpoint. |
| Boss.AdvanceDialogue | src/main.js:1527-1546 | A press completes a typing line, moves from a finished line to the next, or ends the script. That ends in the finale for the outro and the fight for the intro. Past the end it does nothing. |
| Boss.AdvanceProgresses | src/main.js:1527-1546 | Each press before the end strictly advances the dialogue and never passes its end. |
| Boss.PressDialogue | src/main.js:1527-1578 | A press moves the cursor. The end of the outro script starts the finale and the end of the intro starts the fight. |
| Boss.OutroDialogueTakesFourPresses | src/main.js:1527-1546 | Read from the start with no typing time, the two-line outro script blows the boss up on the fourth press and not before. |
| Boss.UpdateBossOutro | src/main.js:1586-1695 | A timed phase hands over to the next when its clock reaches its length, resetting the clock (except at the fade-out, which ends the outro). The dialogue phase waits for presses. The cues along the way: the scene lock, the world clear and the bonus pop. The end is the stage clear. |
| Boss.OutroStep | src/main.js:1586-1688 | A frame moves an active outro by at most one phase, never back. |
| Boss.OutroNoSkip | src/main.js:1586-1688 | Over any frames the outro only moves forward, at most one phase per frame, and frames alone never pass the dialogue. |
| Boss.OutroIdleStays | src/main.js:1587 | A finished outro ignores frames. |
| Lives.RegisterDeath | src/main.js:472-480 | Ignored while dying or in game over. Otherwise one more death and half a heart less (floored at 0). The arcade toast shows from the 100th death and the sequence plays exactly at the 100th. |
| Lives.FreshLives | src/main.js:165-169 | A run starts with 8 half hearts and no deaths. |
| Lives.DeathsCountDown | src/main.js:472-480 | n deaths count n and cost n half hearts, down to 0. |
| Lives.NoDoubleDeath | src/main.js:473 | A second death in the same dying spell costs nothing. |
| Lives.BeginGameOver | src/main.js:938-951 | The game-over screen enters insert mode exactly when no coin is left. |
| Lives.ContinueFromGameOver | src/main.js:983-995 | Ignored during the resume delay. Insert mode refills to 5 coins without resuming. Otherwise one coin is spent (floored at 0) and the resume delay starts. Coins stay in [0,5]. |
| Lives.ResumeTick | src/main.js:2823-2828 | The resume delay counts up to 1.5 s and then resumes play, keeping the coins. |
| Lives.FinishContinue | src/main.js:974-981 | Continuing refills the lives to 8 half hearts. |
| Lives.ContinueCostsOneCoin | src/main.js:983-995 | With coins left a continue costs one. With none, the first press refills to five and the second spends one. |
| Lives.PressesDuringDelayIgnored | src/main.js:984 | Presses during the resume delay change nothing. |

## Left out

- Rendering, particle effects, floaters, audio, `localStorage` persistence, DOM and input wiring. They are presentation or I/O. Pop-ups and bursts appear only as emitted events.
- Splash screens, the start menu and the start transition are presentation sequencing.
- Player and boss ballistics (gravity, flaps, squash easing) and the mouth aim by `atan2`/`lerpAngle` are floating-point presentation. `lerpAngle` itself is modelled.
- The `tick` orchestration. The rules are separate functions. Which of them run in a frame, and in which order, is not modelled.
- Npcs.UpdateNpcs: the vertical bounce is modelled, but the NPC mouth aim (`atan2`, `Math.pow(0.001, dt)`) is not.
- Npcs.FlyStep: `Math.hypot` is compared through squares. The nearest danger is kept as a squared distance, which orders dangers the same way.
- Mouth.UpdateMouth: `Math.sin` is a parameter. Only its range on [0,1] is assumed, so the opening is stated as a range, not as a value.
- Difficulty.Speed: `Math.pow(x, 0.65)` is a parameter, assumed monotone with f(0) = 0 and f(1) = 1. Bounds and monotonicity are proved, exact speeds are not.
- Random draws are parameters. The generator and its distribution are not modelled.
- `pickBossThreat` only reacts to deflected bombs, which `hazards.js` never produces.
- The miss log (`logMiss`) is modelled as two counters, not as a list of entries.
- Encounters.SpawnNpc: the `markSpawn` call is the caller's separate step (`Spawn.MarkSpawn`), as for bombs and stars.
- Boss.UpdateBossOutro: the white and black fade alphas, the explosion and sound timers of the boom phase, and the bodies of `lockBossOutroScene` and `clearBossOutroWorld` are not modelled. The outro reports the latter two as cues.
- Boss.StartFight: the spawn timers, dust and burst effects it also resets are not modelled.
- Boss.OnBossHit: the checkpoint toast it restarts (`checkpointToastT`), the hit sound and the line burst are presentation and are not modelled.
- Boss.PressDialogue: the per-frame typing of dialogue text (`dialogueChar` grows by `ceil(38·dt)` each frame) is frame presentation and is not modelled. A press completes the line at once, so `Boss.OutroDialogueTakesFourPresses` counts presses with no typing frames in between.
- Lives.RegisterDeath: the died-100 sound sequence is reduced to a flag saying it starts.
- The game-over "final" sequence (`startGameOverFinal`) is presentation.
- `warpNearFinish` and respawning at a checkpoint are debug and presentation paths. Only the checkpoint sync they call is modelled.

=== FILE: boss.dfy ===
/**
  The boss sequence of src/main.js: the hit handler `onBossHit`, the time
  bonus (`getBossBonusForTime`, `awardBossBonus`), the outro phase machine
  (`beginBossOutro`, `startBossOutro`, `updateBossOutro`, `startBossFinale`)
  and the dialogue cursor `advanceDialogue`.
 */
module Boss {
  import opened Common
  import opened Scoring

  /** `bossOutro.phase`. */
  datatype OutroPhase =
    | Idle | WhiteIn | WhiteHold | WhiteOut | Boom | Dialogue | Explode | BonusHold | BonusPop | FadeOut

  /** Phase lengths in seconds (the `bossOutro` defaults). */
  const WhiteInDur: real := 0.35
  const WhiteHoldDur: real := 2.0
  const WhiteOutDur: real := 0.4
  const BoomDur: real := 2.1
  const FinaleDur: real := 0.7
  const BonusHoldDur: real := 1.5
  const BonusPopDur: real := 0.9
  const FadeOutDur: real := 0.9

  /** Phases that end when their timer runs out (the dialogue waits for input, idle for nothing). */
  predicate Timed(p: OutroPhase) {
    p != Idle && p != Dialogue
  }

  function Duration(p: OutroPhase): (d: real)
    requires Timed(p)
    ensures d > 0.0
  {
    match p
    case WhiteIn => WhiteInDur
    case WhiteHold => WhiteHoldDur
    case WhiteOut => WhiteOutDur
    case Boom => BoomDur
    case Explode => FinaleDur
    case BonusHold => BonusHoldDur
    case BonusPop => BonusPopDur
    case FadeOut => FadeOutDur
  }

  /** Position of a phase in the outro; 0 for idle. */
  function Rank(p: OutroPhase): nat {
    match p
    case Idle => 0
    case WhiteIn => 1
    case WhiteHold => 2
    case WhiteOut => 3
    case Boom => 4
    case Dialogue => 5
    case Explode => 6
    case BonusHold => 7
    case BonusPop => 8
    case FadeOut => 9
  }

  /** The phase after p; the one after fade-out is idle again. */
  function NextPhase(p: OutroPhase): (q: OutroPhase)
    requires p != Idle
    ensures p != FadeOut ==> Rank(q) == Rank(p) + 1
    ensures p == FadeOut <==> q == Idle
  {
    match p
    case WhiteIn => WhiteHold
    case WhiteHold => WhiteOut
    case WhiteOut => Boom
    case Boom => Dialogue
    case Dialogue => Explode
    case Explode => BonusHold
    case BonusHold => BonusPop
    case BonusPop => FadeOut
    case FadeOut => Idle
  }

  /** The outro machine (the alpha values and explosion timers are presentation only). */
  datatype Outro = Outro(active: bool, phase: OutroPhase, t: real, bossGone: bool, blackBackdrop: bool)

  /** Where an outro stands: its phase rank while active, 10 once over. */
  function Progress(o: Outro): nat {
    if o.active then Rank(o.phase) else 10
  }

  /** Which script the dialogue box reads (`dialogueMode`). */
  datatype Script = IntroScript | OutroScript

  const IntroLines: seq<string> := [
    "You really thought you could just glide past me?",
    "Move, brother. I am done playing nice.",
    "Always the golden child. Still hiding behind speed?",
    "Still hiding behind a big mouth?",
    "Then prove it. Step up."]
  const OutroLines: seq<string> := [
    "Heh. Not bad for a featherweight.",
    "This ends now."]

  function Lines(s: Script): (ls: seq<string>)
    ensures |ls| > 0
  {
    match s
    case IntroScript => IntroLines
    case OutroScript => OutroLines
  }

  /** The dialogue cursor: the script, the line, and how many characters are shown. */
  datatype DialogueBox = DialogueBox(script: Script, index: nat, shown: nat)

  /** What a press did beyond moving the cursor: ended the outro script or the intro script. */
  datatype DialogueEnd = Continues | Finale | FightStarts

  /**
    `advanceDialogue`: past the end, nothing; a line still typing is
    completed at once; a finished line moves to the next one; the last
    finished line ends the script.
   */
  function AdvanceDialogue(d: DialogueBox): (r: (DialogueBox, DialogueEnd))
    ensures d.index >= |Lines(d.script)| ==> r == (d, Continues)
    ensures d.index < |Lines(d.script)| && d.shown < |Lines(d.script)[d.index]| ==>
      r == (d.(shown := |Lines(d.script)[d.index]|), Continues)
    ensures d.index < |Lines(d.script)| - 1 && d.shown >= |Lines(d.script)[d.index]| ==>
      r == (d.(index := d.index + 1, shown := 0), Continues)
    ensures d.index == |Lines(d.script)| - 1 && d.shown >= |Lines(d.script)[d.index]| ==>
      r.0 == d.(index := |Lines(d.script)|, shown := 0) &&
      r.1 == (if d.script == OutroScript then Finale else FightStarts)
    ensures r.0.script == d.script && (d.index <= |Lines(d.script)| ==> r.0.index <= |Lines(d.script)|)
  {
    var lines := Lines(d.script);
    if d.index >= |lines| then (d, Continues)
    else if d.shown < |lines[d.index]| then (d.(shown := |lines[d.index]|), Continues)
    else if d.index < |lines| - 1 then (d.(index := d.index + 1, shown := 0), Continues)
    else (d.(index := |lines|, shown := 0), if d.script == OutroScript then Finale else FightStarts)
  }

  /** Two steps per line: typing, then read. */
  function DialogueSteps(d: DialogueBox): nat {
    var lines := Lines(d.script);
    if d.index >= |lines| then 2 * |lines|
    else 2 * d.index + (if d.shown >= |lines[d.index]| then 1 else 0)
  }

  /** Every press before the end moves the dialogue forward, and it never passes the end of its script. */
  lemma AdvanceProgresses(d: DialogueBox)
    ensures DialogueSteps(AdvanceDialogue(d).0) <= 2 * |Lines(d.script)|
    ensures d.index < |Lines(d.script)| ==> DialogueSteps(AdvanceDialogue(d).0) > DialogueSteps(d)
  {
  }

  /** Time-bonus tiers for beating the boss. */
  function GetBossBonusForTime(t: real): (b: int)
    ensures b == 1000 || b == 500 || b == 250 || b == 0
    ensures b == 1000 <==> t <= 120.0
    ensures b == 0 <==> t > 360.0
  {
    if t <= 120.0 then 1000
    else if t <= 240.0 then 500
    else if t <= 360.0 then 250
    else 0
  }

  /** A slower fight never earns a bigger bonus. */
  lemma BonusNonIncreasing(t1: real, t2: real)
    requires t1 <= t2
    ensures GetBossBonusForTime(t2) <= GetBossBonusForTime(t1)
  {
  }

  /** The boss checkpoint taken on each hit. */
  datatype Snapshot = Snapshot(score: int, size: real, x: real, hp: int, timer: real)

  /** Everything the boss sequence reads and writes. */
  datatype Fight = Fight(
    state: GameState, showHealthBar: bool,
    hp: int, hpMax: int,
    score: ScoreState,
    bonusAwarded: bool, timer: real, timerActive: bool,
    difficulty: real, difficultyActive: bool,
    outro: Outro, dialogue: DialogueBox, snap: Snapshot)

  /** The outro has gone past the white flash: hits and play are locked out. */
  predicate OutroLocked(o: Outro) {
    o.active && o.phase != WhiteIn && o.phase != WhiteHold && o.phase != WhiteOut
  }

  /** `bossPhase` as computed at the top of a frame. */
  predicate BossPhase(f: Fight) {
    f.state == Cutscene && f.showHealthBar && !OutroLocked(f.outro)
  }

  /** `awardBossBonus`: once per fight, through `setScore`, so the score lock does not block it. */
  function AwardBossBonus(f: Fight): (r: Fight)
    ensures f.bonusAwarded ==> r == f
    ensures !f.bonusAwarded ==> r.bonusAwarded && r == f.(bonusAwarded := true, score := r.score)
    ensures !f.bonusAwarded && f.score.score >= 0 ==>
      r.score.score == f.score.score + GetBossBonusForTime(f.timer) && r.score.locked == f.score.locked
  {
    if f.bonusAwarded then f
    else
      var bonus := GetBossBonusForTime(f.timer);
      f.(bonusAwarded := true,
         score := if bonus > 0 then SetScore(f.score, (f.score.score + bonus) as real) else f.score)
  }

  /** The bonus is paid at most once, and even under the lock that stops `addScore`. */
  lemma BonusOnce(f: Fight, x: real, y: real)
    requires !f.bonusAwarded && f.score.locked && f.score.score >= 0 && f.timer <= 360.0
    ensures AwardBossBonus(AwardBossBonus(f)) == AwardBossBonus(f)
    ensures AwardBossBonus(f).score.score > f.score.score
    ensures AddScore(f.score, GetBossBonusForTime(f.timer), x, y).0.score == f.score.score
  {
  }

  /** The outro as `startBossOutro` leaves it. */
  const OutroStart: Outro := Outro(true, WhiteIn, 0.0, false, false)

  /**
    `startBossOutro`: unless already running, start at the white flash,
    stop the boss timer, pay the time bonus and load the outro script.
   */
  function StartBossOutro(f: Fight): (r: Fight)
    ensures f.outro.active ==> r == f
    ensures !f.outro.active ==>
      r.outro == OutroStart && !r.timerActive && !r.showHealthBar &&
      r.dialogue == DialogueBox(OutroScript, 0, 0) && r.bonusAwarded &&
      r.score == AwardBossBonus(f).score &&
      r.hp == f.hp && r.state == f.state && r.timer == f.timer
  {
    if f.outro.active then f
    else
      var g := AwardBossBonus(f.(outro := OutroStart, timerActive := false));
      g.(dialogue := DialogueBox(OutroScript, 0, 0), showHealthBar := false)
  }

  /**
    `beginBossOutro`: unless already running, lock the score, pin the
    difficulty at 1 if no boss difficulty is active yet, enter the cutscene,
    and start the outro.
   */
  function BeginBossOutro(f: Fight): (r: Fight)
    ensures f.outro.active ==> r == f
    ensures !f.outro.active ==>
      r.outro == OutroStart && r.state == Cutscene && r.score.locked && r.bonusAwarded &&
      r.difficultyActive && r.difficulty == (if f.difficultyActive then f.difficulty else 1.0) &&
      r.dialogue == DialogueBox(OutroScript, 0, 0)
  {
    if f.outro.active then f
    else
      var g := f.(score := f.score.(locked := true), state := Cutscene, showHealthBar := true,
                  difficulty := if f.difficultyActive then f.difficulty else 1.0,
                  difficultyActive := true);
      StartBossOutro(g)
  }

  /** Starting the outro twice is starting it once: the bonus cannot be paid twice this way. */
  lemma OutroStartsOnce(f: Fight)
    ensures BeginBossOutro(BeginBossOutro(f)) == BeginBossOutro(f)
    ensures StartBossOutro(BeginBossOutro(f)) == BeginBossOutro(f)
  {
  }

  /**
    `onBossHit`: ignored outside the boss phase; otherwise one hit point
    less (never below 0), a fresh boss checkpoint, and the outro when the
    hit was the last. The checkpoint toast the hit restarts is presentation
    and is not part of the fight state.
   */
  function OnBossHit(f: Fight, bossPhase: bool, baseR: real, scrollX: real): (r: Fight)
    ensures !bossPhase ==> r == f
    ensures bossPhase ==>
      r.hp == (if f.hp >= 1 then f.hp - 1 else 0) &&
      r.snap == Snapshot(f.score.score, baseR, scrollX, r.hp, f.timer)
    ensures bossPhase && f.hp > 1 ==> r == f.(hp := f.hp - 1, snap := r.snap)
    ensures bossPhase && f.hp <= 1 ==> r.outro.active && r.score.locked == (f.score.locked || !f.outro.active)
    ensures bossPhase && f.hp <= 1 && !f.outro.active ==> r.outro == OutroStart && r.bonusAwarded
  {
    if !bossPhase then f
    else
      var hp := if f.hp - 1 > 0 then f.hp - 1 else 0;
      var g := f.(hp := hp, snap := Snapshot(f.score.score, baseR, scrollX, hp, f.timer));
      if hp <= 0 then BeginBossOutro(g) else g
  }

  /**
    Once the outro has begun the health bar is hidden, so from the next
    frame on `bossPhase` is off and a hit changes nothing. (Within the frame
    that began the outro, the source's `bossPhase` was computed before.)
   */
  lemma HitsEndWithOutro(f: Fight, baseR: real, scrollX: real)
    requires !f.outro.active
    ensures var g := BeginBossOutro(f);
      !BossPhase(g) && OnBossHit(g, BossPhase(g), baseR, scrollX) == g
  {
  }

  /** n hits in a row, all landing in the boss phase. */
  function Hits(f: Fight, n: nat, baseR: real, scrollX: real): Fight
    decreases n
  {
    if n == 0 then f else Hits(OnBossHit(f, true, baseR, scrollX), n - 1, baseR, scrollX)
  }

  /** A boss with hp hit points survives hp - 1 hits untouched by the outro; the hp-th starts it. */
  lemma {:induction false} LastHitStartsOutro(f: Fight, n: nat, baseR: real, scrollX: real)
    requires n >= 1 && f.hp == n && !f.outro.active
    ensures Hits(f, n - 1, baseR, scrollX).hp == 1
    ensures Hits(f, n - 1, baseR, scrollX).outro == f.outro
    ensures Hits(f, n, baseR, scrollX).outro == OutroStart
    decreases n
  {
    if n > 1 {
      LastHitStartsOutro(OnBossHit(f, true, baseR, scrollX), n - 1, baseR, scrollX);
    }
  }

  /** `startBossFinale`: the boss blows up, whatever the outro was doing. */
  function StartBossFinale(f: Fight): (r: Fight)
    ensures r.outro == f.outro.(phase := Explode, t := 0.0, bossGone := true, blackBackdrop := true)
    ensures r == f.(outro := r.outro)
  {
    f.(outro := f.outro.(phase := Explode, t := 0.0, bossGone := true, blackBackdrop := true))
  }

  /**
    The end of the intro script starts the fight: the score is locked, the
    boss timer restarts, the bonus is owed again, the boss difficulty pins
    at 1, the boss is back to full health, and a boss checkpoint is taken.
   */
  function StartFight(f: Fight, baseR: real, scrollX: real): (r: Fight)
    ensures r.showHealthBar && r.score.locked && r.timer == 0.0 && r.timerActive && !r.bonusAwarded
    ensures r.difficulty == 1.0 && r.difficultyActive && r.hp == r.hpMax == f.hpMax
    ensures r.snap == Snapshot(f.score.score, baseR, scrollX, f.hpMax, 0.0)
    ensures r.outro == f.outro && r.state == f.state && r.score.score == f.score.score
  {
    f.(showHealthBar := true, score := f.score.(locked := true), timer := 0.0, timerActive := true,
       bonusAwarded := false, difficulty := 1.0, difficultyActive := true, hp := f.hpMax,
       snap := Snapshot(f.score.score, baseR, scrollX, f.hpMax, 0.0))
  }

  /** A dialogue press: move the cursor, and act on the end of a script. */
  function PressDialogue(f: Fight, baseR: real, scrollX: real): (r: Fight)
    ensures var (d, e) := AdvanceDialogue(f.dialogue);
      r.dialogue == d &&
      (e == Finale ==> r.outro.phase == Explode && r.outro.bossGone) &&
      (e == FightStarts ==> r.timerActive && !r.bonusAwarded && r.hp == f.hpMax) &&
      (e == Continues ==> r == f.(dialogue := d))
  {
    var (d, e) := AdvanceDialogue(f.dialogue);
    var g := f.(dialogue := d);
    match e
    case Finale => StartBossFinale(g)
    case FightStarts => StartFight(g, baseR, scrollX)
    case Continues => g
  }

  function PressDialogueN(f: Fight, n: nat, baseR: real, scrollX: real): Fight
    decreases n
  {
    if n == 0 then f else PressDialogueN(PressDialogue(f, baseR, scrollX), n - 1, baseR, scrollX)
  }

  /** Read from its start without typing time, the outro script takes exactly four presses to blow the boss up. */
  lemma OutroDialogueTakesFourPresses(f: Fight, baseR: real, scrollX: real)
    requires f.outro.active && f.outro.phase == Dialogue && f.dialogue == DialogueBox(OutroScript, 0, 0)
    ensures PressDialogueN(f, 3, baseR, scrollX).outro == f.outro
    ensures PressDialogueN(f, 4, baseR, scrollX).outro.phase == Explode
  {
    var f1 := PressDialogue(f, baseR, scrollX);
    var f2 := PressDialogue(f1, baseR, scrollX);
    var f3 := PressDialogue(f2, baseR, scrollX);
    assert f1.dialogue == DialogueBox(OutroScript, 0, |OutroLines[0]|);
    assert f2.dialogue == DialogueBox(OutroScript, 1, 0);
    assert f3.dialogue == DialogueBox(OutroScript, 1, |OutroLines[1]|);
    assert PressDialogueN(f, 3, baseR, scrollX) == f3;
  }

  /** What a frame of the outro asks of the rest of the game. */
  datatype Cue = NoCue | LockScene | ClearWorld | PopBonus(amount: int)

  /** `beginStageClear`, as far as the boss sequence is concerned. */
  function BeginStageClear(f: Fight): (r: Fight)
    ensures r.state == StageClear && !r.showHealthBar && !r.difficultyActive
  {
    f.(state := StageClear, showHealthBar := false, difficultyActive := false)
  }

  /**
    `updateBossOutro(dt)`: advance the phase clock; a timed phase whose
    clock reaches its length hands over to the next phase with the clock at
    0 (the fade-out, which ends the outro, leaves the clock as it is).
    The dialogue phase waits for presses. The white hold ends by locking
    the scene, the white-out by clearing the world, the bonus hold by
    popping the bonus, and the fade-out by clearing the stage.
   */
  function UpdateBossOutro(f: Fight, dt: real): (r: (Fight, Cue))
    ensures !f.outro.active ==> r == (f, NoCue)
    ensures f.outro.active && !(Timed(f.outro.phase) && f.outro.t + dt >= Duration(f.outro.phase)) ==>
      r.0.outro.active && r.0.outro.phase == f.outro.phase && r.0.outro.t == f.outro.t + dt &&
      r.1 == NoCue && r.0 == f.(outro := r.0.outro)
    ensures f.outro.active && Timed(f.outro.phase) && f.outro.t + dt >= Duration(f.outro.phase) ==>
      r.0.outro.phase == NextPhase(f.outro.phase) &&
      r.0.outro.t == (if f.outro.phase == FadeOut then f.outro.t + dt else 0.0) &&
      (r.0.outro.active <==> f.outro.phase != FadeOut) &&
      (f.outro.phase == FadeOut ==> r.0 == BeginStageClear(f).(outro := r.0.outro) && !r.0.outro.blackBackdrop) &&
      (f.outro.phase != FadeOut ==> r.0 == f.(outro := r.0.outro)) &&
      r.1 == (match f.outro.phase
              case WhiteHold => LockScene
              case WhiteOut => ClearWorld
              case BonusHold => PopBonus(GetBossBonusForTime(f.timer))
              case _ => NoCue)
  {
    var o := f.outro;
    if !o.active then (f, NoCue)
    else
      var t := o.t + dt;
      var dark := o.blackBackdrop || Rank(o.phase) >= Rank(Boom);
      if !Timed(o.phase) || t < Duration(o.phase) then
        (f.(outro := o.(t := t, blackBackdrop := dark)), NoCue)
      else if o.phase == FadeOut then
        (BeginStageClear(f).(outro := o.(active := false, phase := Idle, t := t, blackBackdrop := false)), NoCue)
      else
        var next := o.(phase := NextPhase(o.phase), t := 0.0,
                       blackBackdrop := dark || o.phase == WhiteHold,
                       bossGone := o.bossGone || o.phase == Explode);
        var cue := match o.phase
          case WhiteHold => LockScene
          case WhiteOut => ClearWorld
          case BonusHold => PopBonus(GetBossBonusForTime(f.timer))
          case _ => NoCue;
        (f.(outro := next), cue)
  }

  /** A frame moves an active outro by at most one phase, never back. */
  lemma OutroStep(f: Fight, dt: real)
    requires f.outro.active
    ensures var g := UpdateBossOutro(f, dt).0;
      Progress(f.outro) <= Progress(g.outro) <= Progress(f.outro) + 1
  {
  }

  function RunOutro(f: Fight, dts: seq<real>): Fight
    decreases |dts|
  {
    if |dts| == 0 then f else RunOutro(UpdateBossOutro(f, dts[0]).0, dts[1..])
  }

  /**
    Over any frames the outro only moves forward and never skips a phase:
    each frame gains at most one phase. Frames alone never get past the
    dialogue, which only a press ends.
   */
  lemma {:induction false} OutroNoSkip(f: Fight, dts: seq<real>)
    requires f.outro.active && f.outro.phase != Idle
    ensures Progress(f.outro) <= Progress(RunOutro(f, dts).outro) <= Progress(f.outro) + |dts|
    ensures Rank(f.outro.phase) <= Rank(Dialogue) ==>
      RunOutro(f, dts).outro.active && Rank(RunOutro(f, dts).outro.phase) <= Rank(Dialogue)
    decreases |dts|
  {
    if |dts| > 0 {
      var g := UpdateBossOutro(f, dts[0]).0;
      OutroStep(f, dts[0]);
      if g.outro.active {
        OutroNoSkip(g, dts[1..]);
      } else {
        OutroIdleStays(g, dts[1..]);
      }
    }
  }

  /** A finished outro stays finished. */
  lemma {:induction false} OutroIdleStays(f: Fight, dts: seq<real>)
    requires !f.outro.active
    ensures RunOutro(f, dts) == f
    decreases |dts|
  {
    if |dts| > 0 {
      OutroIdleStays(f, dts[1..]);
    }
  }
}

=== FILE: checkpoints.dfy ===
/**
  Story-mode checkpoints of src/main.js: the level is 20000 px long with
  checkpoints at 0, 1/4, 1/2, 3/4 and the end. `updateCheckpointProgress`
  advances to the next one as the scroll passes it; `syncCheckpointToScroll`
  jumps straight to the latest one reached (after a warp).
 */
module Checkpoints {

  const LevelLength: real := 20000.0
  /** Checkpoint positions as fractions of the level. */
  const Fractions: seq<real> := [0.0, 0.25, 0.5, 0.75, 1.0]
  const Count: nat := 5
  /** How long the "checkpoint" toast shows. */
  const ToastDur: real := 2.0

  /** `checkpointXs[i]`: the world x of checkpoint i. */
  function CheckpointX(i: nat): (x: real)
    requires i < Count
    ensures 0.0 <= x <= LevelLength
    ensures i == 0 ==> x == 0.0
    ensures i == Count - 1 ==> x == LevelLength
  {
    Fractions[i] * LevelLength
  }

  /** Checkpoints lie strictly left to right. */
  lemma CheckpointsIncrease(i: nat, j: nat)
    requires i < j < Count
    ensures CheckpointX(i) < CheckpointX(j)
  {
  }

  /**
    The checkpoint cursor and what was recorded there. A recorded score or
    size may be missing (`null` in the source); a map leaves it out.
   */
  datatype Progress = Progress(index: nat, scores: map<nat, int>, sizes: map<nat, real>, toastT: real)

  /** The cursor sits on a checkpoint already passed, with its score and size recorded. */
  predicate Reached(p: Progress, scrollX: real) {
    p.index < Count && CheckpointX(p.index) <= scrollX && p.index in p.scores && p.index in p.sizes
  }

  /**
    `updateCheckpointProgress`: outside arcade, move to the next checkpoint
    once the scroll reaches it, recording the score and the player's base
    radius there and showing the toast. At most one step per call.
   */
  function UpdateCheckpointProgress(p: Progress, arcade: bool, scrollX: real, score: int, baseR: real): (r: Progress)
    ensures r.index == p.index || r.index == p.index + 1
    ensures r.index == p.index + 1 <==> !arcade && p.index + 1 < Count && CheckpointX(p.index + 1) <= scrollX
    ensures r.index == p.index ==> r == p
    ensures r.index == p.index + 1 ==>
      r.scores == p.scores[r.index := score] && r.sizes == p.sizes[r.index := baseR] && r.toastT == ToastDur
  {
    var next := p.index + 1;
    if arcade || next >= Count then p
    else if scrollX >= CheckpointX(next) then
      Progress(next, p.scores[next := score], p.sizes[next := baseR], ToastDur)
    else p
  }

  /** Scrolling forward keeps the cursor on a reached checkpoint with its record. */
  lemma ProgressStaysReached(p: Progress, arcade: bool, scrollX: real, scrollX2: real, score: int, baseR: real)
    requires Reached(p, scrollX) && scrollX <= scrollX2
    ensures Reached(UpdateCheckpointProgress(p, arcade, scrollX2, score, baseR), scrollX2)
  {
  }

  /** Frames of scroll positions fed to `updateCheckpointProgress`, each with the score and size of that frame. */
  datatype Frame = Frame(scrollX: real, score: int, baseR: real)

  function Follow(p: Progress, arcade: bool, frames: seq<Frame>): Progress
    decreases |frames|
  {
    if |frames| == 0 then p
    else Follow(UpdateCheckpointProgress(p, arcade, frames[0].scrollX, frames[0].score, frames[0].baseR),
                arcade, frames[1..])
  }

  /** Over any run of frames the cursor never moves back, and moves at most one checkpoint per frame. */
  lemma {:induction false} ProgressMonotone(p: Progress, arcade: bool, frames: seq<Frame>)
    ensures p.index <= Follow(p, arcade, frames).index <= p.index + |frames|
    ensures arcade ==> Follow(p, arcade, frames) == p
    decreases |frames|
  {
    if |frames| > 0 {
      ProgressMonotone(UpdateCheckpointProgress(p, arcade, frames[0].scrollX, frames[0].score, frames[0].baseR),
                       arcade, frames[1..]);
    }
  }

  /** The last checkpoint `syncCheckpointToScroll` may pick: the finish is skipped during the cutscene. */
  function SyncLimit(cutscene: bool): nat {
    if cutscene then Count - 2 else Count - 1
  }

  /**
    idx is the latest checkpoint reached: checkpoint 0 or one the scroll
    has passed, and the next allowed one (if any) not yet reached.
   */
  predicate Latest(idx: nat, scrollX: real, cutscene: bool) {
    idx <= SyncLimit(cutscene) &&
    (idx == 0 || CheckpointX(idx) <= scrollX) &&
    (idx < SyncLimit(cutscene) ==> scrollX < CheckpointX(idx + 1))
  }

  /** There is only one latest checkpoint. */
  lemma LatestUnique(a: nat, b: nat, scrollX: real, cutscene: bool)
    requires Latest(a, scrollX, cutscene) && Latest(b, scrollX, cutscene)
    ensures a == b
  {
    if a < b {
      CheckpointsIncrease(a + 1, b);
    } else if b < a {
      CheckpointsIncrease(b + 1, a);
    }
  }

  /**
    `syncCheckpointToScroll`: scan the checkpoints after the first, stopping
    at the first one not reached (the finish is skipped during the
    cutscene); record the score and size there unless already recorded.
   */
  method SyncCheckpointToScroll(p: Progress, cutscene: bool, scrollX: real, score: int, baseR: real)
    returns (r: Progress)
    ensures Latest(r.index, scrollX, cutscene)
    ensures r.scores == (if r.index in p.scores then p.scores else p.scores[r.index := score])
    ensures r.sizes == (if r.index in p.sizes then p.sizes else p.sizes[r.index := baseR])
    ensures r.toastT == p.toastT
  {
    var idx: nat := 0;
    var i := 1;
    while i < Count
      invariant 1 <= i <= Count && idx < i
      invariant idx <= SyncLimit(cutscene)
      invariant idx == 0 || CheckpointX(idx) <= scrollX
      invariant idx == i - 1 || (cutscene && i == Count && idx == Count - 2)
      decreases Count - i
    {
      if cutscene && i == Count - 1 {
        i := i + 1;
        continue;
      }
      if scrollX >= CheckpointX(i) {
        idx := i;
      } else {
        break;
      }
      i := i + 1;
    }
    r := Progress(idx,
                  if idx in p.scores then p.scores else p.scores[idx := score],
                  if idx in p.sizes then p.sizes else p.sizes[idx := baseR],
                  p.toastT);
  }

  /** Right after a sync outside the cutscene, progress tracking has nothing left to catch up on. */
  lemma SyncedIsStable(p: Progress, scrollX: real, score: int, baseR: real)
    requires Latest(p.index, scrollX, false)
    ensures UpdateCheckpointProgress(p, false, scrollX, score, baseR) == p
  {
  }

  /**
    A sync during the cutscene stops one short of the finish, and
    `updateCheckpointProgress`, which still runs in the cutscene, then
    steps onto the finish exactly when the scroll has reached it.
   */
  lemma SyncedInCutsceneMayFinish(p: Progress, scrollX: real, score: int, baseR: real)
    requires Latest(p.index, scrollX, true)
    ensures var r := UpdateCheckpointProgress(p, false, scrollX, score, baseR);
      (r.index == Count - 1 <==> scrollX >= LevelLength) && (r != p <==> scrollX >= LevelLength)
  {
    assert CheckpointX(Count - 1) == LevelLength;
  }
}

=== FILE: common.dfy ===
/** Small shared value types used across the game model. */
module Common {

  /** An optional value; stands for the source's `null` / object pairs. */
  datatype Option<+T> = None | Some(value: T)

  /** An upper bound that may be infinite (the player's `maxR` is `Infinity`). */
  datatype Bound = Finite(limit: real) | Unbounded {

    /** True when `v` does not exceed the bound. */
    predicate Admits(v: real) {
      match this
      case Finite(m) => v <= m
      case Unbounded => true
    }
  }

  /** The game's top-level state (`gameState.value`). */
  datatype GameState =
    | SplashCompany | SplashLoading | Start | StartTransition
    | Playing | Paused | Cutscene | Dying | GameOver | GameOverFinal | StageClear
}

=== FILE: config.dfy ===
/**
  The tunable constant groups of the game (src/config.js) and the two
  radius-to-integer helpers `SCORE.fromRadius` and `GROW.fromRadius`.
 */
module Config {
  import opened MathUtil

  // PHYS, SQUASH, STAND: player ballistics and posture.
  const Gravity: real := 1650.0
  const FlapVy: real := -560.0
  const MaxFall: real := 900.0
  const SquashY: real := 0.50
  const SquashTapMs: real := 170.0
  const StandVy: real := -180.0

  // WORLD: scroll speed range and ground height.
  const BaseSpeed: real := 320.0
  const MaxSpeed: real := 520.0
  const InitialSpeed: real := 320.0
  const GroundH: real := 80.0

  // EAT: size margin, capture padding, swallow duration, intent radius.
  const EatMargin: real := 0.10
  const CapturePad: real := 10.0
  const SwallowDur: real := 0.16
  const IntentDist: real := 180.0

  // SCORE and GROW.
  const ScoreMin: int := 1
  const ScoreMax: int := 25
  const GrowBaseStep: int := 3

  // SPAWN: intervals between spawn attempts, in seconds.
  const NpcMin: real := 0.85
  const NpcMax: real := 1.45
  const RedMin: real := 1.40
  const RedMax: real := 2.35
  const BlueMin: real := 3.10
  const BlueMax: real := 5.20

  // GAP: fairness spacing between spawns.
  const GapTimeEasy: real := 0.78
  const GapTimeHard: real := 0.56
  const GapMinPx: real := 220.0
  const GapMaxPx: real := 280.0

  // MOUTH: chomp pulse length and cooldown.
  const PulseDur: real := 0.12
  const MinCooldown: real := 0.07

  // BALANCE: bucket weights and the edible guarantee.
  const EdibleProb: real := 0.68
  const DangerProb: real := 0.26
  const NeutralProb: real := 0.06
  const EdibleGuaranteeAfter: int := 3

  // TRAIL: bundle probabilities, length, spacing and size band.
  const TrailProbEasy: real := 0.14
  const TrailProbMid: real := 0.18
  const TrailProbHard: real := 0.14
  const TrailProbRedEasy: real := 0.04
  const TrailProbRedMid: real := 0.06
  const TrailProbRedHard: real := 0.08
  const TrailLenMin: int := 4
  const TrailLenMax: int := 7
  const TrailDtMin: real := 0.18
  const TrailDtMax: real := 0.26
  const TrailScaleMin: real := 0.55
  const TrailScaleMax: real := 0.90

  // WAVE: the pressure-release wave.
  const WavePeriod: real := 16.0
  const WaveRelief: real := 3.0
  const WaveSpeedScale: real := 0.94
  const WaveTrailBoost: real := 0.05

  // DDA: stress-driven difficulty adjustment.
  const DdaDecay: real := 0.25
  const DdaBumpOnMiss: real := 0.35
  const DdaThreshold: real := 0.3
  const DdaSpeedScale: real := 0.92
  const DdaGapScale: real := 1.12

  // EYES: drawing proportions (kept for completeness; no rule reads them).
  const EyesYOff: real := -0.18
  const EyesXSep: real := 0.28
  const EyesR: real := 0.10
  const EyesPupilShift: real := 0.14

  /** Integer clamp, as `clamp` behaves on integer-valued numbers. */
  function ClampInt(v: int, a: int, b: int): (r: int)
    ensures a <= b ==> a <= r <= b
    ensures a <= v <= b ==> r == v
  {
    if v > b then (if b >= a then b else a) else if v < a then a else v
  }

  /** `SCORE.fromRadius(r) = Math.round(r / 6)`: the nearest integer to r/6, halves rounded up. */
  function ScoreFromRadius(r: real): (n: int)
    ensures r / 6.0 - 0.5 < n as real <= r / 6.0 + 0.5
    ensures r >= 0.0 ==> n >= 0
  {
    Round(r / 6.0)
  }

  /** `GROW.fromRadius(r) = clamp(Math.round(r / 7), 1, 10)`. */
  function GrowFromRadius(r: real): (n: int)
    ensures 1 <= n <= 10
    ensures 1 <= Round(r / 7.0) <= 10 ==> n == Round(r / 7.0)
    ensures r / 7.0 < 0.5 ==> n == 1
    ensures r / 7.0 >= 9.5 ==> n == 10
  {
    ClampInt(Round(r / 7.0), 1, 10)
  }

  /** Each eat grows the player by 4 to 13 before the radius clamp. */
  lemma GrowthStep(r: real)
    ensures 4 <= GrowBaseStep + GrowFromRadius(r) <= 13
  {
  }

  /** The constant relations the rules rely on. */
  lemma ConfigConsistent()
    ensures EatMargin > 0.0
    ensures BaseSpeed <= MaxSpeed && InitialSpeed == BaseSpeed
    ensures GapMinPx <= GapMaxPx && DdaGapScale >= 1.0
    ensures DdaThreshold < 1.0
    ensures WaveRelief < WavePeriod
    ensures TrailLenMin <= TrailLenMax
    ensures ScoreMin <= ScoreMax
  {
  }
}

=== FILE: difficulty.dfy ===
/**
  Difficulty and the dynamic difficulty adjustment of src/main.js:
  `difficulty01`, `updateDifficulty`, `minGapPx`, `trailProb`, and the
  per-frame stress / relief-wave update in `tick`. `Math.pow(x, 0.65)` is a
  parameter `pow` that is monotone on [0,1] with pow(0) = 0 and pow(1) = 1.
 */
module Difficulty {
  import opened MathUtil
  import Config

  /** Score at which the score-driven difficulty saturates. */
  const FullDifficultyScore: real := 120.0

  /** `scoreDifficulty01`. */
  function ScoreDifficulty01(score: int): (d: real)
    ensures 0.0 <= d <= 1.0
    ensures score <= 0 ==> d == 0.0
    ensures score as real >= FullDifficultyScore ==> d == 1.0
    ensures 0 <= score && score as real <= FullDifficultyScore ==> d == score as real / FullDifficultyScore
  {
    Clamp(score as real / FullDifficultyScore, 0.0, 1.0)
  }

  /** More score never makes the game easier. */
  lemma ScoreDifficultyMonotone(a: int, b: int)
    requires a <= b
    ensures ScoreDifficulty01(a) <= ScoreDifficulty01(b)
  {
  }

  /** `difficulty01`: the boss override, or the score-driven value. */
  function Difficulty01(score: int, bossActive: bool, bossDifficulty: real): (d: real)
    ensures bossActive ==> d == bossDifficulty
    ensures !bossActive ==> d == ScoreDifficulty01(score)
    ensures !bossActive || 0.0 <= bossDifficulty <= 1.0 ==> 0.0 <= d <= 1.0
  {
    if bossActive then bossDifficulty else ScoreDifficulty01(score)
  }

  /** What the model assumes of `x => Math.pow(x, 0.65)` on [0,1]. */
  ghost predicate PowOk(pow: real -> real) {
    pow(0.0) == 0.0 && pow(1.0) == 1.0 &&
    forall a, b :: 0.0 <= a <= b <= 1.0 ==> pow(a) <= pow(b)
  }

  lemma PowRange(pow: real -> real, x: real)
    requires PowOk(pow) && 0.0 <= x <= 1.0
    ensures 0.0 <= pow(x) <= 1.0
  {
    assert pow(0.0) <= pow(x) <= pow(1.0);
  }

  /** The wave factor on speed: slower during relief. */
  function WaveScale(relief: bool): real {
    if relief then Config.WaveSpeedScale else 1.0
  }

  /** The stress factor on speed: from 1 down to `DDA.speedScale`. */
  function DdaSpeed(stressEase: real): (f: real)
    ensures 0.0 <= stressEase <= 1.0 ==> Config.DdaSpeedScale <= f <= 1.0
  {
    Lerp(1.0, Config.DdaSpeedScale, stressEase)
  }

  /** The eased, reshaped difficulty that drives the base speed. */
  function Shaped(d: real, pow: real -> real): real {
    pow(EaseInOut(d))
  }

  /** `updateDifficulty`: the world speed for difficulty d. */
  function Speed(d: real, relief: bool, stressEase: real, pow: real -> real): (speed: real)
    requires PowOk(pow) && 0.0 <= d <= 1.0 && 0.0 <= stressEase <= 1.0
    ensures Config.BaseSpeed * Config.WaveSpeedScale * Config.DdaSpeedScale <= speed <= Config.MaxSpeed
    ensures d == 0.0 && !relief && stressEase == 0.0 ==> speed == Config.BaseSpeed
    ensures d == 1.0 && !relief && stressEase == 0.0 ==> speed == Config.MaxSpeed
  {
    PowRange(pow, EaseInOut(d));
    var base := Lerp(Config.BaseSpeed, Config.MaxSpeed, Shaped(d, pow));
    var waved := Scale(base, WaveScale(relief));
    var f := DdaSpeed(stressEase);
    ScaleMono(waved, Config.DdaSpeedScale, f);
    ScaleMono(waved, f, 1.0);
    Scale(waved, f)
  }

  /** A higher difficulty never slows the world down. */
  lemma SpeedMonotone(d1: real, d2: real, relief: bool, stressEase: real, pow: real -> real)
    requires PowOk(pow) && 0.0 <= d1 <= d2 <= 1.0 && 0.0 <= stressEase <= 1.0
    ensures Speed(d1, relief, stressEase, pow) <= Speed(d2, relief, stressEase, pow)
  {
    EaseInOutMonotone(d1, d2);
    PowRange(pow, EaseInOut(d1));
    PowRange(pow, EaseInOut(d2));
    assert Shaped(d1, pow) <= Shaped(d2, pow);
    LerpMonotone(Config.BaseSpeed, Config.MaxSpeed, Shaped(d1, pow), Shaped(d2, pow));
    var b1 := Lerp(Config.BaseSpeed, Config.MaxSpeed, Shaped(d1, pow));
    var b2 := Lerp(Config.BaseSpeed, Config.MaxSpeed, Shaped(d2, pow));
    ScaleMonoSpan(b1, b2, WaveScale(relief));
    ScaleMonoSpan(Scale(b1, WaveScale(relief)), Scale(b2, WaveScale(relief)), DdaSpeed(stressEase));
  }

  /** More stress never speeds the world up. */
  lemma StressSlows(d: real, relief: bool, e1: real, e2: real, pow: real -> real)
    requires PowOk(pow) && 0.0 <= d <= 1.0 && 0.0 <= e1 <= e2 <= 1.0
    ensures Speed(d, relief, e2, pow) <= Speed(d, relief, e1, pow)
  {
    PowRange(pow, EaseInOut(d));
    var base := Lerp(Config.BaseSpeed, Config.MaxSpeed, Shaped(d, pow));
    LerpAntitone(1.0, Config.DdaSpeedScale, e1, e2);
    ScaleMono(Scale(base, WaveScale(relief)), DdaSpeed(e2), DdaSpeed(e1));
  }

  /** The stress factor on spacing: from 1 up to `DDA.gapScale`. */
  function DdaGap(stressEase: real): (f: real)
    ensures 0.0 <= stressEase <= 1.0 ==> 1.0 <= f <= Config.DdaGapScale
  {
    Lerp(1.0, Config.DdaGapScale, stressEase)
  }

  /** The spacing before the stress factor: gap time at this speed, within [GAP.minPx, GAP.maxPx]. */
  function BaseGap(d: real, speed: real): (g: real)
    ensures Config.GapMinPx <= g <= Config.GapMaxPx
  {
    Clamp(Scale(Lerp(Config.GapTimeEasy, Config.GapTimeHard, d), speed), Config.GapMinPx, Config.GapMaxPx)
  }

  /** `minGapPx`: the least world distance between two gated spawns. */
  function MinGapPx(d: real, speed: real, stressEase: real): (g: real)
    ensures Config.GapMinPx <= g <= Config.GapMaxPx * Config.DdaGapScale
    ensures stressEase == 0.0 ==> g == BaseGap(d, speed)
  {
    Clamp(Scale(BaseGap(d, speed), DdaGap(stressEase)), Config.GapMinPx, Config.GapMaxPx * Config.DdaGapScale)
  }

  /** Stress only ever widens the spacing. */
  lemma StressWidensGap(d: real, speed: real, stressEase: real)
    requires 0.0 <= stressEase <= 1.0
    ensures MinGapPx(d, speed, stressEase) >= MinGapPx(d, speed, 0.0)
  {
    ScaleAtLeastSpan(BaseGap(d, speed), DdaGap(stressEase));
  }

  /** The trail probability tier for difficulty d. */
  function TrailTier(d: real): real {
    if d < 0.35 then Config.TrailProbEasy else if d < 0.75 then Config.TrailProbMid else Config.TrailProbHard
  }

  /** `trailProb`: the chance that an NPC slot starts a trail instead. */
  function TrailProb(d: real, relief: bool): (p: real)
    ensures 0.0 <= p <= 0.95
    ensures !relief ==> p == TrailTier(d)
    ensures relief ==> p == TrailTier(d) + Config.WaveTrailBoost
  {
    Clamp(TrailTier(d) + (if relief then Config.WaveTrailBoost else 0.0), 0.0, 0.95)
  }

  // ---------------------------------------------------------------------
  // Stress and the relief wave, advanced once per frame.

  /** The DDA state: wave clock, relief flag, stress, and its eased form. */
  datatype Dda = Dda(waveT: real, relief: bool, stress: real, stressEase: real) {
    predicate Valid() {
      waveT >= 0.0 && 0.0 <= stress <= 1.0 && stressEase == StressEase(stress) && relief == Relief(waveT)
    }
  }

  /** The eased stress: 0 up to the threshold, then rising linearly to 1 at stress 1. */
  function StressEase(stress: real): (e: real)
    ensures 0.0 <= e <= 1.0
    ensures stress <= Config.DdaThreshold <==> e == 0.0
    ensures stress >= 1.0 <==> e == 1.0
    ensures Config.DdaThreshold <= stress <= 1.0 ==>
      e == (stress - Config.DdaThreshold) / (1.0 - Config.DdaThreshold)
  {
    Clamp((stress - Config.DdaThreshold) / (1.0 - Config.DdaThreshold), 0.0, 1.0)
  }

  lemma StressEaseMonotone(a: real, b: real)
    requires a <= b
    ensures StressEase(a) <= StressEase(b)
  {
  }

  /** Relief is on in the last `WAVE.relief` seconds of each wave period. */
  predicate Relief(waveT: real) {
    JsMod(waveT, Config.WavePeriod) > Config.WavePeriod - Config.WaveRelief
  }

  /** The relief window repeats every period. */
  lemma ReliefPeriodic(w: real)
    requires w >= 0.0
    ensures Relief(w + Config.WavePeriod) == Relief(w)
  {
    var q := w / Config.WavePeriod;
    assert (w + Config.WavePeriod) / Config.WavePeriod == q + 1.0;
    assert (q + 1.0).Floor == q.Floor + 1;
  }

  /** Within the first period, relief is on exactly after 13 seconds. */
  lemma ReliefWindow(w: real)
    requires 0.0 <= w < Config.WavePeriod
    ensures Relief(w) <==> w > Config.WavePeriod - Config.WaveRelief
  {
  }

  /** A miss: the stress bump `deductScore` applies. */
  function BumpStress(stress: real): (s: real)
    ensures 0.0 <= s <= 1.0
    ensures 0.0 <= stress <= 1.0 - Config.DdaBumpOnMiss ==> s == stress + Config.DdaBumpOnMiss
    ensures stress >= 0.0 ==> s >= Min(1.0, stress)
  {
    Clamp(stress + Config.DdaBumpOnMiss, 0.0, 1.0)
  }

  /** Stress decay over one frame, floored at 0. */
  function DecayStress(stress: real, dt: real): (s: real)
    ensures s >= 0.0
    ensures dt >= 0.0 ==> s <= Max(stress, 0.0)
    ensures dt >= 0.0 && stress - dt * Config.DdaDecay >= 0.0 ==> s == stress - dt * Config.DdaDecay
  {
    Max(0.0, stress - dt * Config.DdaDecay)
  }

  /** One frame of `tick`'s DDA update. */
  function TickDda(s: Dda, dt: real): (r: Dda)
    ensures r.waveT == s.waveT + dt
    ensures r.stress == DecayStress(s.stress, dt)
    ensures s.Valid() && dt >= 0.0 ==> r.Valid() && r.stress <= s.stress
  {
    var w := s.waveT + dt;
    var stress := DecayStress(s.stress, dt);
    Dda(w, Relief(w), stress, StressEase(stress))
  }

  /** What happens to the DDA state between two frames. */
  datatype DdaInput = Frame(dt: real) | Miss

  /** Apply a miss to the DDA state; the eased value catches up on the next frame. */
  function Step(s: Dda, i: DdaInput): Dda {
    match i
    case Frame(dt) => TickDda(s, dt)
    case Miss => s.(stress := BumpStress(s.stress))
  }

  function Run(s: Dda, inputs: seq<DdaInput>): Dda
    decreases |inputs|
  {
    if |inputs| == 0 then s else Run(Step(s, inputs[0]), inputs[1..])
  }

  predicate FramesForward(inputs: seq<DdaInput>) {
    forall i | 0 <= i < |inputs| :: inputs[i].Frame? ==> inputs[i].dt >= 0.0
  }

  /** Whatever mix of frames and misses occurs, stress stays within [0,1] and the eased value too. */
  lemma {:induction false} StressStaysInRange(s: Dda, inputs: seq<DdaInput>)
    requires 0.0 <= s.stress <= 1.0 && 0.0 <= s.stressEase <= 1.0 && FramesForward(inputs)
    ensures var r := Run(s, inputs); 0.0 <= r.stress <= 1.0 && 0.0 <= r.stressEase <= 1.0
    decreases |inputs|
  {
    if |inputs| > 0 {
      assert FramesForward(inputs[1..]) by {
        forall i | 0 <= i < |inputs| - 1 ensures inputs[1..][i] == inputs[i + 1] { }
      }
      StressStaysInRange(Step(s, inputs[0]), inputs[1..]);
    }
  }

  /** Without misses, stress never rises and the state stays valid. */
  lemma {:induction false} CalmDecays(s: Dda, inputs: seq<DdaInput>)
    requires s.Valid() && FramesForward(inputs)
    requires forall i | 0 <= i < |inputs| :: inputs[i].Frame?
    ensures Run(s, inputs).Valid() && Run(s, inputs).stress <= s.stress
    decreases |inputs|
  {
    if |inputs| > 0 {
      assert FramesForward(inputs[1..]) && forall i | 0 <= i < |inputs| - 1 :: inputs[1..][i].Frame? by {
        forall i | 0 <= i < |inputs| - 1 ensures inputs[1..][i] == inputs[i + 1] { }
      }
      CalmDecays(Step(s, inputs[0]), inputs[1..]);
    }
  }
}

=== FILE: eat_rule.dfy ===
/** The size rule that decides who eats whom (src/main.js `canEat`). */
module EatRule {
  import Config

  /** A eats B when A is at least `1 + EAT.margin` times as large. */
  predicate CanEat(a: real, b: real) {
    a >= b * (1.0 + Config.EatMargin)
  }

  /** With a positive margin, two positive radii never eat each other. */
  lemma CanEatAsymmetric(a: real, b: real)
    requires a > 0.0 && b > 0.0
    ensures !(CanEat(a, b) && CanEat(b, a))
  {
  }

  /** Eating a positive radius needs a strictly larger one. */
  lemma CanEatStrict(a: real, b: real)
    requires b > 0.0 && CanEat(a, b)
    ensures a > b
  {
  }

  /** Growing the eater or shrinking the prey keeps the rule satisfied. */
  lemma CanEatMonotone(a: real, b: real, a2: real, b2: real)
    requires CanEat(a, b) && a <= a2 && b2 <= b
    ensures CanEat(a2, b2)
  {
  }

  /** A radius 18 eats 10 but not 20. */
  lemma CanEatExamples()
    ensures CanEat(18.0, 10.0)
    ensures !CanEat(18.0, 20.0)
    ensures !CanEat(10.0, 18.0)
  {
  }
}

=== FILE: encounters.dfy ===
/**
  Encounter selection of src/main.js: the pattern queue
  (`refillEncounterQueue`), the bucket director (`nextNPCBucket`), the size
  choice (`chooseNPCRadius`) and `spawnNPC`.
 */
module Encounters {
  import opened Common
  import opened MathUtil
  import Config
  import opened EatRule
  import opened Npcs
  import opened Spawn
  import Scoring
  import opened Trail

  /** The three kinds of NPC the director asks for. */
  datatype Bucket = Edible | Danger | Neutral

  /** Encounter patterns by difficulty band. */
  const EasyPool: seq<seq<Bucket>> := [
    [Edible, Edible, Danger],
    [Edible, Edible, Edible, Danger],
    [Edible, Neutral, Edible, Danger],
    [Edible, Edible, Neutral]]
  const MediumPool: seq<seq<Bucket>> := [
    [Edible, Danger, Edible],
    [Edible, Neutral, Danger, Edible],
    [Edible, Edible, Danger, Neutral],
    [Edible, Danger, Edible, Neutral]]
  const HardPool: seq<seq<Bucket>> := [
    [Edible, Danger, Edible, Danger],
    [Edible, Neutral, Danger, Edible, Danger],
    [Edible, Danger, Neutral, Edible, Danger]]

  /** The pool for difficulty d: easy below 0.35, medium below 0.75, else hard. */
  function Pool(d: real): (pool: seq<seq<Bucket>>)
    ensures 3 <= |pool| <= 4
  {
    if d < 0.35 then EasyPool else if d < 0.75 then MediumPool else HardPool
  }

  /** Every pattern of every pool opens with an edible NPC and has 3 to 5 entries. */
  lemma PatternsStartEdible(d: real, k: int)
    requires 0 <= k < |Pool(d)|
    ensures 3 <= |Pool(d)[k]| <= 5 && Pool(d)[k][0] == Edible
  {
  }

  /** `refillEncounterQueue`: append the pattern picked by the draw u in [0,1). */
  function Refill(queue: seq<Bucket>, d: real, u: real): (q: seq<Bucket>)
    requires 0.0 <= u < 1.0
    ensures |q| > |queue| && q[..|queue|] == queue
    ensures q[|queue|] == Edible
    ensures exists k :: 0 <= k < |Pool(d)| && q == queue + Pool(d)[k]
  {
    var pool := Pool(d);
    var k := Scale(u, |pool| as real).Floor;
    assert 0 <= k < |pool| by {
      ScaleMonoSpan(0.0, u, |pool| as real);
      assert Scale(u, |pool| as real) < |pool| as real by {
        Commute(u, |pool| as real);
      }
    }
    PatternsStartEdible(d, k);
    queue + pool[k]
  }

  /** The director's memory: the queue, the follow-up guarantee, and the edible drought counter. */
  datatype Director = Director(queue: seq<Bucket>, forceEdibleNext: bool, spawnsSinceEdible: int)

  /** `dangerOnScreen`: flying NPCs big enough to eat a player of radius pr. */
  function DangerOnScreen(npcs: seq<Npc>, pr: real): (c: nat)
    ensures c <= |npcs|
    ensures c > 0 <==> exists i :: 0 <= i < |npcs| && npcs[i].state == Fly && CanEat(npcs[i].r, pr)
  {
    if |npcs| == 0 then 0
    else
      var rest := DangerOnScreen(npcs[1..], pr);
      assert forall i | 0 < i < |npcs| :: npcs[i] == npcs[1..][i - 1];
      (if npcs[0].state == Fly && CanEat(npcs[0].r, pr) then 1 else 0) + rest
  }

  /**
    `nextNPCBucket`: a pending follow-up edible wins (and ends any trail);
    otherwise take the head of the queue (refilled when empty), soften a
    danger to edible on easy difficulty while a danger is already on screen,
    and make any danger force an edible next.
   */
  function NextNpcBucket(dir: Director, trail: Option<Trail>, d: real, dangers: nat, u: real): (r: (Bucket, Director, Option<Trail>))
    requires 0.0 <= u < 1.0
    ensures dir.forceEdibleNext ==> r.0 == Edible && r.2.None? && r == (Edible, dir.(forceEdibleNext := false), None)
    ensures !dir.forceEdibleNext ==> r.2 == trail
    ensures r.1.forceEdibleNext <==> r.0 == Danger
    ensures r.1.spawnsSinceEdible == dir.spawnsSinceEdible
    ensures r.0 == Danger ==> !(d < 0.35 && dangers >= 1)
    ensures !dir.forceEdibleNext && dir.queue == [] ==> r.0 == Edible
    ensures !dir.forceEdibleNext && dir.queue != [] ==>
      r.1.queue == dir.queue[1..] &&
      (r.0 == dir.queue[0] || (dir.queue[0] == Danger && d < 0.35 && dangers >= 1 && r.0 == Edible))
  {
    if dir.forceEdibleNext then (Edible, dir.(forceEdibleNext := false), None)
    else
      var q := if |dir.queue| == 0 then Refill(dir.queue, d, u) else dir.queue;
      var b0 := q[0];
      var b := if b0 == Danger && d < 0.35 && dangers >= 1 then Edible else b0;
      (b, dir.(queue := q[1..], forceEdibleNext := b == Danger), trail)
  }

  /** A danger is always followed by an edible, whatever the next call's inputs. */
  lemma DangerThenEdible(dir: Director, trail: Option<Trail>, d: real, dangers: nat, u: real,
                         trail2: Option<Trail>, d2: real, dangers2: nat, u2: real)
    requires 0.0 <= u < 1.0 && 0.0 <= u2 < 1.0
    requires NextNpcBucket(dir, trail, d, dangers, u).0 == Danger
    ensures NextNpcBucket(NextNpcBucket(dir, trail, d, dangers, u).1, trail2, d2, dangers2, u2).0 == Edible
  {
  }

  /** `pickIn`: the band [a, b) when it is at least half a pixel wide, else the fallback band. */
  function PickIn(a: real, b: real, fa: real, fb: real, u: real): (r: real)
    ensures b > a + 0.5 && 0.0 <= u < 1.0 ==> a <= r < b
    ensures b <= a + 0.5 && 0.0 <= u < 1.0 && fa <= fb ==> fa <= r <= fb
  {
    if b <= a + 0.5 then Rand(fa, fb, u) else Rand(a, b, u)
  }

  // The three radius bands of `chooseNPCRadius`, for a player of radius pr.

  /** The edible band: eatable by the player, never below 10 or above 62. */
  function EdibleRadius(pr: real, u: real): (r: real)
    ensures 0.0 <= u < 1.0 && pr >= 13.0 ==> 10.0 <= r < 62.0 && CanEat(pr, r)
  {
    PickIn(Max(10.0, pr * 0.40), Min(SafeMax(pr), 62.0), 10.0, Min(24.0, pr), u)
  }

  /** The danger band: big enough to eat the player, capped at 68. */
  function DangerRadius(pr: real, u: real): (r: real)
    ensures 0.0 <= u < 1.0 && 13.0 <= pr <= 57.0 ==> 14.0 <= r <= 68.0 && CanEat(r, pr)
  {
    PickIn(Max(pr * (1.0 + Config.EatMargin) * 1.06, 14.0), Min(68.0, pr * 1.85),
           Max(22.0, pr * 1.15), Max(30.0, pr * 1.55), u)
  }

  /** The neutral band: within 2% of either eat threshold for mid-sized players. */
  function NeutralRadius(pr: real, u: real): (r: real)
    ensures 0.0 <= u < 1.0 ==> r >= 12.0
    ensures 0.0 <= u < 1.0 && 14.0 <= pr <= 55.0 ==>
      pr / (1.0 + Config.EatMargin) * 0.98 <= r < pr * (1.0 + Config.EatMargin) * 1.02
  {
    PickIn(Max(12.0, pr / (1.0 + Config.EatMargin) * 0.98), Min(62.0, pr * (1.0 + Config.EatMargin) * 1.02),
           Max(14.0, pr * 0.8), Max(18.0, pr * 1.05), u)
  }

  /** The bucket actually used for the size: edible once the drought counter reaches the guarantee. */
  function SizeBucket(bucket: Bucket, spawnsSinceEdible: int): Bucket {
    if spawnsSinceEdible >= Config.EdibleGuaranteeAfter then Edible else bucket
  }

  /**
    `chooseNPCRadius`: a radius in [10, 68] for the bucket, and the new
    drought counter (reset by an edible, bumped otherwise).
   */
  function ChooseNpcRadius(bucket: Bucket, pr: real, spawnsSinceEdible: int, u: real): (r: (real, int))
    ensures 10.0 <= r.0 <= 68.0
    ensures SizeBucket(bucket, spawnsSinceEdible) == Edible ==> r.1 == 0
    ensures SizeBucket(bucket, spawnsSinceEdible) != Edible ==> r.1 == spawnsSinceEdible + 1
    ensures spawnsSinceEdible <= Config.EdibleGuaranteeAfter ==> r.1 <= Config.EdibleGuaranteeAfter
  {
    var b := SizeBucket(bucket, spawnsSinceEdible);
    var raw := match b
      case Edible => EdibleRadius(pr, u)
      case Danger => DangerRadius(pr, u)
      case Neutral => NeutralRadius(pr, u);
    (Clamp(raw, 10.0, 68.0), if b == Edible then 0 else spawnsSinceEdible + 1)
  }

  /** An edible NPC really is edible for any player of radius 13 or more. */
  lemma EdibleIsEdible(pr: real, sse: int, bucket: Bucket, u: real)
    requires pr >= 13.0 && 0.0 <= u < 1.0 && SizeBucket(bucket, sse) == Edible
    ensures CanEat(pr, ChooseNpcRadius(bucket, pr, sse, u).0)
  {
    var a := Max(10.0, pr * 0.40);
    var b := Min(SafeMax(pr), 62.0);
    if b <= a + 0.5 {
      assert pr >= 150.0;
    }
  }

  /** A danger NPC can eat the player while the player's radius is within [13, 57]. */
  lemma DangerIsDangerous(pr: real, sse: int, bucket: Bucket, u: real)
    requires 13.0 <= pr <= 57.0 && 0.0 <= u < 1.0 && bucket == Danger && sse < Config.EdibleGuaranteeAfter
    ensures CanEat(ChooseNpcRadius(bucket, pr, sse, u).0, pr)
  {
  }

  /** Past radius 68 / 1.1, nothing the director spawns can eat the player. */
  lemma BigPlayerIsSafe(pr: real, sse: int, bucket: Bucket, u: real)
    requires pr > 68.0 / (1.0 + Config.EatMargin)
    ensures !CanEat(ChooseNpcRadius(bucket, pr, sse, u).0, pr)
  {
  }

  /** How far ahead of the usual spawn column a bucket's NPC appears. */
  function Lead(bucket: Bucket): real {
    match bucket
    case Danger => 160.0
    case Neutral => 80.0
    case Edible => 0.0
  }

  /** The draws `spawnNPC` consumes: refill, radius, heights, and the NPC's vertical speed. */
  datatype NpcDraws = NpcDraws(refill: real, radius: real, heights: seq<real>, vy: real)

  predicate DrawsOk(u: NpcDraws) {
    0.0 <= u.refill < 1.0 && |u.heights| == HeightTries + 1
  }

  /** The director, trail and world after `spawnNPC`, with the new NPC. */
  datatype NpcSpawn = NpcSpawn(dir: Director, trail: Option<Trail>, world: World, npc: Npc)

  /**
    `spawnNPC`: pick the bucket and radius, place the NPC ahead of the
    screen (further for dangers and neutrals), and append it. Danger NPCs
    are worth nothing; the rest are worth `pointsForRadius`.
   */
  function SpawnNpc(dir: Director, trail: Option<Trail>, d: real, pr: real, innerWidth: real, groundY: real,
                    w: World, u: NpcDraws): (s: NpcSpawn)
    requires DrawsOk(u)
    ensures s.world == w.(npcs := w.npcs + [s.npc])
    ensures s.npc.state == Fly && 10.0 <= s.npc.r <= 68.0
    ensures var b := NextNpcBucket(dir, trail, d, DangerOnScreen(w.npcs, pr), u.refill).0;
      s.npc.worth == (b != Danger) &&
      s.npc.pts == (if b == Danger then 0 else Scoring.PointsForRadius(s.npc.r)) &&
      s.npc.x == innerWidth + 70.0 + Lead(b)
    ensures s.npc.worth ==> 1 <= s.npc.pts <= 25
    ensures dir.spawnsSinceEdible <= Config.EdibleGuaranteeAfter ==> s.dir.spawnsSinceEdible <= Config.EdibleGuaranteeAfter
  {
    var (bucket, dir1, trail1) := NextNpcBucket(dir, trail, d, DangerOnScreen(w.npcs, pr), u.refill);
    var (r, sse) := ChooseNpcRadius(bucket, pr, dir1.spawnsSinceEdible, u.radius);
    var x := innerWidth + 70.0 + Lead(bucket);
    var y := PickSpawnY(x, r, groundY, w, u.heights);
    var worth := bucket != Danger;
    var n := MakeNpc(x, y, r, if worth then Scoring.PointsForRadius(r) else 0, worth, u.vy);
    NpcSpawn(dir1.(spawnsSinceEdible := sse), trail1, w.(npcs := w.npcs + [n]), n)
  }
}

=== FILE: events.dfy ===
/**
  What the entity updates ask of the rest of the game. The source passes a
  bag of callbacks (`deps`); the model returns these requests as a list,
  in the order the callbacks would have been made.
 */
module Events {

  /** The floating labels: "SMALL!", "+n" and "-n". */
  datatype Label = Small | Gain(n: int) | Loss(n: int)

  datatype Event =
    | AddScore(pts: int, x: real, y: real)      // `addScore(pts, x, y)`
    | DeductScore(pts: int, x: real, y: real)   // `deductScore(pts, x, y)`
    | PopText(text: Label, x: real, y: real)   // `popText(text, x, y)`
    | Bite(x: real, y: real)                    // `onBite(x, y)`
    | Burst(x: real, y: real, dur: real)        // `startBurst(x, y, dur)`
    | EnterDying                                // `state.value = 'dying'`
    | HideScore                                 // `showScore(false)`
}

=== FILE: hazards.dfy ===
/**
  Bombs (src/entities/hazards.js): capture and the fatal swallow (creation
  and drift are `Swallow.MakeBody` and `Swallow.DriftBodies`). The
  source has no deflect branch and no call into the boss or lives
  rules: a swallowed bomb ends the run directly.
 */
module Hazards {
  import opened Common
  import opened Player
  import opened Mouth
  import opened Events
  import opened Swallow

  /** How long the death burst lasts. */
  const DeathBurst: real := 0.55

  /** A bomb after one frame, the player after it, and the callbacks made. */
  datatype BombOutcome = BombOutcome(bomb: Option<Body>, player: Player, events: seq<Event>)

  /** The callbacks made when a swallowed bomb goes off. */
  function Detonation(p: Player): seq<Event> {
    [Burst(p.x, p.y, DeathBurst), EnterDying, HideScore]
  }

  /** One bomb's frame. */
  function StepBomb(b: Body, p: Player, env: Env): (o: BombOutcome)
    requires b.Ok()
    ensures o.bomb.Some? ==> o.bomb.value.Ok()
    ensures o.player.r == p.r && o.player.baseR == p.baseR && o.player.beingEaten == p.beingEaten
    ensures b.state == Flying ==> o.player.alive == p.alive && o.events == []
    ensures b.state == Flying ==> (o.bomb.None? <==> b.x - env.move < BodyCutoffX)
    ensures b.state == Flying && o.bomb.Some? ==> o.bomb.value.x == b.x - env.move
    ensures b.state == Flying && o.bomb.Some? && !Free(p) ==> o.bomb.value.state == Flying && o.player == p
    ensures b.state == Flying && o.bomb.Some? ==>
      (o.bomb.value.state == Eaten <==> Free(p) && Captures(p, b.x - env.move, b.y, b.r))
    ensures b.state == Flying && o.bomb.Some? && o.bomb.value.state == Eaten ==>
      o.player == p.(mouth := TriggerChomp(p.mouth)) && o.bomb.value.t == 0.0 && o.bomb.value.r0 == b.r
    ensures b.state == Eaten && o.bomb.Some? ==>
      o.player == p && o.events == [] && o.bomb.value.state == Eaten && (env.dt >= 0.0 ==> b.t <= o.bomb.value.t)
    ensures b.state == Eaten && o.bomb.None? ==>
      o.player == p.(alive := false) && o.events == Detonation(p)
  {
    match b.state
    case Flying =>
      var c := ShiftBody(b, env.move);
      if c.x < BodyCutoffX then BombOutcome(None, p, [])
      else if !Free(p) then BombOutcome(Some(c), p, [])
      else if Captures(p, c.x, c.y, c.r) then
        BombOutcome(Some(c.(state := Eaten, t := 0.0, x0 := c.x, y0 := c.y, r0 := c.r)),
                    p.(mouth := TriggerChomp(p.mouth)), [])
      else BombOutcome(Some(c), p, [])
    case Eaten =>
      var c := SwallowBody(b, p.x, p.y, env.dt);
      if c.t >= 1.0 then BombOutcome(None, p.(alive := false), Detonation(p))
      else BombOutcome(Some(c), p, [])
  }

  /** The running state of the frame loop over the bomb list. */
  datatype BombSweep = BombSweep(player: Player, kept: seq<Body>, events: seq<Event>)

  /** `updateReds`: process the bombs from the last index down, threading the player through. */
  function UpdateReds(reds: seq<Body>, s: BombSweep, env: Env): (r: BombSweep)
    requires AllBodiesOk(reds)
    decreases |reds|
  {
    if |reds| == 0 then s
    else
      var o := StepBomb(reds[|reds| - 1], s.player, env);
      AllBodiesOkPrefix(reds);
      UpdateReds(reds[..|reds| - 1],
        BombSweep(o.player, (if o.bomb.Some? then [o.bomb.value] else []) + s.kept, s.events + o.events), env)
  }

  /**
    The player ends the bomb loop dead exactly when it started dead or a bomb
    went off, and a bomb going off is what puts the game into 'dying'.
    Size and the swallow-by-NPC record are never touched.
   */
  lemma {:induction false} BombsAreFatal(reds: seq<Body>, s: BombSweep, env: Env)
    requires AllBodiesOk(reds)
    ensures var r := UpdateReds(reds, s, env);
      |r.events| >= |s.events| && r.events[..|s.events|] == s.events &&
      (!r.player.alive <==> !s.player.alive || EnterDying in r.events[|s.events|..]) &&
      r.player.r == s.player.r && r.player.baseR == s.player.baseR && r.player.beingEaten == s.player.beingEaten
    decreases |reds|
  {
    if |reds| > 0 {
      var o := StepBomb(reds[|reds| - 1], s.player, env);
      var s1 := BombSweep(o.player, (if o.bomb.Some? then [o.bomb.value] else []) + s.kept, s.events + o.events);
      AllBodiesOkPrefix(reds);
      BombsAreFatal(reds[..|reds| - 1], s1, env);
      var r := UpdateReds(reds, s, env);
      assert r == UpdateReds(reds[..|reds| - 1], s1, env);
      assert r.events[..|s.events|] == s.events by {
        assert r.events[..|s1.events|] == s1.events;
        assert s1.events[..|s.events|] == s.events;
      }
      assert r.events[|s.events|..] == o.events + r.events[|s1.events|..] by {
        assert r.events[..|s1.events|] == s1.events;
      }
    }
  }

  /** Every bomb the loop keeps satisfies the body invariant. */
  lemma {:induction false} BombsStayOk(reds: seq<Body>, s: BombSweep, env: Env)
    requires AllBodiesOk(reds) && AllBodiesOk(s.kept)
    ensures var r := UpdateReds(reds, s, env); AllBodiesOk(r.kept) && |r.kept| <= |reds| + |s.kept|
    decreases |reds|
  {
    if |reds| > 0 {
      var o := StepBomb(reds[|reds| - 1], s.player, env);
      var kept := (if o.bomb.Some? then [o.bomb.value] else []) + s.kept;
      assert AllBodiesOk(kept) by {
        forall i | 0 <= i < |kept| ensures kept[i].Ok() {
          if o.bomb.Some? && i > 0 { assert kept[i] == s.kept[i - 1]; }
        }
      }
      AllBodiesOkPrefix(reds);
      BombsStayOk(reds[..|reds| - 1], BombSweep(o.player, kept, s.events + o.events), env);
    }
  }
}

=== FILE: lives.dfy ===
/**
  Lives and the continue screen of src/main.js: `registerDeath`,
  `beginGameOver`, `continueFromGameOver`, the resume delay, and
  `finishContinueFromGameOver`.
 */
module Lives {
  import opened Common

  /** Lives are counted in halves: 8 halves are 4 hearts. */
  const MaxLivesHalf: int := 8
  /** Coins granted by "insert coins". */
  const CoinsMax: int := 5
  /** How long the continue screen waits after a coin is spent. */
  const ResumeDur: real := 1.5
  /** Arcade deaths at which the "died 100 times" toast appears. */
  const Died100: int := 100

  /** Death bookkeeping. */
  datatype Lives = Lives(deathCount: int, livesHalf: int, died100Toast: bool)
  {
    predicate Valid() { deathCount >= 0 && 0 <= livesHalf <= MaxLivesHalf }
  }

  /** A fresh run: no deaths, full lives. */
  function FreshLives(): (l: Lives)
    ensures l.Valid() && l.livesHalf == MaxLivesHalf && l.deathCount == 0
  {
    Lives(0, MaxLivesHalf, false)
  }

  /** The result of `registerDeath`, and whether the one-off "died 100" sequence starts. */
  datatype Death = Death(lives: Lives, sequence: bool)

  /**
    `registerDeath`: ignored while already dying or on the game-over screen;
    otherwise one more death and half a heart less (never below 0). In
    arcade the toast turns on from the 100th death, and the sequence plays
    exactly at the 100th.
   */
  function RegisterDeath(state: GameState, arcade: bool, l: Lives): (d: Death)
    ensures state == Dying || state == GameOver ==> d == Death(l, false)
    ensures state != Dying && state != GameOver ==>
      d.lives.deathCount == l.deathCount + 1 &&
      d.lives.livesHalf == (if l.livesHalf >= 1 then l.livesHalf - 1 else 0) &&
      (d.lives.died100Toast <==> l.died100Toast || (arcade && l.deathCount + 1 >= Died100)) &&
      (d.sequence <==> arcade && l.deathCount + 1 == Died100)
    ensures l.Valid() ==> d.lives.Valid()
  {
    if state == Dying || state == GameOver then Death(l, false)
    else
      var count := l.deathCount + 1;
      Death(Lives(count, if l.livesHalf - 1 > 0 then l.livesHalf - 1 else 0,
                  l.died100Toast || (arcade && count >= Died100)),
            arcade && count == Died100)
  }

  /** Deaths registered outside the dying and game-over states, one per entry. */
  function Deaths(arcade: bool, l: Lives, n: nat): Lives
    decreases n
  {
    if n == 0 then l else Deaths(arcade, RegisterDeath(Playing, arcade, l).lives, n - 1)
  }

  /** n deaths cost n halves of a heart (down to 0) and count n deaths. */
  lemma {:induction false} DeathsCountDown(arcade: bool, l: Lives, n: nat)
    requires l.Valid()
    ensures Deaths(arcade, l, n).deathCount == l.deathCount + n
    ensures Deaths(arcade, l, n).livesHalf == (if l.livesHalf >= n then l.livesHalf - n else 0)
    ensures Deaths(arcade, l, n).Valid()
    decreases n
  {
    if n > 0 {
      DeathsCountDown(arcade, RegisterDeath(Playing, arcade, l).lives, n - 1);
    }
  }

  /** A second death in the same dying spell costs nothing. */
  lemma NoDoubleDeath(arcade: bool, l: Lives, s: GameState)
    requires s != Dying && s != GameOver
    ensures RegisterDeath(Dying, arcade, RegisterDeath(s, arcade, l).lives).lives == RegisterDeath(s, arcade, l).lives
  {
  }

  /** The continue screen: coins, insert mode, the coin flash and the resume delay. */
  datatype Continue = Continue(coins: int, insertMode: bool, coinFlash: bool,
                               resumeActive: bool, resumeT: real)
  {
    predicate Valid() {
      0 <= coins <= CoinsMax && 0.0 <= resumeT <= ResumeDur && !(insertMode && resumeActive)
    }
  }

  /** `beginGameOver`: fresh animations, and insert mode exactly when no coin is left. */
  function BeginGameOver(coins: int): (c: Continue)
    ensures c.coins == coins && !c.coinFlash && !c.resumeActive
    ensures c.insertMode <==> coins <= 0
    ensures 0 <= coins <= CoinsMax ==> c.Valid()
  {
    Continue(coins, coins <= 0, false, false, 0.0)
  }

  /**
    `continueFromGameOver`: ignored while the resume delay runs; in insert
    mode it refills the coins and leaves insert mode without resuming;
    otherwise it spends a coin (never below 0) and starts the resume delay.
   */
  function ContinueFromGameOver(c: Continue): (r: Continue)
    ensures c.resumeActive ==> r == c
    ensures !c.resumeActive && c.insertMode ==>
      r == c.(coins := CoinsMax, insertMode := false)
    ensures !c.resumeActive && !c.insertMode ==>
      r.coins == (if c.coins >= 1 then c.coins - 1 else 0) &&
      r.coinFlash && r.resumeActive && r.resumeT == 0.0 && !r.insertMode
    ensures c.Valid() ==> r.Valid()
  {
    if c.resumeActive then c
    else if c.insertMode then c.(coins := CoinsMax, insertMode := false)
    else c.(coins := if c.coins - 1 > 0 then c.coins - 1 else 0,
            coinFlash := true, resumeActive := true, resumeT := 0.0)
  }

  /** One game-over frame of the resume delay, and whether the run resumes (`finishContinueFromGameOver`). */
  datatype Resume = Resume(screen: Continue, resumed: bool)

  function ResumeTick(c: Continue, dt: real): (r: Resume)
    requires dt >= 0.0
    ensures !c.resumeActive ==> r == Resume(c, false)
    ensures c.resumeActive && c.resumeT + dt < ResumeDur ==>
      r == Resume(c.(resumeT := c.resumeT + dt), false)
    ensures c.resumeActive && c.resumeT + dt >= ResumeDur ==>
      r.resumed && !r.screen.resumeActive && !r.screen.coinFlash && r.screen.coins == c.coins
    ensures c.Valid() ==> r.screen.Valid()
  {
    if !c.resumeActive then Resume(c, false)
    else
      var t := if c.resumeT + dt < ResumeDur then c.resumeT + dt else ResumeDur;
      if t >= ResumeDur then Resume(c.(resumeT := t, resumeActive := false, coinFlash := false), true)
      else Resume(c.(resumeT := t), false)
  }

  /** `finishContinueFromGameOver`: the lives are refilled (deaths stay counted). */
  function FinishContinue(l: Lives): (r: Lives)
    ensures r.livesHalf == MaxLivesHalf && r.deathCount == l.deathCount
    ensures l.Valid() ==> r.Valid()
  {
    l.(livesHalf := MaxLivesHalf)
  }

  /**
    Continuing costs exactly one coin: with coins left, one press spends
    one and starts the resume delay; with none, the first press only refills
    to five and the second spends one of those.
   */
  lemma ContinueCostsOneCoin(coins: int)
    requires 0 <= coins <= CoinsMax
    ensures var c := ContinueFromGameOver(BeginGameOver(coins));
      coins >= 1 ==> c.coins == coins - 1 && c.resumeActive
    ensures var c := ContinueFromGameOver(BeginGameOver(coins));
      coins == 0 ==> c.coins == CoinsMax && !c.resumeActive &&
                     ContinueFromGameOver(c).coins == CoinsMax - 1 && ContinueFromGameOver(c).resumeActive
  {
  }

  /** n presses of the continue button. */
  function Presses(c: Continue, n: nat): Continue
    decreases n
  {
    if n == 0 then c else Presses(ContinueFromGameOver(c), n - 1)
  }

  /** Presses during the resume delay are ignored, so a coin is spent at most once per continue. */
  lemma {:induction false} PressesDuringDelayIgnored(c: Continue, n: nat)
    requires c.resumeActive
    ensures Presses(c, n) == c
    decreases n
  {
    if n > 0 {
      PressesDuringDelayIgnored(ContinueFromGameOver(c), n - 1);
    }
  }
}

=== FILE: math_util.dfy ===
/**
  Numeric helpers of the game (src/utils/math.js), over exact reals.
  Floating-point rounding is not modelled; `Math.round` and the JavaScript
  remainder operator are written out explicitly.
 */
module MathUtil {

  /** The value of `Math.PI`, as an exact decimal. */
  const Pi: real := 3.141592653589793
  const TwoPi: real := 2.0 * Pi

  function Min(a: real, b: real): real { if a <= b then a else b }
  function Max(a: real, b: real): real { if a >= b then a else b }

  /** `clamp(v, a, b) = max(a, min(b, v))`. */
  function Clamp(v: real, a: real, b: real): (r: real)
    ensures a <= b ==> a <= r <= b
    ensures a <= v <= b ==> r == v
    ensures a > b ==> r == a
    ensures v < a ==> r == a
    ensures a <= b && b < v ==> r == b
  {
    Max(a, Min(b, v))
  }

  // ---------------------------------------------------------------------
  // Products. Every product of two variables in the model goes through
  // `Scale`, whose contract is proved once, over independent variables.

  /** Multiplying by a non-negative factor preserves order. */
  lemma MulMono(k: real, x: real, y: real)
    requires k >= 0.0 && x <= y
    ensures k * x <= k * y
  {
  }

  /** Multiplying by a positive factor preserves strict order. */
  lemma MulMonoStrict(k: real, x: real, y: real)
    requires k > 0.0 && x < y
    ensures k * x < k * y
  {
  }

  /** Monotonicity in both factors at once. */
  lemma MulBoth(a: real, b: real, c: real, d: real)
    requires 0.0 <= a <= b && 0.0 <= c <= d
    ensures a * c <= b * d
  {
    MulMono(a, c, d);
    MulMono(d, a, b);
    assert a * d == d * a;
    assert b * d == d * b;
  }

  /** Strict monotonicity in both factors at once. */
  lemma MulBothStrict(a: real, b: real, c: real, d: real)
    requires 0.0 <= a < b && 0.0 <= c < d
    ensures a * c < b * d
  {
    MulMono(a, c, d);
    MulMonoStrict(d, a, b);
    assert a * d == d * a;
    assert b * d == d * b;
  }

  /** `k * t`: scaling a span k by a fraction t. */
  function Scale(k: real, t: real): (r: real)
    ensures t == 0.0 ==> r == 0.0
    ensures t == 1.0 ==> r == k
    ensures 0.0 <= k && 0.0 <= t <= 1.0 ==> 0.0 <= r <= k
    ensures k <= 0.0 && 0.0 <= t <= 1.0 ==> k <= r <= 0.0
    ensures 0.0 < k && 0.0 <= t < 1.0 ==> r < k
  {
    var r := k * t;
    ScaleFacts(k, t, r);
    r
  }

  lemma ScaleFacts(k: real, t: real, r: real)
    requires r == k * t
    ensures t == 0.0 ==> r == 0.0
    ensures t == 1.0 ==> r == k
    ensures 0.0 <= k && 0.0 <= t <= 1.0 ==> 0.0 <= r <= k
    ensures k <= 0.0 && 0.0 <= t <= 1.0 ==> k <= r <= 0.0
    ensures 0.0 < k && 0.0 <= t < 1.0 ==> r < k
  {
    if 0.0 <= t <= 1.0 {
      if 0.0 <= k {
        MulMono(k, 0.0, t);
        MulMono(k, t, 1.0);
        if 0.0 < k && t < 1.0 {
          MulMonoStrict(k, t, 1.0);
        }
      } else {
        MulMono(-k, 0.0, t);
        MulMono(-k, t, 1.0);
        assert (-k) * t == -(k * t);
      }
    }
  }

  /** Scaling a non-negative span is monotone in the fraction. */
  lemma ScaleMono(k: real, s: real, t: real)
    requires k >= 0.0 && s <= t
    ensures Scale(k, s) <= Scale(k, t)
  {
    OrderedProducts(k, s, t, Scale(k, s), Scale(k, t));
  }

  lemma OrderedProducts(k: real, s: real, t: real, p: real, q: real)
    requires k >= 0.0 && s <= t && p == k * s && q == k * t
    ensures p <= q
  {
    MulMono(k, s, t);
  }

  // ---------------------------------------------------------------------
  // Interpolation and easing.

  /** Linear interpolation `a + (b - a) * t`. */
  function Lerp(a: real, b: real, t: real): (r: real)
    ensures t == 0.0 ==> r == a
    ensures t == 1.0 ==> r == b
    ensures 0.0 <= t <= 1.0 && a <= b ==> a <= r <= b
    ensures 0.0 <= t <= 1.0 && b <= a ==> b <= r <= a
  {
    a + Scale(b - a, t)
  }

  /** Lerp is monotone in its parameter when a <= b. */
  lemma LerpMonotone(a: real, b: real, s: real, t: real)
    requires a <= b && s <= t
    ensures Lerp(a, b, s) <= Lerp(a, b, t)
  {
    ScaleMono(b - a, s, t);
  }

  /** Scaling by a fixed non-negative fraction is monotone in the span. */
  lemma ScaleMonoSpan(j: real, k: real, t: real)
    requires j <= k && t >= 0.0
    ensures Scale(j, t) <= Scale(k, t)
  {
    OrderedProducts(t, j, k, Scale(t, j), Scale(t, k));
    assert Scale(t, j) == Scale(j, t) by { Commute(j, t); }
    assert Scale(t, k) == Scale(k, t) by { Commute(k, t); }
  }

  lemma Commute(a: real, b: real)
    ensures Scale(a, b) == Scale(b, a)
  {
    assert a * b == b * a;
  }

  /** A factor of at least 1 does not shrink a non-negative span. */
  lemma ScaleAtLeastSpan(k: real, t: real)
    requires k >= 0.0 && t >= 1.0
    ensures Scale(k, t) >= k
  {
    ScaleMono(k, 1.0, t);
  }

  /** Lerp toward a smaller end point is antitone in its parameter. */
  lemma LerpAntitone(a: real, b: real, s: real, t: real)
    requires b <= a && s <= t
    ensures Lerp(a, b, t) <= Lerp(a, b, s)
  {
    ReversedProducts(b - a, s, t, Scale(b - a, s), Scale(b - a, t));
  }

  lemma ReversedProducts(k: real, s: real, t: real, p: real, q: real)
    requires k <= 0.0 && s <= t && p == k * s && q == k * t
    ensures q <= p
  {
    MulMono(-k, s, t);
    assert (-k) * s == -(k * s);
    assert (-k) * t == -(k * t);
  }

  /** Smoothstep `t * t * (3 - 2t)`. */
  function EaseInOut(t: real): (r: real)
    ensures t == 0.0 ==> r == 0.0
    ensures t == 1.0 ==> r == 1.0
    ensures 0.0 <= t <= 1.0 ==> 0.0 <= r <= 1.0
  {
    var r := t * t * (3.0 - 2.0 * t);
    if 0.0 <= t <= 1.0 then SmoothstepRange(t, r); r else r
  }

  /** The value stays in [0,1]: it is t^2 (3 - 2t), and 1 minus it is (1 - t)^2 (1 + 2t). */
  lemma SmoothstepRange(t: real, r: real)
    requires 0.0 <= t <= 1.0 && r == t * t * (3.0 - 2.0 * t)
    ensures 0.0 <= r <= 1.0
  {
    MulBoth(0.0, t, 0.0, t);
    MulBoth(0.0, t * t, 0.0, 3.0 - 2.0 * t);
    MulBoth(0.0, 1.0 - t, 0.0, 1.0 - t);
    MulBoth(0.0, (1.0 - t) * (1.0 - t), 0.0, 1.0 + 2.0 * t);
    assert 1.0 - r == (1.0 - t) * (1.0 - t) * (1.0 + 2.0 * t);
  }

  /** Smoothstep is monotone on [0,1]. */
  lemma EaseInOutMonotone(s: real, t: real)
    requires 0.0 <= s <= t <= 1.0
    ensures EaseInOut(s) <= EaseInOut(t)
  {
    SmoothstepIncrease(s, t, EaseInOut(s), EaseInOut(t));
  }

  /** E(t) - E(s) = (t - s) * k with k = 3(t + s) - 2(t^2 + ts + s^2), and k >= 0 on [0,1]. */
  lemma SmoothstepIncrease(s: real, t: real, es: real, et: real)
    requires 0.0 <= s <= t <= 1.0
    requires es == s * s * (3.0 - 2.0 * s) && et == t * t * (3.0 - 2.0 * t)
    ensures es <= et
  {
    var tt := SquareAtMost(t);
    var ss := SquareAtMost(s);
    var ts := MixedAtMost(s, t);
    SmoothstepFactor(s, t, tt, ts, ss);
    var k := 3.0 * (t + s) - 2.0 * (tt + ts + ss);
    SmoothstepDifference(s, t, tt, ts, ss, es, et);
    MulBoth(0.0, t - s, 0.0, k);
  }

  lemma SmoothstepDifference(s: real, t: real, tt: real, ts: real, ss: real, es: real, et: real)
    requires tt == t * t && ts == t * s && ss == s * s
    requires es == s * s * (3.0 - 2.0 * s) && et == t * t * (3.0 - 2.0 * t)
    ensures et - es == (t - s) * (3.0 * (t + s) - 2.0 * (tt + ts + ss))
  {
  }

  /** The square of a number in [0,1] does not exceed it. */
  lemma SquareAtMost(t: real) returns (tt: real)
    requires 0.0 <= t <= 1.0
    ensures tt == t * t && tt <= t
  {
    tt := t * t;
    AtMostFactor(t, t);
  }

  /** The product of two numbers in [0,1] does not exceed either. */
  lemma MixedAtMost(s: real, t: real) returns (ts: real)
    requires 0.0 <= s <= 1.0 && 0.0 <= t <= 1.0
    ensures ts == t * s && ts <= t && ts <= s
  {
    ts := t * s;
    AtMostFactor(s, t);
    AtMostFactor(t, s);
  }

  /** A factor in [0,1] does not enlarge a non-negative number. */
  lemma AtMostFactor(x: real, y: real)
    requires 0.0 <= x <= 1.0 && y >= 0.0
    ensures x * y <= y && y * x <= y
  {
    MulMono(y, x, 1.0);
  }

  /** The second smoothstep factor is non-negative, with the products named. */
  lemma SmoothstepFactor(s: real, t: real, tt: real, ts: real, ss: real)
    requires 0.0 <= s <= t <= 1.0
    requires tt <= t && ss <= s && ts <= t && ts <= s
    ensures 3.0 * (t + s) - 2.0 * (tt + ts + ss) >= 0.0
  {
  }

  // ---------------------------------------------------------------------
  // Rounding, random draws, remainders.

  /** JavaScript `Math.round`: round half up, i.e. `floor(x + 0.5)`. */
  function Round(x: real): (n: int)
    ensures x - 0.5 < n as real <= x + 0.5
  {
    (x + 0.5).Floor
  }

  /** `rand(a, b) = Math.random() * (b - a) + a`, with the draw `u` passed in. */
  function Rand(a: real, b: real, u: real): (r: real)
    ensures 0.0 <= u < 1.0 && a <= b ==> a <= r <= b
    ensures 0.0 <= u < 1.0 && a < b ==> r < b
    ensures u == 0.0 ==> r == a
  {
    Scale(b - a, u) + a
  }

  /** Truncation toward zero, as JavaScript's `%` uses. */
  function Trunc(q: real): int {
    if q >= 0.0 then q.Floor else -((-q).Floor)
  }

  /** JavaScript `x % m` on numbers: the remainder takes the sign of x. */
  function JsMod(x: real, m: real): (r: real)
    requires m > 0.0
    ensures x >= 0.0 ==> 0.0 <= r < m
    ensures 0.0 <= x < m ==> r == x
  {
    if x >= 0.0 then FloorRemainder(x, m); x - m * (Trunc(x / m) as real)
    else x - m * (Trunc(x / m) as real)
  }

  lemma FloorRemainder(x: real, m: real)
    requires m > 0.0 && x >= 0.0
    ensures 0.0 <= x - m * ((x / m).Floor as real) < m
    ensures x < m ==> (x / m).Floor == 0
  {
    var q := x / m;
    FloorScale(m, q, q.Floor as real, x);
    if x < m {
      MulMonoStrict(m, q, 1.0);
    }
  }

  lemma FloorScale(m: real, q: real, f: real, x: real)
    requires m > 0.0 && f <= q < f + 1.0 && q == x / m
    ensures 0.0 <= x - m * f < m
  {
    assert m * q == x;
    MulMono(m, f, q);
    MulMonoStrict(m, q, f + 1.0);
  }

  // ---------------------------------------------------------------------
  // Angles.

  /** The first normalisation loop of `lerpAngle`: subtract 2pi while d > pi. */
  function WrapDown(d: real): (r: real)
    ensures r <= Pi
    ensures d > Pi ==> r > -Pi
    ensures d <= Pi ==> r == d
    decreases if d > Pi then (d / Pi).Floor else 0
  {
    if d > Pi then WrapDown(d - TwoPi) else d
  }

  /** The second normalisation loop: add 2pi while d < -pi. */
  function WrapUp(d: real): (r: real)
    ensures r >= -Pi
    ensures d < -Pi ==> r < Pi
    ensures d >= -Pi ==> r == d
    decreases if d < -Pi then (-d / Pi).Floor else 0
  {
    if d < -Pi then WrapUp(d + TwoPi) else d
  }

  /** Both loops of `lerpAngle` in sequence: the result lies in [-pi, pi]. */
  function NormalizeAngle(d: real): (r: real)
    ensures -Pi <= r <= Pi
    ensures -Pi <= d <= Pi ==> r == d
  {
    WrapUp(WrapDown(d))
  }

  /** The first loop changes the difference only by whole turns. */
  lemma {:induction false} WrapDownTurns(d: real) returns (k: int)
    ensures WrapDown(d) == d - (k as real) * TwoPi
    ensures k >= 0
    decreases if d > Pi then (d / Pi).Floor else 0
  {
    if d > Pi {
      var k' := WrapDownTurns(d - TwoPi);
      k := k' + 1;
    } else {
      k := 0;
    }
  }

  /** The second loop changes the difference only by whole turns. */
  lemma {:induction false} WrapUpTurns(d: real) returns (k: int)
    ensures WrapUp(d) == d + (k as real) * TwoPi
    ensures k >= 0
    decreases if d < -Pi then (-d / Pi).Floor else 0
  {
    if d < -Pi {
      var k' := WrapUpTurns(d + TwoPi);
      k := k' + 1;
    } else {
      k := 0;
    }
  }

  /** The normalised difference equals the input up to whole turns. */
  lemma NormalizeAngleTurns(d: real) returns (k: int)
    ensures NormalizeAngle(d) == d + (k as real) * TwoPi
  {
    var k1 := WrapDownTurns(d);
    var k2 := WrapUpTurns(WrapDown(d));
    k := k2 - k1;
  }

  /** `lerpAngle(a, b, t)`: turn from a toward b along the shorter way. */
  function LerpAngle(a: real, b: real, t: real): (r: real)
    ensures t == 0.0 ==> r == a
    ensures t == 1.0 ==> r == a + NormalizeAngle(b - a)
    ensures 0.0 <= t <= 1.0 ==> a - Pi <= r <= a + Pi
  {
    a + Scale(NormalizeAngle(b - a), t)
  }

  // ---------------------------------------------------------------------
  // Distances.

  /** The square of a number. */
  function Sq(x: real): (r: real)
    ensures r >= 0.0
  {
    var r := x * x;
    SqNonneg(x, r);
    r
  }

  lemma SqNonneg(x: real, r: real)
    requires r == x * x
    ensures r >= 0.0
  {
    if x < 0.0 {
      MulBoth(0.0, -x, 0.0, -x);
      assert (-x) * (-x) == x * x;
    } else {
      MulBoth(0.0, x, 0.0, x);
    }
  }

  /** Squaring is monotone on non-negative numbers. */
  lemma SqMono(d: real, c: real)
    requires 0.0 <= d <= c
    ensures Sq(d) <= Sq(c)
  {
    MulBoth(d, c, d, c);
  }

  /** Squaring is strictly monotone on non-negative numbers. */
  lemma SqMonoStrict(d: real, c: real)
    requires 0.0 <= d < c
    ensures Sq(d) < Sq(c)
  {
    MulBothStrict(d, c, d, c);
  }

  /** Squared Euclidean distance; `dist` is only ever compared with a bound. */
  function DistSq(dx: real, dy: real): (r: real)
    ensures r >= 0.0
  {
    Sq(dx) + Sq(dy)
  }

  /** `dist(...) <= c`, stated without the square root. */
  predicate DistLe(dx: real, dy: real, c: real) {
    0.0 <= c && DistSq(dx, dy) <= Sq(c)
  }

  /** `dist(...) < c`, stated without the square root. */
  predicate DistLt(dx: real, dy: real, c: real) {
    0.0 < c && DistSq(dx, dy) < Sq(c)
  }

  /** `d` is the length of the vector (dx, dy). */
  ghost predicate IsDist(d: real, dx: real, dy: real) {
    d >= 0.0 && Sq(d) == DistSq(dx, dy)
  }

  /** The squared comparisons agree with comparing the real distance. */
  lemma DistCompare(d: real, dx: real, dy: real, c: real)
    requires IsDist(d, dx, dy)
    ensures DistLe(dx, dy, c) <==> d <= c
    ensures DistLt(dx, dy, c) <==> d < c
  {
    if 0.0 <= c {
      if d <= c { SqMono(d, c); } else { SqMonoStrict(c, d); }
      if d < c { SqMonoStrict(d, c); } else { SqMono(c, d); }
    }
  }

  /** Distance is symmetric: swapping the two points changes nothing. */
  lemma DistSymmetric(px: real, py: real, qx: real, qy: real, c: real)
    ensures DistSq(px - qx, py - qy) == DistSq(qx - px, qy - py)
    ensures DistLe(px - qx, py - qy, c) <==> DistLe(qx - px, qy - py, c)
    ensures DistLt(px - qx, py - qy, c) <==> DistLt(qx - px, qy - py, c)
  {
    assert (px - qx) * (px - qx) == (qx - px) * (qx - px);
    assert (py - qy) * (py - qy) == (qy - py) * (qy - py);
  }
}

=== FILE: mouth.dfy ===
/**
  The mouth pulse machine shared by the player and every NPC
  (src/entities/mouth.js). The aim angle `dir` is not modelled, and
  `Math.sin(Math.PI * p)` is a parameter `sinPi`.
 */
module Mouth {
  import opened MathUtil
  import Config

  /** A mouth: how open it is, the pulse timer in [0,1], its length, and the chomp cooldown. */
  datatype MouthState = MouthState(open: real, pulseT: real, pulseDur: real, cooldown: real) {
    predicate Valid() { 0.0 <= pulseT <= 1.0 && pulseDur > 0.0 }
  }

  /** The mouth every new entity starts with: closed, pulse finished, no cooldown. */
  function Idle(): (m: MouthState)
    ensures m.Valid()
    ensures m.open == 0.0 && m.pulseT == 1.0 && m.cooldown == 0.0
  {
    MouthState(0.0, 1.0, Config.PulseDur, 0.0)
  }

  /** `Math.sin(Math.PI * p)` maps the pulse range [0,1] into [0,1]. */
  ghost predicate SinPiOk(sinPi: real -> real) {
    forall p :: 0.0 <= p <= 1.0 ==> 0.0 <= sinPi(p) <= 1.0
  }

  /** Start a chomp unless the previous one is still cooling down. */
  function TriggerChomp(m: MouthState): (r: MouthState)
    ensures m.cooldown > 0.0 ==> r == m
    ensures m.cooldown <= 0.0 ==>
      r.pulseT == 0.0 && r.pulseDur == Config.PulseDur && r.cooldown == Config.MinCooldown && r.open == m.open
    ensures r == m <==> m.cooldown > 0.0
    ensures m.Valid() ==> r.Valid()
  {
    if m.cooldown > 0.0 then m
    else m.(pulseT := 0.0, pulseDur := Config.PulseDur, cooldown := Config.MinCooldown)
  }

  /** One frame of the pulse: cooldown runs down, pulse advances, openness follows the pulse. */
  function UpdateMouth(m: MouthState, dt: real, sinPi: real -> real): (r: MouthState)
    requires m.pulseDur > 0.0
    ensures r.pulseDur == m.pulseDur
    ensures m.cooldown > 0.0 ==> r.cooldown == m.cooldown - dt
    ensures m.cooldown <= 0.0 ==> r.cooldown == m.cooldown
    ensures m.pulseT < 1.0 ==> 0.0 <= r.pulseT <= 1.0
    ensures m.pulseT < 1.0 && SinPiOk(sinPi) ==> 0.0 <= r.open <= 1.0
    ensures m.pulseT >= 1.0 ==> r.pulseT == m.pulseT && r.open == 0.0
    ensures dt >= 0.0 ==> m.pulseT <= r.pulseT
    ensures m.Valid() ==> r.Valid()
  {
    var cooldown := if m.cooldown > 0.0 then m.cooldown - dt else m.cooldown;
    if m.pulseT < 1.0 then
      var step := dt / m.pulseDur;
      assert dt >= 0.0 ==> step >= 0.0;
      var p := Clamp(m.pulseT + step, 0.0, 1.0);
      MouthState(sinPi(p), p, m.pulseDur, cooldown)
    else
      MouthState(0.0, m.pulseT, m.pulseDur, cooldown)
  }

  /** Total of a sequence of frame times. */
  function Sum(dts: seq<real>): real {
    if |dts| == 0 then 0.0 else dts[0] + Sum(dts[1..])
  }

  predicate AllNonneg(dts: seq<real>) {
    forall i :: 0 <= i < |dts| ==> dts[i] >= 0.0
  }

  lemma {:induction false} SumNonneg(dts: seq<real>)
    requires AllNonneg(dts)
    ensures Sum(dts) >= 0.0
  {
    if |dts| > 0 {
      assert AllNonneg(dts[1..]) by {
        forall i | 0 <= i < |dts[1..]| ensures dts[1..][i] >= 0.0 { assert dts[1..][i] == dts[i + 1]; }
      }
      SumNonneg(dts[1..]);
    }
  }

  /** The mouth after a run of frames. */
  function UpdateMany(m: MouthState, dts: seq<real>, sinPi: real -> real): (r: MouthState)
    requires m.pulseDur > 0.0
    ensures r.pulseDur == m.pulseDur
    ensures m.Valid() ==> r.Valid()
    decreases |dts|
  {
    if |dts| == 0 then m else UpdateMany(UpdateMouth(m, dts[0], sinPi), dts[1..], sinPi)
  }

  /** A non-positive cooldown is left alone by every later frame. */
  lemma {:induction false} SpentCooldownStays(m: MouthState, dts: seq<real>, sinPi: real -> real)
    requires m.pulseDur > 0.0 && m.cooldown <= 0.0
    ensures UpdateMany(m, dts, sinPi).cooldown == m.cooldown
    decreases |dts|
  {
    if |dts| > 0 {
      SpentCooldownStays(UpdateMouth(m, dts[0], sinPi), dts[1..], sinPi);
    }
  }

  /** A running cooldown drops by exactly the elapsed time until it is spent, then stays spent. */
  lemma {:induction false} CooldownTrace(m: MouthState, dts: seq<real>, sinPi: real -> real)
    requires m.pulseDur > 0.0 && m.cooldown > 0.0 && AllNonneg(dts)
    ensures Sum(dts) < m.cooldown ==> UpdateMany(m, dts, sinPi).cooldown == m.cooldown - Sum(dts)
    ensures Sum(dts) >= m.cooldown ==> UpdateMany(m, dts, sinPi).cooldown <= 0.0
    decreases |dts|
  {
    if |dts| > 0 {
      var m1 := UpdateMouth(m, dts[0], sinPi);
      assert AllNonneg(dts[1..]) by {
        forall i | 0 <= i < |dts[1..]| ensures dts[1..][i] >= 0.0 { assert dts[1..][i] == dts[i + 1]; }
      }
      if m1.cooldown > 0.0 {
        CooldownTrace(m1, dts[1..], sinPi);
      } else {
        SumNonneg(dts[1..]);
        SpentCooldownStays(m1, dts[1..], sinPi);
      }
    }
  }

  /**
    After a chomp that went through, a second chomp is ignored exactly as
    long as the frame times since then sum to less than the cooldown.
   */
  lemma ChompGate(m: MouthState, dts: seq<real>, sinPi: real -> real)
    requires m.pulseDur > 0.0 && m.cooldown <= 0.0 && AllNonneg(dts)
    ensures var later := UpdateMany(TriggerChomp(m), dts, sinPi);
      TriggerChomp(later) == later <==> Sum(dts) < Config.MinCooldown
  {
    CooldownTrace(TriggerChomp(m), dts, sinPi);
  }
}

=== FILE: npc.dfy ===
/**
  NPCs (src/entities/npc.js): creation, drift, and the per-frame state
  machine fly -> beingEaten | eatingPlayer, with eat growth, the miss
  deduction and the emotion tags. The mouth aim angle is not modelled.
 */
module Npcs {
  import opened Common
  import opened MathUtil
  import Config
  import opened Mouth
  import opened Player
  import opened Events
  import opened EatRule
  import opened Swallow

  datatype NpcState = Fly | BeingEaten | EatingPlayer

  datatype Npc = Npc(
    x: real, y: real, r: real,
    pts: int, worth: bool, vy: real,
    emotion: Emotion, mouth: MouthState,
    state: NpcState, t: real, x0: real, y0: real, r0: real)
  {
    /** What every NPC keeps true: a usable mouth, a non-negative size, a sane swallow. */
    predicate Ok() {
      mouth.Valid() && r >= 0.0 &&
      (state == BeingEaten ==> 0.0 <= t <= 1.0 && 0.0 <= r <= r0)
    }
  }

  /** NPCs that drift this far left are gone for good. */
  const CutoffX: real := -220.0
  /** NPCs bounce vertically when outside [BounceTop, groundY - BounceFloorGap]. */
  const BounceTop: real := 60.0
  const BounceFloorGap: real := 40.0
  /** A danger closer than this makes the player afraid. */
  const FearDist: real := 220.0

  /** A new NPC, with the vertical speed drawn from `u` in [0,1). */
  function MakeNpc(x: real, y: real, r: real, pts: int, worth: bool, u: real): (n: Npc)
    ensures n.x == x && n.y == y && n.r == r && n.pts == pts && n.worth == worth
    ensures n.state == Fly && n.t == 0.0 && n.emotion == Neutral && n.mouth == Idle()
    ensures 0.0 <= u < 1.0 ==> -12.0 <= n.vy < 12.0
    ensures r >= 0.0 ==> n.Ok()
  {
    Npc(x, y, r, pts, worth, Rand(-12.0, 12.0, u), Neutral, Idle(), Fly, 0.0, 0.0, 0.0, 0.0)
  }

  function Shift(n: Npc, move: real): Npc { n.(x := n.x - move) }

  /** Scroll every NPC left by `move` and drop the ones past the cutoff, keeping the order. */
  function DriftNpcs(npcs: seq<Npc>, move: real): (r: seq<Npc>)
    ensures |r| <= |npcs|
    ensures forall n | n in r :: n.x >= CutoffX
    ensures forall i | 0 <= i < |npcs| :: Shift(npcs[i], move).x >= CutoffX ==> Shift(npcs[i], move) in r
    ensures forall n | n in r :: exists i :: 0 <= i < |npcs| && n == Shift(npcs[i], move)
  {
    if |npcs| == 0 then []
    else
      var rest := DriftNpcs(npcs[..|npcs| - 1], move);
      var last := Shift(npcs[|npcs| - 1], move);
      assert forall i | 0 <= i < |npcs| - 1 :: npcs[..|npcs| - 1][i] == npcs[i];
      rest + (if last.x < CutoffX then [] else [last])
  }

  /** A single NPC survives the drift exactly when its shifted position is not past the cutoff. */
  lemma DriftNpcsSingle(n: Npc, move: real)
    ensures DriftNpcs([n], move) == if Shift(n, move).x < CutoffX then [] else [Shift(n, move)]
  {
    assert [n][..0] == [];
  }

  /**
    Drift works list piece by list piece: the survivors of a + b are the
    survivors of a followed by those of b, so order and multiplicity are kept.
   */
  lemma {:induction false} DriftNpcsAppend(a: seq<Npc>, b: seq<Npc>, move: real)
    ensures DriftNpcs(a + b, move) == DriftNpcs(a, move) + DriftNpcs(b, move)
    decreases |b|
  {
    if |b| == 0 {
      assert a + b == a;
    } else {
      assert (a + b)[..|a + b| - 1] == a + b[..|b| - 1];
      assert (a + b)[|a + b| - 1] == b[|b| - 1];
      DriftNpcsAppend(a, b[..|b| - 1], move);
    }
  }

  // ---------------------------------------------------------------------
  // One NPC, one frame.

  /**
    The result of one NPC's frame: the NPC if it survives, the player after
    it, the callbacks made, and the squared distance it contributes to the
    nearest-danger search.
   */
  datatype Outcome = Outcome(npc: Option<Npc>, player: Player, events: seq<Event>, danger: Option<real>)

  /** Close enough for the NPC to show intent. */
  predicate Near(p: Player, x: real, y: real, r: real) {
    DistLt(p.x - x, p.y - y, CaptureDist(p, r) + Config.IntentDist)
  }

  /** The emotion a flying NPC shows towards a free player. */
  function EmotionToward(p: Player, n: Npc): (e: Emotion)
    ensures e == Fear <==> CanEat(p.r, n.r) && Near(p, n.x, n.y, n.r)
    ensures e == Hungry <==> !CanEat(p.r, n.r) && CanEat(n.r, p.r) && Near(p, n.x, n.y, n.r)
  {
    var near := Near(p, n.x, n.y, n.r);
    if CanEat(p.r, n.r) && near then Fear
    else if CanEat(n.r, p.r) && near then Hungry
    else Neutral
  }

  /** A flying NPC next to a free player: emotion, danger tracking, capture. */
  function Encounter(n: Npc, p: Player): (o: Outcome)
    requires Free(p) && n.state == Fly && n.Ok()
    ensures o.npc.Some? && (o.events == [] || o.events == [Bite(n.x, n.y)])
    ensures o.player.alive && o.player.r == p.r && o.player.x == p.x && o.player.y == p.y
    ensures o.npc.Some? && o.npc.value.Ok()
    ensures o.danger.Some? <==> CanEat(n.r, p.r) && !(CanEat(p.r, n.r) && Near(p, n.x, n.y, n.r))
    ensures o.danger.Some? ==> o.danger.value == DistSq(p.x - n.x, p.y - n.y)
    ensures o.npc.value.state == BeingEaten <==> Captures(p, n.x, n.y, n.r) && CanEat(p.r, n.r)
    ensures o.npc.value.state == EatingPlayer <==>
      Captures(p, n.x, n.y, n.r) && !CanEat(p.r, n.r) && CanEat(n.r, p.r)
    ensures o.npc.value.state == BeingEaten ==>
      o.player == p.(mouth := TriggerChomp(p.mouth)) && o.events == [Bite(n.x, n.y)] &&
      o.npc.value.t == 0.0 && o.npc.value.r0 == n.r && o.npc.value.x0 == n.x && o.npc.value.y0 == n.y
    ensures o.npc.value.state == EatingPlayer ==>
      o.player == p.(beingEaten := Some(Grab(0.0, p.x, p.y, p.r, n.x, n.y))) && o.npc.value.t == 0.0
    ensures o.npc.value.state == Fly ==> o.player == p && o.events == []
    ensures o.npc.value.state == Fly ==> o.npc.value == n.(emotion := EmotionToward(p, n))
    ensures o.npc.value.state != Fly ==> o.npc.value.emotion == EmotionToward(p, n)
  {
    var eats := CanEat(p.r, n.r);
    var eaten := CanEat(n.r, p.r);
    var emotion := EmotionToward(p, n);
    var danger := if eaten && !(eats && Near(p, n.x, n.y, n.r)) then Some(DistSq(p.x - n.x, p.y - n.y)) else None;
    var m := n.(emotion := emotion);
    if Captures(p, n.x, n.y, n.r) then
      SqMono(0.0, CaptureDist(p, n.r));
      if eats then
        Outcome(Some(m.(state := BeingEaten, t := 0.0, x0 := n.x, y0 := n.y, r0 := n.r, emotion := Fear)),
                p.(mouth := TriggerChomp(p.mouth)), [Bite(n.x, n.y)], danger)
      else if eaten then
        assert Near(p, n.x, n.y, n.r) by { CaptureImpliesNear(p, n.x, n.y, n.r); }
        Outcome(Some(m.(state := EatingPlayer, t := 0.0, emotion := Hungry, mouth := TriggerChomp(m.mouth))),
                p.(beingEaten := Some(Grab(0.0, p.x, p.y, p.r, n.x, n.y))), [], danger)
      else
        Outcome(Some(m), p, [], danger)
    else
      Outcome(Some(m), p, [], danger)
  }

  /** A capture is always near: the intent radius extends the capture radius. */
  lemma CaptureImpliesNear(p: Player, x: real, y: real, r: real)
    requires Captures(p, x, y, r)
    ensures Near(p, x, y, r)
  {
    var c := CaptureDist(p, r);
    SqMonoStrict(c, c + Config.IntentDist);
  }

  /** A flying NPC's frame: move and bounce, leave on the left edge, else meet the player. */
  function FlyStep(n: Npc, p: Player, env: Env): (o: Outcome)
    requires n.state == Fly && n.Ok()
    ensures o.player.alive == p.alive && o.player.r == p.r
    ensures o.npc.Some? ==> o.npc.value.Ok() && o.npc.value.x == n.x - env.move
    ensures n.x - env.move + n.r < 0.0 <==> o.npc.None?
    ensures o.npc.None? ==>
      o.player == p && o.danger.None? &&
      o.events == [DeductScore(n.pts, 40.0, Clamp(n.y + Scale(n.vy, env.dt), 40.0, env.groundY - BounceFloorGap))]
    ensures !Free(p) ==> o.player == p && o.danger.None?
    ensures !Free(p) && o.npc.Some? ==> o.npc.value.state == Fly && o.events == []
    ensures p.beingEaten.Some? ==> o.player.beingEaten == p.beingEaten
  {
    var y := n.y + Scale(n.vy, env.dt);
    var vy := if y < BounceTop || y > env.groundY - BounceFloorGap then -n.vy else n.vy;
    var m := n.(x := n.x - env.move, y := y, vy := vy);
    if m.x + m.r < 0.0 then
      Outcome(None, p, [DeductScore(m.pts, 40.0, Clamp(y, 40.0, env.groundY - BounceFloorGap))], None)
    else if !Free(p) then
      Outcome(Some(m), p, [], None)
    else
      Encounter(m, p)
  }

  /** The radius the player reaches after eating an NPC that was caught at radius r0. */
  function GrownRadius(p: Player, r0: real): (r: real)
    ensures p.SizeOk() ==> p.baseR <= r && p.maxR.Admits(r)
    ensures p.maxR == Unbounded && p.SizeOk() ==> r >= p.r + 4.0
  {
    ClampRadius(p.r + (Config.GrowBaseStep + Config.GrowFromRadius(r0)) as real, p.baseR, p.maxR)
  }

  /** An NPC being swallowed: follow the swallow schedule, and on completion feed the player. */
  function SwallowNpc(n: Npc, p: Player, env: Env): (o: Outcome)
    requires n.state == BeingEaten && n.Ok()
    ensures o.danger.None? && o.player.alive == p.alive && o.player.beingEaten == p.beingEaten
    ensures o.npc.Some? ==>
      o.player == p && o.events == [] && o.npc.value.Ok() && o.npc.value.state == BeingEaten &&
      o.npc.value.t < 1.0 && (env.dt >= 0.0 ==> n.t <= o.npc.value.t)
    ensures o.npc.None? ==>
      o.events == [AddScore(n.pts, p.x, p.y - p.r - 10.0)] &&
      o.player.r == GrownRadius(p, n.r0) &&
      o.player.y <= env.groundY - o.player.HalfHeight() &&
      o.player == ClampToGround(p.(r := GrownRadius(p, n.r0)), env.groundY)
    ensures p.SizeOk() ==> o.player.SizeOk()
  {
    var g := SwallowStep(n.t, n.x0, n.y0, n.r0, p.x, p.y, env.dt);
    if g.Done() then
      var grown := p.(r := GrownRadius(p, n.r0));
      Outcome(None, ClampToGround(grown, env.groundY), [AddScore(n.pts, p.x, p.y - p.r - 10.0)], None)
    else
      Outcome(Some(n.(t := g.t, x := g.x, y := g.y, r := g.r)), p, [], None)
  }

  /** One NPC's frame, whatever its state. */
  function StepNpc(n0: Npc, p: Player, env: Env): (o: Outcome)
    requires n0.Ok()
    ensures o.npc.Some? ==> o.npc.value.Ok()
    ensures o.player.alive == p.alive
    ensures p.beingEaten.Some? ==> o.player.beingEaten == p.beingEaten
    ensures p.SizeOk() ==> o.player.SizeOk()
    ensures n0.state != BeingEaten ==> o.player.r == p.r
    ensures n0.state == Fly && !Free(p) ==> o.player == p && o.danger.None?
    ensures n0.state == Fly && !Free(p) && o.npc.Some? ==> o.npc.value.state == Fly && o.events == []
    ensures n0.state == EatingPlayer ==>
      o.player == p && o.events == [] && o.danger.None? &&
      (o.npc.None? <==> n0.x - env.move < CutoffX) &&
      (o.npc.Some? ==> o.npc.value.state == EatingPlayer && o.npc.value.x == n0.x - env.move)
    ensures n0.state == BeingEaten && o.npc.Some? ==> o.npc.value.state == BeingEaten
    ensures o.npc.Some? && o.npc.value.state == BeingEaten && n0.state != BeingEaten ==>
      n0.state == Fly && CanEat(p.r, n0.r)
    ensures o.npc.Some? && o.npc.value.state == EatingPlayer && n0.state != EatingPlayer ==>
      n0.state == Fly && CanEat(n0.r, p.r) && !CanEat(p.r, n0.r) && o.player.beingEaten.Some?
  {
    var n := n0.(mouth := UpdateMouth(n0.mouth, env.dt, env.sinPi));
    match n.state
    case Fly => FlyStep(n, p, env)
    case BeingEaten => SwallowNpc(n, p, env)
    case EatingPlayer =>
      var m := Shift(n, env.move);
      if m.x < CutoffX then Outcome(None, p, [], None) else Outcome(Some(m), p, [], None)
  }

  // ---------------------------------------------------------------------
  // The whole list, in the source's order: last index first.

  /** The running state of the frame loop over the NPC list. */
  datatype Sweep = Sweep(player: Player, kept: seq<Npc>, events: seq<Event>, nearestSq: Option<real>)

  function MinOpt(a: Option<real>, b: Option<real>): Option<real> {
    match a
    case None => b
    case Some(x) => match b { case None => a case Some(y) => Some(Min(x, y)) }
  }

  predicate AllOk(npcs: seq<Npc>) {
    forall i | 0 <= i < |npcs| :: npcs[i].Ok()
  }

  lemma AllOkPrefix(npcs: seq<Npc>)
    requires AllOk(npcs) && |npcs| > 0
    ensures AllOk(npcs[..|npcs| - 1])
  {
    assert forall i | 0 <= i < |npcs| - 1 :: npcs[..|npcs| - 1][i] == npcs[i];
  }

  /** Process `npcs` from the last index down, threading the player through. */
  function SweepNpcs(npcs: seq<Npc>, s: Sweep, env: Env): (r: Sweep)
    requires AllOk(npcs)
    decreases |npcs|
  {
    if |npcs| == 0 then s
    else
      var o := StepNpc(npcs[|npcs| - 1], s.player, env);
      var kept := (if o.npc.Some? then [o.npc.value] else []) + s.kept;
      AllOkPrefix(npcs);
      SweepNpcs(npcs[..|npcs| - 1], Sweep(o.player, kept, s.events + o.events, MinOpt(s.nearestSq, o.danger)), env)
  }

  /** The player's face after the sweep: afraid iff the nearest danger is within `FearDist`. */
  function FaceAfterSweep(p: Player, nearestSq: Option<real>): (q: Player)
    ensures q == p.(emotion := q.emotion)
    ensures !Free(p) ==> q == p
    ensures Free(p) ==> (q.emotion == Fear <==> nearestSq.Some? && nearestSq.value < Sq(FearDist))
    ensures Free(p) && q.emotion != Fear ==> q.emotion == Neutral
  {
    if Free(p) then p.(emotion := if nearestSq.Some? && nearestSq.value < Sq(FearDist) then Fear else Neutral)
    else p
  }

  /** `updateNPCs`: the surviving NPCs in their original order, the player, and the callbacks made. */
  function UpdateNpcs(npcs: seq<Npc>, p: Player, env: Env): (r: (seq<Npc>, Player, seq<Event>))
    requires AllOk(npcs)
  {
    var s := SweepNpcs(npcs, Sweep(p, [], [], None), env);
    (s.kept, FaceAfterSweep(s.player, s.nearestSq), s.events)
  }

  // ---------------------------------------------------------------------
  // Properties of the whole frame.

  /** Number of NPCs that are swallowing or being swallowed. */
  function Engaged(npcs: seq<Npc>): nat {
    if |npcs| == 0 then 0 else (if npcs[0].state != Fly then 1 else 0) + Engaged(npcs[1..])
  }

  lemma {:induction false} EngagedAppend(a: seq<Npc>, b: seq<Npc>)
    ensures Engaged(a + b) == Engaged(a) + Engaged(b)
  {
    if |a| > 0 {
      assert (a + b)[1..] == a[1..] + b;
      EngagedAppend(a[1..], b);
    } else {
      assert a + b == b;
    }
  }

  /** What the sweep keeps invariant. */
  lemma {:induction false} SweepInvariant(npcs: seq<Npc>, s: Sweep, env: Env)
    requires AllOk(npcs) && AllOk(s.kept)
    ensures var r := SweepNpcs(npcs, s, env);
      AllOk(r.kept) &&
      |r.kept| <= |npcs| + |s.kept| &&
      r.player.alive == s.player.alive &&
      (s.player.beingEaten.Some? ==> r.player.beingEaten == s.player.beingEaten) &&
      (s.player.SizeOk() ==> r.player.SizeOk())
    decreases |npcs|
  {
    if |npcs| > 0 {
      var o := StepNpc(npcs[|npcs| - 1], s.player, env);
      var kept := (if o.npc.Some? then [o.npc.value] else []) + s.kept;
      AllOkPrefix(npcs);
      assert AllOk(kept) by {
        forall i | 0 <= i < |kept| ensures kept[i].Ok() {
          if o.npc.Some? && i > 0 { assert kept[i] == s.kept[i - 1]; }
        }
      }
      SweepInvariant(npcs[..|npcs| - 1], Sweep(o.player, kept, s.events + o.events, MinOpt(s.nearestSq, o.danger)), env);
    }
  }

  /**
    No capture is attempted while the player is dead or already being eaten:
    the sweep ends with no more engaged NPCs than it started with.
   */
  lemma {:induction false} NoCaptureWhenHelpless(npcs: seq<Npc>, s: Sweep, env: Env)
    requires AllOk(npcs) && !Free(s.player)
    ensures var r := SweepNpcs(npcs, s, env);
      !Free(r.player) && Engaged(r.kept) <= Engaged(npcs) + Engaged(s.kept)
    decreases |npcs|
  {
    if |npcs| > 0 {
      var n := npcs[|npcs| - 1];
      var init := npcs[..|npcs| - 1];
      var o := StepNpc(n, s.player, env);
      var kept := (if o.npc.Some? then [o.npc.value] else []) + s.kept;
      AllOkPrefix(npcs);
      assert npcs == init + [n];
      EngagedAppend(init, [n]);
      if o.npc.Some? { EngagedAppend([o.npc.value], s.kept); } else { assert kept == s.kept; }
      NoCaptureWhenHelpless(init, Sweep(o.player, kept, s.events + o.events, MinOpt(s.nearestSq, o.danger)), env);
    }
  }

  /** `updateNPCs` never kills the player, keeps its size within [baseR, maxR], and never adds NPCs. */
  lemma UpdateNpcsSafe(npcs: seq<Npc>, p: Player, env: Env)
    requires AllOk(npcs) && p.SizeOk()
    ensures var (kept, q, _) := UpdateNpcs(npcs, p, env);
      AllOk(kept) && |kept| <= |npcs| && q.alive == p.alive && q.SizeOk() && q.baseR == p.baseR
  {
    SweepInvariant(npcs, Sweep(p, [], [], None), env);
    BaseRadiusKept(npcs, Sweep(p, [], [], None), env);
  }

  lemma {:induction false} BaseRadiusKept(npcs: seq<Npc>, s: Sweep, env: Env)
    requires AllOk(npcs)
    ensures SweepNpcs(npcs, s, env).player.baseR == s.player.baseR
    ensures SweepNpcs(npcs, s, env).player.maxR == s.player.maxR
    decreases |npcs|
  {
    if |npcs| > 0 {
      var o := StepNpc(npcs[|npcs| - 1], s.player, env);
      AllOkPrefix(npcs);
      BaseRadiusKept(npcs[..|npcs| - 1],
        Sweep(o.player, (if o.npc.Some? then [o.npc.value] else []) + s.kept, s.events + o.events, MinOpt(s.nearestSq, o.danger)), env);
    }
  }
}

=== FILE: player.dfy ===
/** The player record (src/entities/player.js, `createPlayer`) and the two clamps applied to it. */
module Player {
  import opened Common
  import opened MathUtil
  import opened Mouth
  import Config

  /** The face tag shown on the player and on NPCs. */
  datatype Emotion = Neutral | Fear | Hungry

  /** `player._beingEaten`: where the player was caught, and where the NPC that caught it stood. */
  datatype Grab = Grab(t: real, x0: real, y0: real, r0: real, tx: real, ty: real)

  datatype Player = Player(
    x: real, y: real, vy: real,
    r: real, baseR: real, maxR: Bound,
    alive: bool, emotion: Emotion, mouth: MouthState,
    beingEaten: Option<Grab>,
    squashY: real, squashTarget: real)
  {
    /** The radius lies between the starting radius and the (possibly infinite) cap. */
    predicate SizeOk() { baseR <= r && maxR.Admits(r) }

    /** Half the drawn height: the radius times the vertical squash. */
    function HalfHeight(): real { Scale(r, squashY) }

    /** The reach used for captures: the radius times the mean of 1 and the squash. */
    function CaptureReach(): real { Scale(r, 0.5 * (1.0 + squashY)) }
  }

  /** The player's starting column. */
  const StartX: real := 160.0

  /** A fresh player of radius `baseR`: alive, idle mouth, no cap on growth. */
  function CreatePlayer(baseR: real): (p: Player)
    ensures p.r == baseR && p.baseR == baseR && p.SizeOk()
    ensures p.maxR == Unbounded
    ensures p.alive && p.beingEaten == None && p.emotion == Neutral
    ensures p.mouth == Idle() && p.mouth.Valid()
    ensures p.squashY == 1.0 && p.squashTarget == 1.0
    ensures p.x == StartX && p.y == 0.0 && p.vy == 0.0
  {
    Player(StartX, 0.0, 0.0, baseR, baseR, Unbounded, true, Neutral, Idle(), None, 1.0, 1.0)
  }

  /** With `maxR = Infinity`, every radius at or above `baseR` is admitted. */
  lemma GrowthUncapped(baseR: real, r: real)
    requires baseR <= r
    ensures CreatePlayer(baseR).(r := r).SizeOk()
  {
  }

  /** `clamp(v, lo, hi)` where `hi` may be infinite. */
  function ClampRadius(v: real, lo: real, hi: Bound): (r: real)
    ensures hi.Admits(lo) ==> lo <= r && hi.Admits(r)
    ensures lo <= v && hi.Admits(v) ==> r == v
    ensures v < lo ==> r == lo
    ensures hi == Unbounded ==> r == Max(lo, v)
  {
    match hi
    case Finite(m) => Clamp(v, lo, m)
    case Unbounded => Max(lo, v)
  }

  /** Push the player up so its squashed body does not sink into the ground. */
  function ClampToGround(p: Player, groundY: real): (q: Player)
    ensures q == p.(y := q.y)
    ensures q.y <= groundY - q.HalfHeight()
    ensures p.y <= groundY - p.HalfHeight() ==> q == p
  {
    if p.y > groundY - p.HalfHeight() then p.(y := groundY - p.HalfHeight()) else p
  }

  // ---------------------------------------------------------------------
  // The capture test shared by NPCs, bombs and stars.

  /** Frame parameters: ground line, frame time, scroll distance, and `Math.sin(PI * p)`. */
  datatype Env = Env(groundY: real, dt: real, move: real, sinPi: real -> real)

  /** Captures only happen at or ahead of this distance behind the player's centre. */
  const LeadingEdge: real := 10.0

  /** The player can act: alive and not already inside an NPC's mouth. */
  predicate Free(p: Player) { p.alive && p.beingEaten.None? }

  /** The distance under which an entity of radius r is captured. */
  function CaptureDist(p: Player, r: real): real {
    p.CaptureReach() + r + Config.CapturePad
  }

  /** The capture test: close enough, and not already behind the player. */
  predicate Captures(p: Player, x: real, y: real, r: real) {
    DistLe(p.x - x, p.y - y, CaptureDist(p, r)) && x >= p.x - LeadingEdge
  }
}

=== FILE: powerups.dfy ===
/**
  Stars (src/entities/powerups.js): capture with no size condition, and
  the swallow that shrinks the player back to `baseR` (creation and drift
  are `Swallow.MakeBody` and `Swallow.DriftBodies`).
 */
module Powerups {
  import opened Common
  import opened MathUtil
  import opened Player
  import opened Mouth
  import opened Events
  import opened Swallow

  /** Keep the player's squashed body below the top edge, stopping any upward speed. */
  function ClampToTop(p: Player): (q: Player)
    ensures p.y + p.HalfHeight() < 0.0 ==> q == p.(y := p.HalfHeight(), vy := Max(0.0, p.vy))
    ensures p.y + p.HalfHeight() >= 0.0 ==> q == p
  {
    if p.y + p.HalfHeight() < 0.0 then p.(y := p.HalfHeight(), vy := Max(0.0, p.vy)) else p
  }

  /** The player after a star is swallowed: back to `baseR`, inside the playfield. */
  function Shrink(p: Player, groundY: real): (q: Player)
    ensures q.r == p.baseR && q.baseR == p.baseR && q.maxR == p.maxR
    ensures q == p.(r := p.baseR, y := q.y, vy := q.vy)
    ensures q.HalfHeight() >= 0.0 ==> q.y + q.HalfHeight() >= 0.0
    ensures q.vy != p.vy ==> q.vy == 0.0 && p.vy < 0.0
    ensures q.vy == p.vy || q.vy >= 0.0
    ensures q.y == ClampToGround(p.(r := p.baseR), groundY).y ==> q.y <= groundY - q.HalfHeight()
    ensures p.maxR.Admits(p.baseR) ==> q.SizeOk()
  {
    ClampToTop(ClampToGround(p.(r := p.baseR), groundY))
  }

  /** A star after one frame, the player after it, and the callbacks made. */
  datatype StarOutcome = StarOutcome(star: Option<Body>, player: Player, events: seq<Event>)

  /** One star's frame. */
  function StepStar(b: Body, p: Player, env: Env): (o: StarOutcome)
    requires b.Ok()
    ensures o.star.Some? ==> o.star.value.Ok()
    ensures o.player.alive == p.alive && o.player.beingEaten == p.beingEaten
    ensures o.player.baseR == p.baseR && o.player.maxR == p.maxR
    ensures b.state == Flying ==> o.player.r == p.r
    ensures b.state == Flying ==> (o.star.None? <==> b.x - env.move < BodyCutoffX)
    ensures b.state == Flying && o.star.Some? ==> o.star.value.x == b.x - env.move
    ensures b.state == Flying && o.star.Some? ==>
      (o.star.value.state == Eaten <==> Free(p) && Captures(p, b.x - env.move, b.y, b.r))
    ensures b.state == Flying && o.star.Some? && o.star.value.state == Eaten ==>
      o.player == p.(mouth := TriggerChomp(p.mouth)) && o.events == [Bite(o.star.value.x, b.y)] &&
      o.star.value.t == 0.0 && o.star.value.r0 == b.r
    ensures b.state == Flying && (o.star.None? || o.star.value.state == Flying) ==> o.player == p && o.events == []
    ensures b.state == Eaten && o.star.Some? ==>
      o.player == p && o.events == [] && o.star.value.state == Eaten && (env.dt >= 0.0 ==> b.t <= o.star.value.t)
    ensures b.state == Eaten && o.star.None? ==>
      o.player == Shrink(p, env.groundY) && o.player.r == p.baseR &&
      (o.events != [] <==> p.r != p.baseR) &&
      (o.events != [] ==> o.events == [PopText(Small, o.player.x, o.player.y - o.player.r - 12.0)])
  {
    match b.state
    case Flying =>
      var c := ShiftBody(b, env.move);
      if c.x < BodyCutoffX then StarOutcome(None, p, [])
      else if !Free(p) then StarOutcome(Some(c), p, [])
      else if Captures(p, c.x, c.y, c.r) then
        StarOutcome(Some(c.(state := Eaten, t := 0.0, x0 := c.x, y0 := c.y, r0 := c.r)),
                    p.(mouth := TriggerChomp(p.mouth)), [Bite(c.x, c.y)])
      else StarOutcome(Some(c), p, [])
    case Eaten =>
      var c := SwallowBody(b, p.x, p.y, env.dt);
      if c.t >= 1.0 then
        var q := Shrink(p, env.groundY);
        StarOutcome(None, q, if p.r != q.r then [PopText(Small, q.x, q.y - q.r - 12.0)] else [])
      else StarOutcome(Some(c), p, [])
  }

  /** The running state of the frame loop over the star list. */
  datatype StarSweep = StarSweep(player: Player, kept: seq<Body>, events: seq<Event>)

  /** `updateBlues`: process the stars from the last index down, threading the player through. */
  function UpdateBlues(blues: seq<Body>, s: StarSweep, env: Env): (r: StarSweep)
    requires AllBodiesOk(blues)
    decreases |blues|
  {
    if |blues| == 0 then s
    else
      var o := StepStar(blues[|blues| - 1], s.player, env);
      AllBodiesOkPrefix(blues);
      UpdateBlues(blues[..|blues| - 1],
        StarSweep(o.player, (if o.star.Some? then [o.star.value] else []) + s.kept, s.events + o.events), env)
  }

  /**
    Stars only ever take the player back to `baseR`: after the loop the
    radius is either untouched or exactly `baseR`, the size invariant still
    holds, and the player's life is not affected.
   */
  lemma {:induction false} StarsOnlyShrink(blues: seq<Body>, s: StarSweep, env: Env)
    requires AllBodiesOk(blues)
    ensures var r := UpdateBlues(blues, s, env);
      (r.player.r == s.player.r || r.player.r == s.player.baseR) &&
      r.player.baseR == s.player.baseR && r.player.maxR == s.player.maxR &&
      r.player.alive == s.player.alive && r.player.beingEaten == s.player.beingEaten &&
      (s.player.SizeOk() ==> r.player.SizeOk())
    decreases |blues|
  {
    if |blues| > 0 {
      var o := StepStar(blues[|blues| - 1], s.player, env);
      AllBodiesOkPrefix(blues);
      StarsOnlyShrink(blues[..|blues| - 1],
        StarSweep(o.player, (if o.star.Some? then [o.star.value] else []) + s.kept, s.events + o.events), env);
    }
  }
}

=== FILE: scoring.dfy ===
/**
  The score rules of src/main.js: `setScore` with the in-memory best score
  per mode, `addScore` and `deductScore` with the boss score lock and the
  stress bump on a miss, and `pointsForRadius`.
 */
module Scoring {
  import opened MathUtil
  import Config
  import opened Events

  /** The score, the best score of each mode, the lock, and the miss bookkeeping. */
  datatype ScoreState = ScoreState(
    score: int, arcade: bool, highArcade: int, highStory: int,
    locked: bool, stress: real, missCount: int, missPoints: int)
  {
    predicate Valid() {
      score >= 0 && 0.0 <= stress <= 1.0 &&
      (if arcade then score <= highArcade else score <= highStory)
    }
  }

  function MaxInt(a: int, b: int): int { if a >= b then a else b }

  /** `pointsForRadius`: the score value of an NPC, in [SCORE.min, SCORE.max]. */
  function PointsForRadius(r: real): (pts: int)
    ensures Config.ScoreMin <= pts <= Config.ScoreMax
    ensures Config.ScoreMin <= Config.ScoreFromRadius(r) <= Config.ScoreMax ==> pts == Config.ScoreFromRadius(r)
    ensures r < 3.0 ==> pts == Config.ScoreMin
    ensures r >= 147.0 ==> pts == Config.ScoreMax
  {
    Config.ClampInt(Config.ScoreFromRadius(r), Config.ScoreMin, Config.ScoreMax)
  }

  /** Larger NPCs are never worth less. */
  lemma PointsMonotone(r1: real, r2: real)
    requires r1 <= r2
    ensures PointsForRadius(r1) <= PointsForRadius(r2)
  {
    assert (r1 / 6.0 + 0.5).Floor <= (r2 / 6.0 + 0.5).Floor;
  }

  /** `setScore(n)`: round, floor at 0, and raise the active mode's best score. */
  function SetScore(s: ScoreState, n: real): (r: ScoreState)
    ensures r.score == MaxInt(0, Round(n)) && r.score >= 0
    ensures r == s.(score := r.score, highArcade := r.highArcade, highStory := r.highStory)
    ensures s.arcade ==> r.highArcade == MaxInt(s.highArcade, r.score) && r.highStory == s.highStory
    ensures !s.arcade ==> r.highStory == MaxInt(s.highStory, r.score) && r.highArcade == s.highArcade
    ensures 0.0 <= s.stress <= 1.0 ==> r.Valid()
  {
    var next := MaxInt(0, Round(n));
    if s.arcade then
      s.(score := next, highArcade := if next > s.highArcade then next else s.highArcade)
    else
      s.(score := next, highStory := if next > s.highStory then next else s.highStory)
  }

  /** The score that ends a run is at most the best score of its mode. */
  lemma BestNeverBelowScore(s: ScoreState, n: real)
    ensures var r := SetScore(s, n);
      (s.arcade ==> r.score <= r.highArcade && s.highArcade <= r.highArcade) &&
      (!s.arcade ==> r.score <= r.highStory && s.highStory <= r.highStory)
  {
  }

  /** `addScore(pts, x, y)`: ignored for 0 points or under the lock; otherwise add and pop "+pts". */
  function AddScore(s: ScoreState, pts: int, x: real, y: real): (r: (ScoreState, seq<Event>))
    ensures pts == 0 || s.locked ==> r.0 == s && r.1 == []
    ensures pts != 0 && !s.locked ==>
      r.0 == SetScore(s, (s.score + pts) as real) && r.1 == [PopText(Gain(pts), x, y)]
    ensures pts != 0 && !s.locked && s.score + pts >= 0 ==> r.0.score == s.score + pts
    ensures s.Valid() ==> r.0.Valid()
  {
    if pts == 0 || s.locked then (s, [])
    else (SetScore(s, (s.score + pts) as real), [PopText(Gain(pts), x, y)])
  }

  /** `deductScore(pts, x, y)`: like `addScore` with the sign flipped, plus the stress bump and miss log. */
  function DeductScore(s: ScoreState, pts: int, x: real, y: real): (r: (ScoreState, seq<Event>))
    ensures pts == 0 || s.locked ==> r.0 == s && r.1 == []
    ensures pts != 0 && !s.locked ==>
      r.0.score == MaxInt(0, s.score - pts) &&
      r.0.stress == Clamp(s.stress + Config.DdaBumpOnMiss, 0.0, 1.0) &&
      r.0.missCount == s.missCount + 1 && r.0.missPoints == s.missPoints + pts &&
      r.0.locked == s.locked && r.0.arcade == s.arcade &&
      r.1 == [PopText(Loss(pts), x, y)]
    ensures s.Valid() ==> r.0.Valid()
  {
    if pts == 0 || s.locked then (s, [])
    else
      var t := SetScore(s, (s.score - pts) as real);
      (t.(stress := Clamp(s.stress + Config.DdaBumpOnMiss, 0.0, 1.0),
          missCount := s.missCount + 1, missPoints := s.missPoints + pts),
       [PopText(Loss(pts), x, y)])
  }

  /** A miss costs exactly what the same catch would have earned: deducting undoes adding. */
  lemma AddThenDeduct(s: ScoreState, pts: int, x: real, y: real)
    requires s.Valid() && !s.locked && pts > 0
    ensures DeductScore(AddScore(s, pts, x, y).0, pts, x, y).0.score == s.score
  {
    var added := AddScore(s, pts, x, y).0;
    assert added.score == s.score + pts;
    assert !added.locked;
    var back := DeductScore(added, pts, x, y).0;
    assert back.score == MaxInt(0, added.score - pts);
    assert added.score - pts == s.score;
  }

  /** A miss never takes the score below 0, and a bigger miss never leaves more. */
  lemma DeductFloorsAtZero(s: ScoreState, a: int, b: int)
    requires s.Valid() && !s.locked && 0 < a <= b
    ensures 0 <= DeductScore(s, b, 0.0, 0.0).0.score <= DeductScore(s, a, 0.0, 0.0).0.score
  {
  }

  /** Apply the score requests among `events` in order; other events pass untouched. */
  function ApplyScoreEvents(s: ScoreState, events: seq<Event>): (r: (ScoreState, seq<Event>))
    decreases |events|
  {
    if |events| == 0 then (s, [])
    else
      var step := match events[0]
        case AddScore(pts, x, y) => AddScore(s, pts, x, y)
        case DeductScore(pts, x, y) => DeductScore(s, pts, x, y)
        case _ => (s, []);
      var rest := ApplyScoreEvents(step.0, events[1..]);
      (rest.0, step.1 + rest.1)
  }

  /** Under the boss lock, no score request changes anything at all. */
  lemma {:induction false} LockFreezesScore(s: ScoreState, events: seq<Event>)
    requires s.locked
    ensures ApplyScoreEvents(s, events) == (s, [])
    decreases |events|
  {
    if |events| > 0 {
      var step := match events[0]
        case AddScore(pts, x, y) => AddScore(s, pts, x, y)
        case DeductScore(pts, x, y) => DeductScore(s, pts, x, y)
        case _ => (s, []);
      assert step == (s, []);
      LockFreezesScore(s, events[1..]);
      assert step.1 + [] == [];
    }
  }

  /** Score requests keep the state valid: score at least 0, stress within [0,1]. */
  lemma {:induction false} ScoreEventsKeepValid(s: ScoreState, events: seq<Event>)
    requires s.Valid()
    ensures ApplyScoreEvents(s, events).0.Valid()
    decreases |events|
  {
    if |events| > 0 {
      var step := match events[0]
        case AddScore(pts, x, y) => AddScore(s, pts, x, y)
        case DeductScore(pts, x, y) => DeductScore(s, pts, x, y)
        case _ => (s, []);
      ScoreEventsKeepValid(step.0, events[1..]);
    }
  }

  /** Total points of the add requests among `events`. */
  function Gains(events: seq<Event>): int
    decreases |events|
  {
    if |events| == 0 then 0
    else (if events[0].AddScore? then events[0].pts else 0) + Gains(events[1..])
  }

  predicate OnlyGains(events: seq<Event>) {
    forall i | 0 <= i < |events| :: events[i].DeductScore? ==> false
  }

  predicate NonnegGains(events: seq<Event>) {
    forall i | 0 <= i < |events| :: events[i].AddScore? ==> events[i].pts >= 0
  }

  /** With the lock off and only non-negative gains, the score grows by exactly their total. */
  lemma {:induction false} GainsAccumulate(s: ScoreState, events: seq<Event>)
    requires s.Valid() && !s.locked && OnlyGains(events) && NonnegGains(events)
    ensures ApplyScoreEvents(s, events).0.score == s.score + Gains(events)
    decreases |events|
  {
    if |events| > 0 {
      var step := match events[0]
        case AddScore(pts, x, y) => AddScore(s, pts, x, y)
        case DeductScore(pts, x, y) => DeductScore(s, pts, x, y)
        case _ => (s, []);
      assert events[0].DeductScore? ==> false by { assert OnlyGains(events); }
      assert OnlyGains(events[1..]) && NonnegGains(events[1..]) by {
        forall i | 0 <= i < |events| - 1 ensures events[1..][i] == events[i + 1] { }
      }
      GainsAccumulate(step.0, events[1..]);
    }
  }
}

=== FILE: spawn.dfy ===
/**
  Spawn placement of src/main.js: the spacing gate (`canSpawnNow`,
  `markSpawn`), the overlap tests (`circlesOverlap`, `overlapsExisting`),
  vertical and horizontal placement (`pickSpawnY`, `resolveSpawnX`), the
  spawn timers, and the bomb and star spawners.
 */
module Spawn {
  import opened MathUtil
  import Config
  import opened Npcs
  import opened Swallow

  /** Everything on screen that a new spawn must not overlap. */
  datatype World = World(npcs: seq<Npc>, reds: seq<Body>, blues: seq<Body>)

  /** The footprint of one entity. */
  datatype Circle = Circle(x: real, y: real, r: real)

  /** Extra clearance between spawned circles. */
  const SpawnGap: real := 6.0

  function NpcCircles(npcs: seq<Npc>): (cs: seq<Circle>)
    ensures |cs| == |npcs| && forall i | 0 <= i < |npcs| :: cs[i] == Circle(npcs[i].x, npcs[i].y, npcs[i].r)
  {
    seq(|npcs|, i requires 0 <= i < |npcs| => Circle(npcs[i].x, npcs[i].y, npcs[i].r))
  }

  function BodyCircles(bodies: seq<Body>): (cs: seq<Circle>)
    ensures |cs| == |bodies| && forall i | 0 <= i < |bodies| :: cs[i] == Circle(bodies[i].x, bodies[i].y, bodies[i].r)
  {
    seq(|bodies|, i requires 0 <= i < |bodies| => Circle(bodies[i].x, bodies[i].y, bodies[i].r))
  }

  /** Every footprint, in the order `overlapsExisting` visits them: NPCs, bombs, stars. */
  function Circles(w: World): seq<Circle> {
    NpcCircles(w.npcs) + BodyCircles(w.reds) + BodyCircles(w.blues)
  }

  /** `circlesOverlap`: closer than the two radii plus the gap (no sign check on the radii). */
  predicate CirclesOverlap(x: real, y: real, r: real, c: Circle) {
    DistSq(x - c.x, y - c.y) < Sq(r + c.r + SpawnGap)
  }

  /** The cheap horizontal prefilter: too far apart on x to touch. */
  predicate FarApart(x: real, r: real, c: Circle) {
    x - c.x > r + c.r + SpawnGap || c.x - x > r + c.r + SpawnGap
  }

  /** `overlapsExisting`: skip the far-apart footprints, test the rest. */
  function OverlapsAny(x: real, y: real, r: real, cs: seq<Circle>): bool
    decreases |cs|
  {
    if |cs| == 0 then false
    else if !FarApart(x, r, cs[0]) && CirclesOverlap(x, y, r, cs[0]) then true
    else OverlapsAny(x, y, r, cs[1..])
  }

  /** The radii are not negative enough to make the gap test meaningless. */
  predicate Sane(r: real, cs: seq<Circle>) {
    r >= 0.0 && forall i | 0 <= i < |cs| :: cs[i].r >= 0.0
  }

  /** The prefilter never hides an overlap of non-negative radii. */
  lemma FarApartSound(x: real, y: real, r: real, c: Circle)
    requires r >= 0.0 && c.r >= 0.0 && FarApart(x, r, c)
    ensures !CirclesOverlap(x, y, r, c)
  {
    var rr := r + c.r + SpawnGap;
    if x - c.x > rr { SqMono(rr, x - c.x); } else { SqMono(rr, c.x - x); assert Sq(c.x - x) == Sq(x - c.x); }
  }

  /** With non-negative radii, `overlapsExisting` holds iff some footprint overlaps. */
  lemma {:induction false} OverlapsAnyExists(x: real, y: real, r: real, cs: seq<Circle>)
    requires Sane(r, cs)
    ensures OverlapsAny(x, y, r, cs) <==> exists i :: 0 <= i < |cs| && CirclesOverlap(x, y, r, cs[i])
    decreases |cs|
  {
    if |cs| > 0 {
      assert Sane(r, cs[1..]) by {
        forall i | 0 <= i < |cs| - 1 ensures cs[1..][i] == cs[i + 1] { }
      }
      OverlapsAnyExists(x, y, r, cs[1..]);
      if FarApart(x, r, cs[0]) { FarApartSound(x, y, r, cs[0]); }
      if exists i :: 0 <= i < |cs| && CirclesOverlap(x, y, r, cs[i]) {
        var i :| 0 <= i < |cs| && CirclesOverlap(x, y, r, cs[i]);
        if i > 0 { assert cs[1..][i - 1] == cs[i]; }
      }
      if exists i :: 0 <= i < |cs| - 1 && CirclesOverlap(x, y, r, cs[1..][i]) {
        var i :| 0 <= i < |cs| - 1 && CirclesOverlap(x, y, r, cs[1..][i]);
        assert cs[1..][i] == cs[i + 1];
      }
    }
  }

  predicate Overlaps(x: real, y: real, r: real, w: World) {
    OverlapsAny(x, y, r, Circles(w))
  }

  // ---------------------------------------------------------------------
  // Horizontal placement.

  /** How many 4-pixel nudges `resolveSpawnX` tries. */
  const NudgeCount: nat := 60
  const NudgeStep: real := 4.0

  /** The candidate after k nudges to the right. */
  function Nudged(x: real, k: nat): real { x + NudgeStep * k as real }

  /** The first free candidate among the remaining `left` nudges, or the one past the last. */
  function ResolveFrom(x: real, y: real, r: real, w: World, k: nat, left: nat): real
    decreases left
  {
    if left == 0 || !Overlaps(Nudged(x, k), y, r, w) then Nudged(x, k)
    else ResolveFrom(x, y, r, w, k + 1, left - 1)
  }

  /** `resolveSpawnX` as a function: where the spawn ends up on the x axis. */
  function ResolveX(x: real, y: real, r: real, w: World): real {
    ResolveFrom(x, y, r, w, 0, NudgeCount)
  }

  /**
    `resolveSpawnX`: nudge right in steps of 4 until the spot is free, at
    most 60 times. Returns the position and the number of nudges.
   */
  method ResolveSpawnX(x: real, y: real, r: real, w: World) returns (xx: real, k: nat)
    ensures k <= NudgeCount && xx == Nudged(x, k)
    ensures forall j: nat | j < k :: Overlaps(Nudged(x, j), y, r, w)
    ensures k < NudgeCount ==> !Overlaps(xx, y, r, w)
    ensures xx == ResolveX(x, y, r, w)
  {
    xx := x;
    k := 0;
    while k < NudgeCount
      invariant k <= NudgeCount && xx == Nudged(x, k)
      invariant forall j: nat | j < k :: Overlaps(Nudged(x, j), y, r, w)
      invariant ResolveFrom(x, y, r, w, k, NudgeCount - k) == ResolveX(x, y, r, w)
    {
      if !Overlaps(xx, y, r, w) {
        return;
      }
      xx := xx + NudgeStep;
      k := k + 1;
    }
  }

  // ---------------------------------------------------------------------
  // Vertical placement.

  /** The band NPCs, bombs and stars spawn in: from 60 down to 40 above the ground. */
  const SpawnTop: real := 60.0
  const SpawnFloorGap: real := 40.0

  /** The first candidate height that is free, or the last one if none is. */
  function FirstFree(x: real, r: real, w: World, ys: seq<real>): (y: real)
    requires |ys| > 0
    ensures y in ys
    ensures !Overlaps(x, y, r, w) || y == ys[|ys| - 1]
    ensures exists i :: 0 <= i < |ys| && y == ys[i] && forall j | 0 <= j < i :: Overlaps(x, ys[j], r, w)
    ensures (exists i :: 0 <= i < |ys| && !Overlaps(x, ys[i], r, w)) ==> !Overlaps(x, y, r, w)
    decreases |ys|
  {
    if |ys| == 1 || !Overlaps(x, ys[0], r, w) then ys[0]
    else
      var y := FirstFree(x, r, w, ys[1..]);
      var i :| 0 <= i < |ys| - 1 && y == ys[1..][i] && forall j | 0 <= j < i :: Overlaps(x, ys[1..][j], r, w);
      assert forall j | 0 < j <= i :: ys[j] == ys[1..][j - 1];
      assert (exists i :: 0 <= i < |ys| && !Overlaps(x, ys[i], r, w)) ==>
             (exists i :: 0 <= i < |ys| - 1 && !Overlaps(x, ys[1..][i], r, w)) by {
        if exists i :: 0 <= i < |ys| && !Overlaps(x, ys[i], r, w) {
          var k :| 0 <= k < |ys| && !Overlaps(x, ys[k], r, w);
          assert k > 0 && ys[1..][k - 1] == ys[k];
        }
      }
      y
  }

  /** Every candidate height lies in the spawn band. */
  lemma CandidatesInBand(groundY: real, us: seq<real>)
    requires |us| == HeightTries + 1 && Draws(us) && SpawnTop <= groundY - SpawnFloorGap
    ensures forall y | y in HeightCandidates(groundY, us) :: SpawnTop <= y <= groundY - SpawnFloorGap
  {
    var ys := HeightCandidates(groundY, us);
    forall y | y in ys ensures SpawnTop <= y <= groundY - SpawnFloorGap {
      var i :| 0 <= i < |ys| && ys[i] == y;
      assert 0.0 <= us[i + 1] < 1.0;
    }
  }

  /** How many candidate heights `pickSpawnY` tries after its first draw. */
  const HeightTries: nat := 30

  /** The candidate heights drawn from `us[1..]`; the first draw `us[0]` is never used. */
  function HeightCandidates(groundY: real, us: seq<real>): (ys: seq<real>)
    requires |us| == HeightTries + 1
    ensures |ys| == HeightTries
    ensures forall i | 0 <= i < HeightTries :: ys[i] == Rand(SpawnTop, groundY - SpawnFloorGap, us[i + 1])
  {
    seq(HeightTries, i requires 0 <= i < HeightTries => Rand(SpawnTop, groundY - SpawnFloorGap, us[i + 1]))
  }

  predicate Draws(us: seq<real>) {
    forall i | 0 <= i < |us| :: 0.0 <= us[i] < 1.0
  }

  /** `pickSpawnY`: a free height in the spawn band if one of 30 draws finds it, else the last draw. */
  function PickSpawnY(x: real, r: real, groundY: real, w: World, us: seq<real>): (y: real)
    requires |us| == HeightTries + 1
    ensures y in HeightCandidates(groundY, us)
    ensures Draws(us) && SpawnTop <= groundY - SpawnFloorGap ==> SpawnTop <= y <= groundY - SpawnFloorGap
    ensures (exists i :: 0 <= i < HeightTries && !Overlaps(x, HeightCandidates(groundY, us)[i], r, w)) ==>
      !Overlaps(x, y, r, w)
  {
    var y := FirstFree(x, r, w, HeightCandidates(groundY, us));
    if Draws(us) && SpawnTop <= groundY - SpawnFloorGap then CandidatesInBand(groundY, us); y else y
  }

  /** The first draw of `pickSpawnY` has no influence on the height it returns. */
  lemma FirstDrawUnused(x: real, r: real, groundY: real, w: World, us: seq<real>, v: real)
    requires |us| == HeightTries + 1
    ensures PickSpawnY(x, r, groundY, w, us[0 := v]) == PickSpawnY(x, r, groundY, w, us)
  {
    assert HeightCandidates(groundY, us[0 := v]) == HeightCandidates(groundY, us);
  }

  // ---------------------------------------------------------------------
  // The spacing gate.

  /** Where, in world coordinates, a spawn made now appears. */
  function SpawnWorldX(scrollX: real, innerWidth: real): real {
    scrollX + innerWidth + 60.0
  }

  /** `canSpawnNow`: the spawn point has moved at least `minGap` since the last spawn. */
  predicate CanSpawnNow(scrollX: real, innerWidth: real, lastSpawnWorldX: real, minGap: real) {
    SpawnWorldX(scrollX, innerWidth) - lastSpawnWorldX >= minGap
  }

  /** `markSpawn`: remember the spawn point. */
  function MarkSpawn(scrollX: real, innerWidth: real): (last: real)
    ensures CanSpawnNow(scrollX, innerWidth, last, 0.0)
    ensures forall g :: g > 0.0 ==> !CanSpawnNow(scrollX, innerWidth, last, g)
  {
    SpawnWorldX(scrollX, innerWidth)
  }

  /** After a gated spawn, the next one passes the gate iff the world scrolled at least the gap. */
  lemma SpawnSpacing(s1: real, s2: real, innerWidth: real, gap: real)
    ensures CanSpawnNow(s2, innerWidth, MarkSpawn(s1, innerWidth), gap) <==> s2 - s1 >= gap
  {
  }

  // ---------------------------------------------------------------------
  // Timers.

  /** One spawn timer after a frame: whether it fires, and its new value. */
  datatype TimerStep = TimerStep(fire: bool, t: real)

  /**
    The npc / red / blue timer logic of `tick`: count down while play is
    active; when due, fire if the gate allows and draw a fresh interval in
    [lo, hi], otherwise retry after `retry` seconds.
   */
  function SpawnTimer(t: real, dt: real, active: bool, gateOpen: bool, lo: real, hi: real, retry: real, u: real): (s: TimerStep)
    ensures s.fire ==> gateOpen
    ensures s.fire <==> (if active then t - dt else t) <= 0.0 && gateOpen
    ensures s.fire && 0.0 <= u < 1.0 && lo <= hi ==> lo <= s.t <= hi
    ensures !s.fire && (if active then t - dt else t) <= 0.0 ==> s.t == retry
    ensures (if active then t - dt else t) > 0.0 ==> s.t == (if active then t - dt else t)
  {
    var t1 := if active then t - dt else t;
    if t1 <= 0.0 then
      if gateOpen then TimerStep(true, Rand(lo, hi, u)) else TimerStep(false, retry)
    else TimerStep(false, t1)
  }

  /** `spawnRed`: a bomb of radius in [12,22) just off the right edge, at a free height if one is found. */
  function SpawnRed(innerWidth: real, groundY: real, w: World, uR: real, us: seq<real>): (b: Body)
    requires |us| == HeightTries + 1
    ensures b.state == Flying && b.x == innerWidth + 120.0
    ensures 0.0 <= uR < 1.0 ==> 12.0 <= b.r < 22.0 && b.Ok()
    ensures b.y == PickSpawnY(b.x, b.r, groundY, w, us)
  {
    var r := Rand(12.0, 22.0, uR);
    var x := innerWidth + 120.0;
    MakeBody(x, PickSpawnY(x, r, groundY, w, us), r)
  }

  /** `spawnBlue`: a star of radius in [14,26) just off the right edge. */
  function SpawnBlue(innerWidth: real, groundY: real, w: World, uR: real, us: seq<real>): (b: Body)
    requires |us| == HeightTries + 1
    ensures b.state == Flying && b.x == innerWidth + 120.0
    ensures 0.0 <= uR < 1.0 ==> 14.0 <= b.r < 26.0 && b.Ok()
    ensures b.y == PickSpawnY(b.x, b.r, groundY, w, us)
  {
    var r := Rand(14.0, 26.0, uR);
    var x := innerWidth + 120.0;
    MakeBody(x, PickSpawnY(x, r, groundY, w, us), r)
  }
}

=== FILE: swallow.dfy ===
/**
  The swallow animation shared by NPCs, bombs and stars in their eaten
  state (src/entities/npc.js:96-101, hazards.js:30-35, powerups.js:31-36):
  the timer advances over `EAT.swallowDur`, the eased fraction slides the
  entity from where it was caught to the player and shrinks it to nothing.
 */
module Swallow {
  import opened MathUtil
  import Config

  /** The eaten entity after one frame: timer, position and radius. */
  datatype Gulp = Gulp(t: real, x: real, y: real, r: real) {
    /** The swallow is over once the timer reaches 1. */
    predicate Done() { t >= 1.0 }
  }

  /** The radius of an entity swallowed from radius r0 when the timer reads t. */
  function SwallowRadius(r0: real, t: real): real {
    Lerp(r0, 0.0, EaseInOut(t))
  }

  /** One frame of the swallow, caught at (x0, y0) with radius r0, player at (px, py). */
  function SwallowStep(t: real, x0: real, y0: real, r0: real, px: real, py: real, dt: real): (g: Gulp)
    ensures 0.0 <= g.t <= 1.0
    ensures dt >= 0.0 && t <= 1.0 ==> t <= g.t
    ensures g.r == SwallowRadius(r0, g.t)
    ensures r0 >= 0.0 ==> 0.0 <= g.r <= r0
    ensures g.Done() ==> g.t == 1.0 && g.r == 0.0 && g.x == px && g.y == py
    ensures g.t == 0.0 ==> g.x == x0 && g.y == y0 && g.r == r0
  {
    var t1 := Clamp(t + dt / Config.SwallowDur, 0.0, 1.0);
    var e := EaseInOut(t1);
    Gulp(t1, Lerp(x0, px, e), Lerp(y0, py, e), Lerp(r0, 0.0, e))
  }

  /** Later in the swallow the entity is never larger. */
  lemma SwallowShrinks(r0: real, s: real, t: real)
    requires r0 >= 0.0 && 0.0 <= s <= t <= 1.0
    ensures SwallowRadius(r0, t) <= SwallowRadius(r0, s)
  {
    EaseInOutMonotone(s, t);
    LerpAntitone(r0, 0.0, EaseInOut(s), EaseInOut(t));
  }

  /** Frames never shrink an entity below where the schedule says, nor speed it up past 1. */
  lemma SwallowStepShrinks(t: real, x0: real, y0: real, r0: real, px: real, py: real, dt: real)
    requires r0 >= 0.0 && 0.0 <= t <= 1.0 && dt >= 0.0
    ensures SwallowStep(t, x0, y0, r0, px, py, dt).r <= SwallowRadius(r0, t)
  {
    var g := SwallowStep(t, x0, y0, r0, px, py, dt);
    SwallowShrinks(r0, t, g.t);
  }

  /** A frame at least as long as the swallow duration always completes it. */
  lemma SwallowCompletesInOneLongFrame(t: real, x0: real, y0: real, r0: real, px: real, py: real, dt: real)
    requires t >= 0.0 && dt >= Config.SwallowDur
    ensures SwallowStep(t, x0, y0, r0, px, py, dt).Done()
  {
  }

  // ---------------------------------------------------------------------
  // Bombs and stars: round bodies that fly until swallowed.

  datatype BodyState = Flying | Eaten

  /** A bomb or a star (`{x, y, r, state, t, x0, y0, r0}`). */
  datatype Body = Body(x: real, y: real, r: real, state: BodyState, t: real, x0: real, y0: real, r0: real) {
    predicate Ok() {
      r >= 0.0 && (state == Eaten ==> 0.0 <= t <= 1.0 && 0.0 <= r <= r0)
    }
  }

  /** Bombs and stars that drift this far left are gone. */
  const BodyCutoffX: real := -140.0

  /** `makeRed` / `makeBlue`: a flying body with its swallow timer at 0. */
  function MakeBody(x: real, y: real, r: real): (b: Body)
    ensures b.x == x && b.y == y && b.r == r
    ensures b.state == Flying && b.t == 0.0
    ensures r >= 0.0 ==> b.Ok()
  {
    Body(x, y, r, Flying, 0.0, 0.0, 0.0, 0.0)
  }

  function ShiftBody(b: Body, move: real): Body { b.(x := b.x - move) }

  /** `driftReds` / `driftBlues`: scroll left by `move`, drop the ones past the cutoff, keep the order. */
  function DriftBodies(bodies: seq<Body>, move: real): (r: seq<Body>)
    ensures |r| <= |bodies|
    ensures forall b | b in r :: b.x >= BodyCutoffX
    ensures forall i | 0 <= i < |bodies| :: ShiftBody(bodies[i], move).x >= BodyCutoffX ==> ShiftBody(bodies[i], move) in r
    ensures forall b | b in r :: exists i :: 0 <= i < |bodies| && b == ShiftBody(bodies[i], move)
  {
    if |bodies| == 0 then []
    else
      var rest := DriftBodies(bodies[..|bodies| - 1], move);
      var last := ShiftBody(bodies[|bodies| - 1], move);
      assert forall i | 0 <= i < |bodies| - 1 :: bodies[..|bodies| - 1][i] == bodies[i];
      rest + (if last.x < BodyCutoffX then [] else [last])
  }

  /** A single bomb or star survives the drift exactly when its shifted position is not past the cutoff. */
  lemma DriftBodiesSingle(b: Body, move: real)
    ensures DriftBodies([b], move) == if ShiftBody(b, move).x < BodyCutoffX then [] else [ShiftBody(b, move)]
  {
    assert [b][..0] == [];
  }

  /**
    Drift works list piece by list piece: the survivors of a + c are the
    survivors of a followed by those of c, so order and multiplicity are kept.
   */
  lemma {:induction false} DriftBodiesAppend(a: seq<Body>, c: seq<Body>, move: real)
    ensures DriftBodies(a + c, move) == DriftBodies(a, move) + DriftBodies(c, move)
    decreases |c|
  {
    if |c| == 0 {
      assert a + c == a;
    } else {
      assert (a + c)[..|a + c| - 1] == a + c[..|c| - 1];
      assert (a + c)[|a + c| - 1] == c[|c| - 1];
      DriftBodiesAppend(a, c[..|c| - 1], move);
    }
  }

  /** One frame of a swallowed body; it does not scroll with the world. */
  function SwallowBody(b: Body, px: real, py: real, dt: real): (c: Body)
    requires b.Ok() && b.state == Eaten
    ensures c.Ok() && c.state == Eaten && c.r0 == b.r0
    ensures dt >= 0.0 ==> b.t <= c.t
  {
    var g := SwallowStep(b.t, b.x0, b.y0, b.r0, px, py, dt);
    b.(t := g.t, x := g.x, y := g.y, r := g.r)
  }

  predicate AllBodiesOk(bodies: seq<Body>) {
    forall i | 0 <= i < |bodies| :: bodies[i].Ok()
  }

  lemma AllBodiesOkPrefix(bodies: seq<Body>)
    requires AllBodiesOk(bodies) && |bodies| > 0
    ensures AllBodiesOk(bodies[..|bodies| - 1])
  {
    assert forall i | 0 <= i < |bodies| - 1 :: bodies[..|bodies| - 1][i] == bodies[i];
  }
}

=== FILE: trail.dfy ===
/**
  The trail scheduler of src/main.js: `maybeStartTrail` opens a bundle of
  small edible NPCs in a row (optionally with one bomb in the middle),
  `spawnTrailMember` places one bead, and `updateTrail` spawns the beads
  that are due this frame.
 */
module Trail {
  import opened Common
  import opened MathUtil
  import Config
  import opened EatRule
  import opened Npcs
  import opened Swallow
  import opened Spawn
  import Scoring
  import Difficulty

  datatype TrailKind = Plain | WithBomb

  /** A trail in progress (`trail` in the source; `null` is `None`). */
  datatype Trail = Trail(
    kind: TrailKind, remaining: int, t: real, dt: real,
    baseX: real, y: real, spawned: int, redIndex: int)

  /** The bomb share of trails at difficulty d. */
  function RedTier(d: real): real {
    if d < 0.35 then Config.TrailProbRedEasy else if d < 0.75 then Config.TrailProbRedMid else Config.TrailProbRedHard
  }

  /** The radius `pickSpawnY` is asked to keep clear for a trail. */
  const TrailClearance: real := 56.0

  /** How far right of the screen edge a trail starts. */
  const TrailLead: real := 180.0

  /**
    `maybeStartTrail`: if no trail is running and the roll beats the trail
    probability, start one. The draws are the roll, the kind, the length,
    the spacing, and the heights for `pickSpawnY`.
   */
  function MaybeStartTrail(tr: Option<Trail>, d: real, relief: bool, innerWidth: real, groundY: real, w: World,
                           uRoll: real, uKind: real, uLen: real, uDt: real, us: seq<real>): (r: (bool, Option<Trail>))
    requires |us| == HeightTries + 1
    ensures r.0 <==> tr.None? && uRoll < Difficulty.TrailProb(d, relief)
    ensures !r.0 ==> r.1 == tr
    ensures r.0 ==> r.1.Some? && r.1.value.spawned == 0 && r.1.value.t == 0.0
    ensures r.0 && 0.0 <= uLen < 1.0 ==> Config.TrailLenMin <= r.1.value.remaining <= Config.TrailLenMax
    ensures r.0 && 0.0 <= uDt < 1.0 ==> Config.TrailDtMin <= r.1.value.dt <= Config.TrailDtMax
    ensures r.0 && r.1.value.kind == WithBomb ==> r.1.value.redIndex == r.1.value.remaining / 2
    ensures r.0 && r.1.value.kind == Plain ==> r.1.value.redIndex == -1
    ensures r.0 ==> (r.1.value.kind == WithBomb <==> uKind < RedTier(d) / Max(0.001, Difficulty.TrailProb(d, relief)))
  {
    if tr.Some? then (false, tr)
    else
      var pTrail := Difficulty.TrailProb(d, relief);
      if uRoll < pTrail then
        var kind := if uKind < RedTier(d) / Max(0.001, pTrail) then WithBomb else Plain;
        var len := Rand(Config.TrailLenMin as real, (Config.TrailLenMax + 1) as real, uLen).Floor;
        var dt := Rand(Config.TrailDtMin, Config.TrailDtMax, uDt);
        var baseX := innerWidth + TrailLead;
        var y := PickSpawnY(baseX, TrailClearance, groundY, w, us);
        (true, Some(Trail(kind, len, 0.0, dt, baseX, y, 0, if kind == WithBomb then len / 2 else -1)))
      else (false, None)
  }

  /** The largest bead a player of radius pr can still eat, with a 4% margin. */
  function SafeMax(pr: real): real {
    pr / (1.0 + Config.EatMargin) * 0.96
  }

  /** A bead's radius: a fraction of the player's, kept edible and within [10, 68]. */
  function BeadRadius(pr: real, u: real): (r: real)
    ensures 10.0 <= r <= 68.0
    ensures pr >= 11.0 ==> CanEat(pr, r)
  {
    Clamp(Rand(Config.TrailScaleMin * pr, Config.TrailScaleMax * pr, u), 10.0, Min(68.0, SafeMax(pr)))
  }

  /** Where bead number `spawned` would sit before nudging: evenly spaced by the scroll per interval. */
  function BeadX(tr: Trail, speed: real): real {
    tr.baseX + Scale(tr.spawned as real, Scale(speed, tr.dt) * 0.92)
  }

  /** This bead is the trail's bomb. */
  predicate IsBombSlot(tr: Trail) {
    tr.kind == WithBomb && tr.spawned == tr.redIndex
  }

  /** The trail and the world after one bead, and whether anything spawned. */
  datatype Member = Member(trail: Trail, world: World, spawned: bool)

  /** `spawnTrailMember`: place the next bead (or the bomb), nudged clear of what is already there. */
  function SpawnTrailMember(tr: Trail, pr: real, speed: real, w: World, u1: real, u2: real): (m: Member)
    ensures tr.remaining <= 0 ==> m == Member(tr, w, false)
    ensures tr.remaining > 0 ==>
      m.spawned && m.trail == tr.(spawned := tr.spawned + 1, remaining := tr.remaining - 1) &&
      m.world.blues == w.blues &&
      |m.world.reds| == |w.reds| + (if IsBombSlot(tr) then 1 else 0) &&
      |m.world.npcs| == |w.npcs| + (if IsBombSlot(tr) then 0 else 1) &&
      m.world.npcs[..|w.npcs|] == w.npcs && m.world.reds[..|w.reds|] == w.reds
    ensures tr.remaining > 0 && !IsBombSlot(tr) ==>
      var n := m.world.npcs[|w.npcs|];
      n.worth && n.state == Fly && n.y == tr.y && n.pts == Scoring.PointsForRadius(n.r) &&
      10.0 <= n.r <= 68.0 && (pr >= 11.0 ==> CanEat(pr, n.r))
    ensures tr.remaining > 0 && IsBombSlot(tr) && 0.0 <= u2 < 1.0 ==>
      var b := m.world.reds[|w.reds|];
      b.state == Flying && b.y == tr.y && 12.0 <= b.r < 20.0
  {
    if tr.remaining <= 0 then Member(tr, w, false)
    else
      var r := BeadRadius(pr, u1);
      var beadX := ResolveX(BeadX(tr, speed), tr.y, r, w);
      var next := tr.(spawned := tr.spawned + 1, remaining := tr.remaining - 1);
      if IsBombSlot(tr) then
        var rr := Rand(12.0, 20.0, u2);
        var hx := ResolveX(beadX, tr.y, rr, w);
        Member(next, w.(reds := w.reds + [MakeBody(hx, tr.y, rr)]), true)
      else
        Member(next, w.(npcs := w.npcs + [MakeNpc(beadX, tr.y, r, Scoring.PointsForRadius(r), true, u2)]), true)
  }

  /** The trail after a frame, the world, and whether any bead spawned (so `markSpawn` ran). */
  datatype TrailRun = TrailRun(trail: Option<Trail>, world: World, spawned: bool)

  /** The inner loop of `updateTrail`: spawn due beads until the timer is positive or the trail ends. */
  function RunTrail(tr: Trail, pr: real, speed: real, w: World, draws: seq<real>): (r: TrailRun)
    requires |draws| >= 2 * tr.remaining
    decreases if tr.remaining > 0 then tr.remaining else 0
  {
    if tr.t > 0.0 then TrailRun(Some(tr), w, false)
    else if tr.remaining <= 0 then TrailRun(None, w, false)
    else
      var m := SpawnTrailMember(tr, pr, speed, w, draws[0], draws[1]);
      if m.trail.remaining <= 0 then TrailRun(None, m.world, true)
      else
        var rest := RunTrail(m.trail.(t := m.trail.t + m.trail.dt), pr, speed, m.world, draws[2..]);
        TrailRun(rest.trail, rest.world, true)
  }

  /**
    `updateTrail(dt)`: count the trail timer down and spawn whatever is due.
    Bombs placed this frame are exactly the bombs the trail stops owing, and
    a trail that lives on keeps its total length with time on its clock.
   */
  function UpdateTrail(tr: Option<Trail>, frameDt: real, pr: real, speed: real, w: World, draws: seq<real>): (r: TrailRun)
    requires tr.Some? ==> |draws| >= 2 * tr.value.remaining
    ensures tr.None? ==> r == TrailRun(None, w, false)
    ensures |r.world.reds| == |w.reds| + BombsLeft(tr) - BombsLeft(r.trail) &&
      |r.world.reds| >= |w.reds| && r.world.reds[..|w.reds|] == w.reds
    ensures tr.Some? && tr.value.remaining > 0 && r.trail.Some? ==>
      r.trail.value.spawned + r.trail.value.remaining == tr.value.spawned + tr.value.remaining &&
      r.trail.value.t > 0.0
  {
    if tr.None? then TrailRun(None, w, false)
    else
      var t0 := tr.value.(t := tr.value.t - frameDt);
      TrailPlacesOwedBombs(t0, pr, speed, w, draws);
      if t0.remaining > 0 then
        TrailLengthFixed(t0, pr, speed, w, draws);
        RunTrail(t0, pr, speed, w, draws)
      else RunTrail(t0, pr, speed, w, draws)
  }

  /** How many bombs a trail still has to place (0 or 1). */
  function BombsLeft(tr: Option<Trail>): nat {
    if tr.Some? && tr.value.kind == WithBomb &&
       tr.value.spawned <= tr.value.redIndex < tr.value.spawned + tr.value.remaining
    then 1 else 0
  }

  /** A red trail starts owing exactly one bomb; a plain one owes none. */
  lemma NewTrailOwesOneBomb(tr: Option<Trail>, d: real, relief: bool, innerWidth: real, groundY: real, w: World,
                            uRoll: real, uKind: real, uLen: real, uDt: real, us: seq<real>)
    requires |us| == HeightTries + 1 && 0.0 <= uLen < 1.0
    ensures var (started, t) := MaybeStartTrail(tr, d, relief, innerWidth, groundY, w, uRoll, uKind, uLen, uDt, us);
      started ==> BombsLeft(t) == (if t.value.kind == WithBomb then 1 else 0)
  {
    var r := MaybeStartTrail(tr, d, relief, innerWidth, groundY, w, uRoll, uKind, uLen, uDt, us);
    if r.0 {
      var t := r.1.value;
      assert 4 <= t.remaining <= 7 && t.spawned == 0;
      assert t.kind == WithBomb ==> 0 <= t.redIndex < t.remaining;
    }
  }

  /**
    Bombs are conserved: each run of the trail loop places exactly as many
    bombs as the trail stops owing, so a red trail places one bomb in total
    and a plain trail none.
   */
  lemma {:induction false} TrailPlacesOwedBombs(tr: Trail, pr: real, speed: real, w: World, draws: seq<real>)
    requires |draws| >= 2 * tr.remaining
    ensures var r := RunTrail(tr, pr, speed, w, draws);
      |r.world.reds| == |w.reds| + BombsLeft(Some(tr)) - BombsLeft(r.trail) &&
      |r.world.reds| >= |w.reds| && r.world.reds[..|w.reds|] == w.reds
    decreases if tr.remaining > 0 then tr.remaining else 0
  {
    if tr.t <= 0.0 && tr.remaining > 0 {
      var m := SpawnTrailMember(tr, pr, speed, w, draws[0], draws[1]);
      if m.trail.remaining > 0 {
        var next := m.trail.(t := m.trail.t + m.trail.dt);
        TrailPlacesOwedBombs(next, pr, speed, m.world, draws[2..]);
        var r := RunTrail(next, pr, speed, m.world, draws[2..]);
        assert r.world.reds[..|w.reds|] == r.world.reds[..|m.world.reds|][..|w.reds|];
      }
    }
  }

  /** A trail never spawns more beads than its length: `spawned + remaining` is fixed. */
  lemma {:induction false} TrailLengthFixed(tr: Trail, pr: real, speed: real, w: World, draws: seq<real>)
    requires tr.remaining > 0 && |draws| >= 2 * tr.remaining
    ensures var r := RunTrail(tr, pr, speed, w, draws);
      r.trail.Some? ==> r.trail.value.spawned + r.trail.value.remaining == tr.spawned + tr.remaining &&
                        r.trail.value.remaining > 0 && r.trail.value.t > 0.0
    decreases if tr.remaining > 0 then tr.remaining else 0
  {
    if tr.t <= 0.0 && tr.remaining > 0 {
      var m := SpawnTrailMember(tr, pr, speed, w, draws[0], draws[1]);
      if m.trail.remaining > 0 {
        TrailLengthFixed(m.trail.(t := m.trail.t + m.trail.dt), pr, speed, m.world, draws[2..]);
      }
    }
  }
}
